=== FILE: README.md ===
# Household expense tracker — a Dafny model of its core

This project models the client-side logic of a household expense tracker. The tracker is a single-page web application. Its users record expenses, some paid in monthly instalments. They set one budget per month and keep catalogues of categories, payment cards and people. A dashboard and a charts page summarise the spending. A small task list and local backups sit beside the expenses.

The model covers:

- the expense save pipeline (`guardarGasto`), covering validation order, normalisation and edit-or-append;
- the outstanding-balance calculator (`calcularSaldoPendiente`);
- the recurring-instalment linker, which finds a payer's pending instalment expenses and prefills the next instalment;
- marking an expense paid and deleting it, plus the list filters;
- the budget page: the month's expenses, budget upsert per month, and the card status with its 80 % and 100 % thresholds;
- the dashboard's monthly statistics, spending trend, alerts and month-by-month comparison;
- the charts' groupings: by month, payer, method, card and category, and by day, plus the bar colours and the three-month moving average;
- the configuration page: categories, cards, and the ten-slot user and persona store;
- the task list;
- the backup bookkeeping: the ten retained references and the two timers.

Money is `real`. A `parseFloat` that yields `NaN` is `None`. A string field that the application leaves `null`, `undefined` or empty is `""`, which is how every truthiness test in the application reads it. Dates are `(year, month, day)` triples. Instants and durations are integers in milliseconds.

Modules, in dependency order:

- `Wrappers` holds `Option` and `Result`.
- `Seqs` holds filter, map-where, sum and `slice(-n)`.
- `Groups` holds the keyed sums that stand for the source's `obj[k] += v` objects, plus a stable insertion sort.
- `Text` holds `trim` and JavaScript string comparison.
- `Dates` holds dates.
- `Expenses` holds the expense record and its balance.
- `ExpenseForms` holds saving, paying and deleting.
- `Linker` holds the instalment linker.
- `ExpenseFilters` holds the list filters.
- `Budgets` holds the budget page.
- `Aggregates` and `Charts` hold the chart data.
- `Dashboard` holds the dashboard.
- `Config` holds the configuration page.
- `Tasks` holds the task list.
- `Backups` holds the backup bookkeeping.

## Model

| member | source | states |
|---|---|---|
| Expenses.Saldo | app.js:905-961 | A record marked paid owes nothing. A record is settled exactly when it is marked paid, or when it is an instalment record with both counters whose current instalment has reached the total. An unsettled instalment record owes its committed total less the instalments already accounted for. Any other unsettled record owes its amount. |
| Expenses.BalanceIsRemainingInstalments | app.js:914-945 | For an instalment record whose total was computed from the form, the balance is pending exactly while `mesActual < totalMeses`. It then equals the remaining instalments times the monthly amount, and it is positive. |
| Expenses.Instalments | app.js:471-477 | The instalment total, divided by a positive number of instalments, gives back the monthly amount. It is zero for no instalments and never negative for a non-negative monthly amount. |
| Expenses.TotalSpentIsReduce | app.js:1025-1031 | The summary total is the `reduce` fold: zero for no expenses, and each further expense adds its own `monto`. |
| Expenses.TotalSpentConcat | app.js:1025-1031 | The total of two lists together is the sum of their totals. |
| Expenses.NextInstalmentLowersBalance | app.js:930-945 | Accounting one more instalment keeps the record consistent. It lowers the balance by exactly one monthly amount, and the last instalment settles the record. |
| ExpenseForms.BuildExpense | app.js:1412-1503 | A saved record always has a non-empty description, equal to the form's description trimmed, a positive amount, a category, a payer, and a card whenever the method is not cash. It has no payment state. A single payment gets `montoTotal = monto` and no instalment fields. An instalment expense takes the monthly amount as `monto` and keeps the form's total and counters. |
| ExpenseForms.FirstFailure | app.js:1426-1482 | The reported error belongs to a failing rule that every earlier rule passed. No error is reported exactly when every rule passes. |
| ExpenseForms.ValidationOrder | app.js:1426-1482 | A save fails exactly when some validation rule fails. It reports the error of the first failing rule, in the order description, amount (monthly amount for instalments), date, category, card, payer. |
| ExpenseForms.SaveExpense | app.js:1517-1523 | Without an edit id the new record is appended. With one, the length is kept, records with other ids are untouched, and each record with that id becomes the new record merged over it. |
| ExpenseForms.EditOfMissingIdIsNoOp | app.js:1517-1520 | Saving an edit whose id is no longer in the collection changes nothing. |
| ExpenseForms.SelectAssign | app.js:508-527 | A value assigned to the instalment select survives only when it is one of the options 1..`totalMeses`. |
| ExpenseForms.RebuiltSelectValue | app.js:508-527 | A rebuilt select shows a value exactly when `totalMeses > 1`. That value is one of its options, and it is the smallest option. |
| ExpenseForms.EditedSelect | app.js:1296-1304 | For an instalment record, the edit form's instalment select is always one of the options 1..`totalMeses`, and it is the stored instalment whenever the select offers it. For any other record the select keeps its previous value. |
| ExpenseForms.EditForm | app.js:1259-1326 | The edit form shows the record's description, date, category, card and payer. Method, type and payment mode are never blank: each is the record's own value when set, otherwise its default. The instalment count is always set. A total is shown whenever the mode is instalments. The instalment select is the edited select's value. |
| ExpenseForms.EditRoundTrip | app.js:1259-1326 | Opening a saved record in the edit form and saving it unchanged gives back the same record, apart from a fresh id and creation time. Payment state is carried over by the merge, and every other record is untouched. |
| ExpenseForms.MarkPaid | app.js:988-997 | Every record with the id becomes `estado = 'pagado'`, stamped with the payment time. Every other record is untouched. |
| ExpenseForms.MarkPaidSettles | app.js:975-1000 | After marking, the records with the id have a settled balance, and the total spent is unchanged. |
| ExpenseForms.DeleteExpense | app.js:1568-1585 | Every record whose id differs is kept as often as it occurs, and no record with the id is kept. |
| ExpenseForms.DeleteExpenseKeepsOrder | app.js:1581 | Deleting distributes over concatenation, so the kept records stay in their stored order. |
| ExpenseForms.DeleteLowersTotal | app.js:1581 | Deleting lowers the total spent by exactly the amounts of the deleted records. |
| Linker.PendingOfPayerAsWritten | app.js:214-221 | Selects the payer's unpaid instalment expenses whose stored counters compare as strings with `mesActual < totalMeses`, each as often as it occurs, and nothing else. |
| Linker.PendingOfPayer | app.js:214-221 | This is the corrected selection named under "## Findings", and the one the rest of the model uses. It selects the payer's unpaid instalment expenses whose counters compare as numbers, each as often as it occurs, and nothing else. |
| Linker.PendingKeepsOrder | app.js:214-221 | Both selections distribute over concatenation, so the offered expenses keep their stored order. |
| Linker.ContinuableIffPending | app.js:219 | With the numeric comparison, an instalment expense is offered for continuation exactly when its balance is pending. |
| Linker.StringCompareHidesPendingInstalment | app.js:219 | Instalment 9 of 12 is pending but is not offered as written, because "9" < "12" is false. |
| Linker.AsWrittenAgreesBelowTen | app.js:219 | When both counters are single digits, the string comparison is the numeric one. |
| Linker.Prefill | app.js:237-266 | This is the corrected prefill named under "## Findings". The draft copies description, category, method, card, monthly amount and instalment count from the chosen expense. It keeps the form's date, payer and type. It selects the next instalment number. |
| Linker.PrefillAsWritten | app.js:237-266 | As written, the draft equals the corrected one in every field except the instalment select. The select holds a value exactly when `totalMeses > 1`, and that value is 1. |
| Linker.PrefillAsWrittenRestartsAtOne | app.js:257-263 | As written, the draft's instalment select ends on 1, not on the next instalment, because it is rebuilt after being set. |
| Linker.ContinueRecordsNextInstalment | app.js:237-266 | Saving the intended draft records the next instalment. It has the same monthly amount, total and instalment count, and a counter one higher. Its balance is one monthly amount lower, or settled after the last instalment. |
| ExpenseFilters.ApplyFilters | app.js:1033-1054 | The result is taken from the input and holds exactly the expenses matching every criterion that is not "all". |
| ExpenseFilters.ShowAllIsIdentity | app.js:1036-1051 | With every select on "all", the list is shown unchanged and in order. |
| ExpenseFilters.ApplyFiltersPreservesOrder | app.js:1041-1052 | Filtering distributes over concatenation, so the shown expenses keep their stored order. |
| Budgets.ExpensesOfMonth | budget.js:97-102 | Selects exactly the expenses dated in the given month of the given year. |
| Budgets.ExpensesOfMonthIsMonthFilter | budget.js:97-102 | The budget page's month selection equals the expense list filter with only month and year set. |
| Budgets.SpentInMonthSplitsTotal | budget.js:244-245 | A month's spending plus the spending outside that month is the total spent. |
| Budgets.BuildBudget | budget.js:161-180 | A missing or zero month or year is rejected first, then a non-positive or unparsable amount. A built budget carries the form's month, year and positive amount. |
| Budgets.FindMonth | budget.js:187 | Gives the index of the first budget of that month, or nothing exactly when no budget has that month. |
| Budgets.FindBudget | dashboard.js:838 | Gives a stored budget of that month, or nothing exactly when there is none. |
| Budgets.FindMonthIsFirstMatch | budget.js:187 | The first index matching the month is the one reported. |
| Budgets.UpsertBudget | budget.js:186-192 | A budget for a new month is appended. Otherwise the first budget of that month is replaced in place and everything else is kept. |
| Budgets.UpsertKeepsMonthsUnique | budget.js:186-192 | If there was at most one budget per month before an upsert, there still is after it. |
| Budgets.UpsertThenFind | budget.js:186-192 | After an upsert, the month's budget is the one just saved, and other months' budgets are unchanged. |
| Budgets.UpsertFindsSaved | budget.js:186-192 | After an upsert, the month's first budget is at the replaced position, or at the end for a new month. |
| Budgets.UpsertKeepsOtherMonth | budget.js:186-192 | An upsert does not change which budget another month's lookup finds. |
| Budgets.SaveBudget | budget.js:161-204 | Saving fails exactly when the form is invalid. After a successful save, looking up the form's month gives the new budget, and budgets stay unique per month. |
| Budgets.DeleteBudget | budget.js:328 | Every budget whose id differs is kept as often as it occurs, and no budget with the id is kept. |
| Budgets.DeleteBudgetKeepsOrder | budget.js:328 | Deleting distributes over concatenation, so the kept budgets stay in their stored order. |
| Budgets.LoadEnabled | budget.js:81-88 | Budgets are enabled when nothing was saved. Otherwise the saved flag is used. |
| Budgets.ListedBudgets | budget.js:235 | Lists the same budgets, as a multiset, newest month first. |
| Budgets.StatusOf | budget.js:247-263 | A card is disabled exactly when budgets are off or the amount is not positive. It is exceeded at or above 100 % of the amount, near the limit from 80 % up to 100 %, and within the limit below 80 %. |
| Budgets.UsageScales | budget.js:252-256 | For a positive budget, `(spent / amount) * 100 >= p` is `spent >= amount * p / 100`. |
| Budgets.UsageThresholds | budget.js:253-256 | The 100 % and 80 % usage thresholds, stated in money. |
| Budgets.BudgetCard | budget.js:239-297 | The card shows the month's spending, a status consistent with it, and an available amount that together with the spending makes up the budget. A progress bar appears exactly when budgets are enabled. It is `Math.min(porcentajeUso, 100)` wide, stated in money: the share spent while below the budget, 100 once the budget is reached, and 0 for a budget that is not positive. |
| Budgets.CardProgressAgreesWithStatus | budget.js:249-295 | With non-negative amounts, the bar is 0 to 100 wide and full exactly when the card reads exceeded. Below the budget it is the spent share times 100; at or above it, 100; for a budget that is not positive, 0. A negative available amount shows only on an exceeded or disabled card. |
| Aggregates.MonthlyTotals | charts.js:236-269 | One entry per month with expenses, in ascending month order, each holding that month's total. Together the entries add up to the total spent. |
| Aggregates.PayerStats | charts.js:271-309 | Exactly the listed names with a positive total appear. Each has its total and its cash, debit and credit parts. |
| Aggregates.PayerMethodsWithinTotal | charts.js:290-301 | For non-negative amounts, a payer's method parts never exceed the payer's total. They add up to it when every expense uses a known method. |
| Aggregates.MethodPartsOfPayer | charts.js:293-299 | For non-negative amounts, a payer's cash, debit and credit parts never exceed the payer's total. They make it up when every expense uses one of the three methods. |
| Aggregates.DetailOf | charts.js:318-333 | A group keeps its key and total. Its card and method are those of the first expense with the key, and they render back to the key. Its per-category totals have exactly the categories that occur among the key's expenses, with distinct keys. Each is the spending of that category among the key's expenses, and together they add up to the total. |
| Aggregates.DetailedMethods | charts.js:311-339 | Among expenses with method, card and category set, there is exactly one group per card-and-method pair that occurs. Each group records the card and method of the first expense with its key, which render back to the key. Each group's total is that pair's spending and the sum of its per-category totals. A group lists exactly the categories that occur within its pair, each with that category's spending within the pair. The groups add up to those expenses' spending. |
| Aggregates.Origin | charts.js:318-324 | The card and method a group records are those of the first expense with the key, and they render back to the key when it occurs. |
| Aggregates.GroupDetails | charts.js:311-339 | The same breakdown, stated for a collection of expenses already known to be detailed. |
| Aggregates.SameKeys | charts.js:318-333 | Groups built entry by entry from the keyed sums have exactly the keys that occur. |
| Aggregates.Window | charts.js:650-657 | The trailing window holds one to three months and ends at the current month. |
| Aggregates.MovingAverage | dashboard.js:673-680 | One average per month, each the mean of the trailing window of at most three months. |
| Aggregates.MovingAverageWithinRange | charts.js:650-657 | Moving averages stay within the range of the monthly totals, and the first equals the first total. |
| Charts.MethodTotals | charts.js:786-794 | Exactly one entry per method that occurs, where a missing method counts as cash. No key is empty. Each entry holds its method's spending, the cash entry including the expenses without a method. The entries add up to the total spent. |
| Charts.CashTotal | charts.js:789 | The cash group holds exactly the spending of the cash expenses and of those without a method. |
| Charts.CategoryTotals | charts.js:800-808 | Exactly one entry per category that occurs, where a missing category counts as "Sin categoría". No key is empty. Each entry holds its category's spending, and the entries add up to the total spent. |
| Charts.DayTotals | charts.js:771-784 | One entry per day of the month with expenses, holding that day's total. The entries add up to the total spent. |
| Charts.BarColours | charts.js:380-392 | A bar is red exactly above 120 % of the mean of the bars shown. For a non-negative mean, a bar is green exactly at or below the mean. |
| Charts.SomeBarIsGreen | charts.js:380-392 | With a non-negative mean, at least one bar is green. |
| Dashboard.DaysElapsed | dashboard.js:850 | At least one day, and otherwise the number of days begun since the first of the month. |
| Dashboard.DailyAverage | dashboard.js:851 | The daily average, spent on every elapsed day, gives the total. |
| Dashboard.CalculateStats | dashboard.js:845-870 | The total and count are the month's. The per-category and per-method groups have exactly the keys that occur, with no key twice. Each holds its key's spending, and together they add up to the total. Card payments are grouped per card. |
| Dashboard.DaySums | dashboard.js:874-881 | The per-day sums are in ascending day order, one per day with expenses, each holding that day's spending. |
| Dashboard.MethodKey | dashboard.js:859-866 | The key is empty exactly when the method is. It always starts with the method, and it has `-` and the card appended exactly for credit or debit payments with a card. |
| Dashboard.CalculateTrend | dashboard.js:873-887 | Fewer than seven day sums read as stable. Otherwise the trend is up exactly when the last seven days' sum exceeds 120 % of the first seven days' sum, and down exactly when it is below 80 % without being up. Dividing both weeks by seven does not change the comparison. |
| Dashboard.TrendNeedsSevenDays | dashboard.js:881-882 | With fewer than seven distinct days of expenses the trend is stable. |
| Dashboard.DaySumsBound | dashboard.js:881 | There are no more day sums than distinct days. |
| Dashboard.SevenDaysAreStable | dashboard.js:881-887 | With exactly seven days of non-negative spending the first and last weeks coincide, so the trend is stable. |
| Dashboard.FirstMax | dashboard.js:1040 | The chosen category has the largest total, and no earlier category reaches it. |
| Dashboard.BudgetAlert | dashboard.js:1023-1032 | At most one budget alert. An enabled, existing budget alerts as exceeded at 100 % usage and as near at 80 %. An enabled missing budget gives the notice. |
| Dashboard.Advisories | dashboard.js:1034-1051 | No advisory concerns the budget. The daily-average warning appears exactly above 1000 a day. The no-expenses notice appears exactly for none, and the low-activity notice, with its count, exactly for one to four. The concentration notices are exactly the concentration alert's. |
| Dashboard.ConcentrationAlert | dashboard.js:1038-1045 | At most one notice. It appears exactly when there are categories and the largest one exceeds half of the spending, and it names that category. |
| Dashboard.ActivityAlert | dashboard.js:1047-1051 | The no-expenses notice appears exactly for no expenses. The low-activity notice, with the count, appears exactly for one to four. |
| Dashboard.ConcentrationAdvisory | dashboard.js:1038-1045 | Among the advisories, a concentration notice appears exactly when the largest category exceeds half of the spending, and it names that category. |
| Dashboard.GenerateAlerts | dashboard.js:1018-1054 | The exceeded, near and no-budget alerts each appear exactly under their budget conditions. The other alerts are exactly the advisories. |
| Dashboard.AlertAgreesWithCard | dashboard.js:1023-1032 | For the current month, the dashboard's exceeded and near alerts agree with the budget page's card status for that month's budget. |
| Dashboard.Comparativa | dashboard.js:187-236 | The comparison is the trailing part of the monthly totals. It has `n` months, or every month when `n` is 0 or at least the number of months. |
| Dashboard.ComparativaIsLatestMonths | dashboard.js:222-230 | The compared months are ascending, each with its own total. Every month with expenses that is left out is earlier than all those shown. |
| Dashboard.ComparativaCoversAllSpending | dashboard.js:187-236 | Without truncation the comparison accounts for all spending. |
| Config.SlotScanAsWritten | config.js:1039-1072 | As written, the scan takes the first free slot unless an occupied slot before it holds the login. Later slots are never checked. |
| Config.FirstFree | config.js:1039-1058 | Gives the first unoccupied slot from a position on, with every slot before it occupied, or nothing exactly when every such slot is occupied. |
| Config.SlotFor | config.js:1039-1072 | A new "usuario" is refused exactly when its login is already in use in any slot. Without free slots the result is "no free slot". Otherwise it gets the first free slot. |
| Config.AsWrittenAgreesWhenLoginUnused | config.js:1039-1072 | When the login is unused, the written scan and the intended one agree. |
| Config.HoleAdmitsDuplicateLogin | config.js:1039-1058 | With slot user1 free and "ana" in user2, the written scan puts a second "ana" into user1. The intended scan refuses it. |
| Config.Written | config.js:1013-1027 | The written document merges the form's name, type and active flag over the old document. Login and password are written only for a "usuario", and the password only when given. The creation time is stamped. |
| Config.SaveUser | config.js:984-1077 | This is the corrected save named under "## Findings", with the corrected slot search. A missing name is rejected first. Then a missing login for a "usuario", then a missing password for a new "usuario", then the slot search's error. A new "usuario" never reuses a login that any slot holds. |
| Config.SaveUserWritesOnlyTarget | config.js:1030-1077 | A successful save writes only the target slot, and every other slot keeps its document. An edit keeps its slot. A creation lands in the first slot that was free. |
| Config.LoadedSlots | config.js:741-767 | Loads the document of every occupied slot among the first `k`, and nothing else. The slots the documents come from strictly increase, so the documents are in slot order and each slot's appears once. |
| Config.SlotRankOf | config.js:739-741 | The slot names are distinct, so a slot's rank is its position in the scan. |
| Config.LoadUsers | config.js:731-767 | Personas and users are split by type. Every listed document comes from a slot, and every occupied slot's document is listed on its side. |
| Config.SplitByTipo | config.js:760-767 | Each loaded document lands on exactly one side, chosen by its type, as often as it was loaded. Both sides keep the slot order. |
| Config.LoadUsersKeepsSlotOrder | config.js:731-767 | Users and personas together are the loaded documents, each exactly once, and both lists are in slot order. |
| Config.ListedOnItsSide | config.js:760-767 | An occupied slot's document is listed on the side its type selects. |
| Config.NewUserIsListed | config.js:1068-1077 | After a successful creation, reloading lists the new user or persona, with its name and type, on the right side. |
| Config.CreatingKeepsLoginsUnique | config.js:1039-1077 | With the intended slot search, creating a user or persona keeps logins unique across slots. |
| Config.FreshLoginKeepsUnique | config.js:1044-1077 | Writing a document with no login, or with a login no slot holds, into a free slot keeps logins unique. |
| Config.Upsert | config.js:315-321 | Without an edit id the record is appended. With one, the records with that id are replaced and the rest are kept. |
| Config.SaveCategory | config.js:276-321 | Fails exactly for a blank name. Otherwise it saves the trimmed name, with the folder icon when none was chosen. |
| Config.SaveCard | config.js:646-687 | Fails exactly for a blank name. Otherwise it saves the card with the trimmed name. |
| Config.DeleteCategory | config.js:453 | Every category whose id differs is kept as often as it occurs, and none with the id is kept. An absent id changes nothing. |
| Config.DeleteCategoryKeepsOrder | config.js:453 | Deleting distributes over concatenation, so the kept categories stay in their order. |
| Config.DeleteCard | config.js:632 | Every card whose id differs is kept as often as it occurs, and none with the id is kept. An absent id changes nothing. |
| Config.DeleteCardKeepsOrder | config.js:632 | Deleting distributes over concatenation, so the kept cards stay in their order. |
| Config.CreateThenDeleteCategory | config.js:315-321 | Deleting a category just created under a fresh id restores the catalogue. |
| Config.CreateThenDeleteCard | config.js:681-687 | Deleting a card just created under a fresh id restores the catalogue. |
| Config.Statistics | config.js:1242-1250 | Each active count is the number of positions whose entry is not explicitly inactive (`activa !== false`). It never exceeds the catalogue size and equals it exactly when nothing is inactive. Users are counted in full. |
| Config.CategoriesCounted | config.js:1246 | The filtered categories are as many as the positions holding a category not explicitly inactive. There are as many as the catalogue holds exactly when none is inactive. |
| Config.CardsCounted | config.js:1247 | The same count for the cards. |
| Config.NewCategoryCounted | config.js:1246 | Creating a category raises the active count by one exactly when it is created active. |
| Tasks.CostOf | tasks.js:65 | A blank, unparsable or zero cost is no cost. Any other cost is kept. |
| Tasks.SaveTask | tasks.js:53-97 | An unknown state is rejected first. Then a blank description or a missing start, then a negative cost. A saved task is well formed, and it is appended, or merged over the edited task keeping its `updatedAt`. |
| Tasks.SaveKeepsTasksWellFormed | tasks.js:53-97 | Saving keeps every task of the list well formed. |
| Tasks.FilterByEstado | tasks.js:144-147 | "todas" shows everything. Any other state shows every task in that state as often as it is stored, and nothing else. |
| Tasks.FilterByEstadoKeepsOrder | tasks.js:144-147 | Filtering distributes over concatenation, so the shown tasks keep their stored order. |
| Tasks.CompletingClearsOverdue | tasks.js:185-186 | After marking an id completed, a task is overdue on a given day exactly when it was overdue before and does not carry that id. |
| Tasks.Listing | tasks.js:140-168 | The listing holds exactly the filtered tasks, as a multiset, newest first. |
| Tasks.ListingShowsAll | tasks.js:144-168 | Under "todas" every task is listed, each as often as it is stored. |
| Tasks.MarkCompleted | tasks.js:264-276 | The tasks with the id become completed, stamped with the time, and are no longer overdue. Other tasks are untouched. |
| Tasks.DeleteTask | tasks.js:250-263 | Every task whose id differs is kept as often as it occurs, and none with the id is kept. |
| Tasks.DeleteTaskKeepsOrder | tasks.js:255 | Deleting distributes over concatenation, so the kept tasks stay in their order. |
| Tasks.Pendientes | tasks.js:293-295 | Every task in state "pendiente", as often as it is stored, and nothing else. |
| Tasks.PendientesKeepsOrder | tasks.js:293-295 | The pending tasks keep their stored order. |
| Tasks.CompletingLeavesPending | tasks.js:269 | Completing a task removes it, and only it, from the pending tasks. |
| Tasks.DeletingLeavesPending | tasks.js:255 | Deleting a task removes it, and only it, from the pending tasks. |
| Backups.SaveBackupReference | backup.js:121-139 | The new reference ends the list. Below the bound nothing is evicted. At the bound the oldest reference is evicted and its backup removed. |
| Backups.RetainsLatest | backup.js:121-139 | However many backups are taken, exactly the latest ten are retained, oldest first. |
| Backups.LatestAsWritten | backup.js:245-257 | As written, the "latest" backup is the first retained reference. |
| Backups.Latest | backup.js:127-131 | The latest backup is in the list, and in a chronological list no backup is newer. |
| Backups.SaveKeepsChronological | backup.js:121-139 | Saving a reference no older than the retained ones keeps the list in chronological order. |
| Backups.SaveThenLatest | backup.js:127-131 | The backup just saved is the latest one, and in a chronological list the latest is the newest. |
| Backups.DownloadPicksOldest | backup.js:257 | After two backups, the one downloaded as latest is the older one. |
| Backups.AutoBackupTick | backup.js:281-293 | The hourly check takes a backup exactly when none was taken or the last is more than 24 hours old, and then records the time. |
| Backups.BackupAtLeastDaily | backup.js:284-290 | Whatever one check decides, a check more than 24 hours later takes a backup. |
| Backups.AtMostOneBackupPerDay | backup.js:284-290 | Two checks at most a day apart never both take a backup. |
| Backups.WholeDays | backup.js:300 | `Math.floor` of the elapsed days. |
| Backups.StaleWarning | backup.js:295-306 | The warning carries the whole days since the last automatic backup, when that is more than seven. |
| Backups.StaleAfterEightDays | backup.js:300-304 | The warning appears exactly once eight full days have passed since the last automatic backup. |
| Text.Trim | app.js:1412 | The trimmed string is the contiguous piece that starts at the first character that is not white space. It neither starts nor ends with white space, and everything cut off after it is white space. White space is the ECMAScript set: tab, vertical tab, form feed, byte order mark, every Unicode space separator, and the line terminators. |
| Text.SkipLeading | app.js:1412 | The first position from a given one on that holds no white space, with only white space before it. |
| Text.SkipTrailing | app.js:1412 | The end of a piece once its trailing white space is cut off: only white space follows, and the piece then ends on a character that is not white space. |
| Text.TrimEmptyIffBlank | app.js:1412 | A trimmed field is empty exactly when the field is all white space. |
| Text.TrimIdempotent | app.js:1412 | Trimming twice is trimming once. |
| Text.JsLessIrreflexive | app.js:219 | No string is less than itself under JavaScript's string `<`. |
| Text.JsLessAsymmetric | app.js:219 | Of two strings, at most one is less than the other. |
| Text.JsLessTotal | app.js:219 | Of two different strings, one is less than the other. |
| Text.JsLessTransitive | app.js:219 | The string order is transitive, so it is a strict total order. |
| Text.SingleDigitCompare | app.js:219 | For single-digit numbers, comparing their decimal strings agrees with comparing the numbers. |
| ExpenseForms.FormErrorIsFirstFailure | app.js:1426-1482 | The nested validation checks report the first failing rule of the ordered rule list. |
| Seqs.FilterLength | config.js:1246-1247 | A filter is exactly as long as the number of positions whose element satisfies the predicate. |
| Seqs.FilterCount | app.js:1581 | A filter keeps every element satisfying the predicate as often as it occurs, and nothing else. |
| Seqs.FilterIncreasing | config.js:760-767 | A filter keeps the relative order of the elements it retains. |
| Seqs.SplitIncreasing | config.js:760-767 | A predicate and its complement split a collection in order: every element lands on one side, as often as it occurs. |
| Seqs.TakeLast | dashboard.js:230 | `slice(-n)` keeps the last `n` elements, or everything when `n` is 0 or exceeds the length. |
| Groups.GroupSum | dashboard.js:853-857 | One entry per key occurring. Each entry holds the sum of its key's elements, and the entries add up to the whole sum. |
| Groups.GroupSumEntries | dashboard.js:853-857 | Every entry of the keyed sums holds the sum of its own key's elements. |
| Groups.SortBy | budget.js:235 | The sort is a permutation of its input and is ordered by the key. |

## Left out

- Storage is left out: the per-user document store, the browser's local storage, and the read and write failures of both. Every operation takes the stored collection as a parameter and returns the collection it would write.
- The signed-in check ("Usuario no autenticado") is left out. Every operation is modelled for a signed-in user.
- Confirmation dialogs, notifications, focus changes, rendering and the timers' scheduling are left out. The timers' decisions are modelled as functions of the current time, which is a parameter, as are the fresh ids.
- Number formatting (`toFixed`, `toLocaleString`) and floating-point rounding are left out. Money is exact `real`.
- Time zones, date-string parsing and `Invalid Date` are left out. A date is a valid calendar triple, and expenses with unparsable dates, which the charts skip, are not modelled.
- `parseFloat` and `parseInt` are left out as string functions. Their results are inputs: `None` stands for `NaN`.
- Expenses.Instalments: the `parseFloat(...) || 0` and `parseInt(...) || 0` fallbacks of `calcularMontoTotal` (app.js:472-473) are not modelled; the monthly amount and the count come in already parsed.
- Expenses.TotalSpent: the `gasto.monto || 0` fallback of `actualizarResumenGastos` (app.js:1026) is not modelled; every stored `monto` is a number.
- The key order of JavaScript objects is left out. The model's keyed groups list keys in first-occurrence order, where the source would list integer-like keys first.
- Groups.SortBy: stability is not proved, only ordering and permutation. `Array.prototype.sort` is stable, and no property here depends on it.
- Expenses.Saldo: the repeated `estado === 'pagado'` test inside the single-payment branch (app.js:948) can never succeed there, so it has no counterpart.
- ExpenseForms.SaveExpense: an edit gives the record a fresh id, because the new record is spread last and carries `Date.now()` as its id (app.js:1488, 1519). The same holds for budgets (budget.js:174, 189), tasks (tasks.js:69, 85), categories and cards. The model follows the code here, although an edit reads as if it should keep the id.
- Config.SaveUser: the source takes a slot whose read fails as free (config.js:1059-1063). Reads are modelled as succeeding.
- Config.Written: the creation time is rewritten on every save, including edits, as the source does; the model has no separate "first created" time.
- Tasks.SaveTask: the list of allowed states is not part of this model's source files, so it is a parameter.
- Backups: the backup payloads are left out, along with creating, exporting and restoring them. Only the reference list and the timers are modelled.
- Backups.AutoBackupTick: a stored last-backup stamp that does not parse as a number is not modelled. The stamp is `Some(ms)` or `None`.
- Dashboard.CalculateStats: the trend is stated through `Dashboard.CalculateTrend`, whose own contract relates it to the two weeks' sums.
- Dashboard.Comparativa: the source's empty-input guard (dashboard.js:188-191) is subsumed, because no expenses give no months.
- The form helpers around the core are left out: `buscarGastosSimilares`, `sugerirValoresRecurrentes` and the per-type field toggling. They only move values between form fields. The instalment total and the select population are modelled, by `Expenses.Instalments`, `ExpenseForms.SelectAssign` and `ExpenseForms.RebuiltSelectValue`.
- The theme, the service worker, the install prompt and the lazy chart loader are outside the modelled core.

## Findings

| source | as written | input that shows it | evidently intended | confidence | as-written member | corrected member |
|---|---|---|---|---|---|---|
| app.js:219 | `gasto.mesActual < gasto.totalMeses` compares the two stored select values as strings | an unpaid instalment expense stored with `mesActual` "9" and `totalMeses` "12": "9" < "12" is false, so it is not offered for continuation | compare the counters as numbers, as the balance calculator does (app.js:915-916) | high (not executed) | Linker.PendingOfPayerAsWritten, Linker.StringCompareHidesPendingInstalment | Linker.PendingOfPayer, Linker.ContinuableIffPending |
| app.js:257-263 | the next instalment number is written into the select, which is then rebuilt, discarding it | continuing instalment 3 of 6 drafts instalment 1 instead of 4 | rebuild the select first, then select `mesActual + 1` | high (not executed) | Linker.PrefillAsWritten, Linker.PrefillAsWrittenRestartsAtOne | Linker.Prefill, Linker.ContinueRecordsNextInstalment |
| backup.js:257 | `backupList[0]` is taken as the latest backup (also labelled "Más reciente" at backup.js:165), but new references are pushed at the end | two backups a then b: the download and the label pick a | take the last element of the list | high (not executed) | Backups.LatestAsWritten, Backups.DownloadPicksOldest | Backups.Latest, Backups.SaveThenLatest |
| config.js:1039-1058 | the duplicate-login check only covers the slots before the first free one, and deleting a user (config.js:947-966) frees a slot in the middle | user1 free, user2 holds login "ana": creating a new "usuario" "ana" is stored in user1, duplicating the login | reject a login used in any slot before choosing a free slot | high (not executed) | Config.SlotScanAsWritten, Config.HoleAdmitsDuplicateLogin | Config.SlotFor, Config.CreatingKeepsLoginsUnique |

=== FILE: aggregates.dfy ===
/**
 * Aggregations the dashboard and the chart manager compute the same way:
 * totals per year-month, per payer (with a per-method breakdown), per
 * card-and-method (with a per-category breakdown), and the three-month
 * trailing moving average drawn over the monthly totals.
 */
module Aggregates {
  import opened Seqs
  import opened Groups
  import opened Dates
  import opened Expenses

  /** The year-month of an expense, as an increasing month number. */
  function MonthKey(g: Expense): int {
    MonthIndex(g.fecha.year, g.fecha.month)
  }

  function EntryKey(e: Entry<int>): int { e.key }

  /**
   * One entry per distinct year-month, ascending by month, each holding the
   * sum of that month's amounts.
   */
  function MonthlyTotals(gastos: seq<Expense>): (r: seq<Entry<int>>)
    ensures StrictlySortedBy(r, EntryKey)
    ensures forall k :: k in KeysOf(r) <==> k in Image(gastos, MonthKey)
    ensures forall i :: 0 <= i < |r| ==> r[i].total == TotalSpent(Filter(gastos, KeyIs(MonthKey, r[i].key)))
    ensures SumTotals(r) == TotalSpent(gastos)
  {
    var groups := GroupSum(gastos, MonthKey, Monto);
    var r := SortBy(groups, EntryKey);
    SortByStrict(groups, EntryKey);
    SumBySortBy(groups, EntryKey, TotalOf);
    PermutedEntries(groups, r);
    r
  }

  /** `gasto.metodoPago || 'efectivo'` */
  function MethodOrCash(g: Expense): string {
    if g.metodoPago != "" then g.metodoPago else "efectivo"
  }

  /** The per-payer figures: the total and the part paid by each known method. */
  datatype PayerStat = PayerStat(total: real, efectivo: real, debito: real, credito: real)

  /** An expense counted for payer `nombre`: its payer is set and equal to the name. */
  predicate PaidBy(nombre: string, g: Expense) {
    g.usuario != "" && g.usuario == nombre
  }

  function PaidByFor(nombre: string): Expense -> bool {
    g => PaidBy(nombre, g)
  }

  function MethodIs(metodo: string): Expense -> bool {
    g => MethodOrCash(g) == metodo
  }

  /** What the payer spent with one method. */
  function PayerMethodTotal(gastos: seq<Expense>, nombre: string, metodo: string): real {
    TotalSpent(Filter(Filter(gastos, PaidByFor(nombre)), MethodIs(metodo)))
  }

  /**
   * Per-payer statistics, keyed by name: only names in the user list whose
   * expenses total more than zero appear, each with its total and its
   * cash, debit and credit parts.
   */
  function PayerStats(gastos: seq<Expense>, nombres: seq<string>): (r: map<string, PayerStat>)
    ensures forall n :: n in r <==> n in nombres && TotalSpent(Filter(gastos, PaidByFor(n))) > 0.0
    ensures forall n :: n in r ==>
      && r[n].total == TotalSpent(Filter(gastos, PaidByFor(n)))
      && r[n].efectivo == PayerMethodTotal(gastos, n, "efectivo")
      && r[n].debito == PayerMethodTotal(gastos, n, "debito")
      && r[n].credito == PayerMethodTotal(gastos, n, "credito")
  {
    map n | n in nombres && TotalSpent(Filter(gastos, PaidByFor(n))) > 0.0 ::
      PayerStat(
        TotalSpent(Filter(gastos, PaidByFor(n))),
        PayerMethodTotal(gastos, n, "efectivo"),
        PayerMethodTotal(gastos, n, "debito"),
        PayerMethodTotal(gastos, n, "credito"))
  }

  predicate KnownMethod(g: Expense) {
    MethodOrCash(g) in {"efectivo", "debito", "credito"}
  }

  /**
   * The method breakdown never exceeds the payer's total (expenses paid by
   * any other method are left out of it), and it adds up to the total when
   * every method is one of the three known ones.
   */
  lemma PayerMethodsWithinTotal(gastos: seq<Expense>, nombres: seq<string>, n: string)
    requires forall i :: 0 <= i < |gastos| ==> gastos[i].monto >= 0.0
    ensures n in PayerStats(gastos, nombres) ==>
      var s := PayerStats(gastos, nombres)[n];
      s.efectivo + s.debito + s.credito <= s.total
    ensures n in PayerStats(gastos, nombres) && (forall i :: 0 <= i < |gastos| ==> KnownMethod(gastos[i])) ==>
      var s := PayerStats(gastos, nombres)[n];
      s.efectivo + s.debito + s.credito == s.total
  {
    MethodPartsOfPayer(gastos, n);
  }

  lemma {:induction false} MethodPartsOfPayer(gastos: seq<Expense>, n: string)
    requires forall i :: 0 <= i < |gastos| ==> gastos[i].monto >= 0.0
    ensures PayerMethodTotal(gastos, n, "efectivo") + PayerMethodTotal(gastos, n, "debito")
      + PayerMethodTotal(gastos, n, "credito") <= TotalSpent(Filter(gastos, PaidByFor(n)))
    ensures (forall i :: 0 <= i < |gastos| ==> KnownMethod(gastos[i])) ==>
      PayerMethodTotal(gastos, n, "efectivo") + PayerMethodTotal(gastos, n, "debito")
      + PayerMethodTotal(gastos, n, "credito") == TotalSpent(Filter(gastos, PaidByFor(n)))
  {
    var mine := Filter(gastos, PaidByFor(n));
    forall i | 0 <= i < |mine|
      ensures mine[i].monto >= 0.0
    {
      assert mine[i] in gastos;
    }
    var cash, debit, credit := MethodIs("efectivo"), MethodIs("debito"), MethodIs("credito");
    if forall i :: 0 <= i < |gastos| ==> KnownMethod(gastos[i]) {
      forall i | 0 <= i < |mine|
        ensures cash(mine[i]) || debit(mine[i]) || credit(mine[i])
      {
        assert mine[i] in gastos;
      }
    }
    ThreeWayWithin(mine, cash, debit, credit, Monto);
  }

  /** An expense that enters the detailed breakdown: method, card and category all set. */
  predicate Detailed(g: Expense) {
    g.metodoPago != "" && g.tarjeta != "" && g.categoria != ""
  }

  function DetailedFor(): Expense -> bool {
    g => Detailed(g)
  }

  /** The group key `${tarjeta}-${metodoPago}`. */
  function DetailKey(g: Expense): string {
    g.tarjeta + "-" + g.metodoPago
  }

  function Categoria(g: Expense): string { g.categoria }

  /** A card-and-method group, with the card and method as its first expense gave them. */
  datatype DetailGroup = DetailGroup(key: string, tarjeta: string, metodo: string, total: real, porCategoria: seq<Entry<string>>)

  /** The card and method a group records. */
  datatype CardMethod = CardMethod(tarjeta: string, metodo: string)

  /**
   * The card and method of the first expense in `ys` with the given key
   * (empty when none has it); they render back to the key.
   */
  function Origin(ys: seq<Expense>, key: string): (o: CardMethod)
    ensures forall i :: 0 <= i < |ys| && DetailKey(ys[i]) == key && (forall j :: 0 <= j < i ==> DetailKey(ys[j]) != key) ==>
      o.tarjeta == ys[i].tarjeta && o.metodo == ys[i].metodoPago
    ensures key in Image(ys, DetailKey) ==> o.tarjeta + "-" + o.metodo == key
  {
    var n := FirstWhere(ys, KeyIs(DetailKey, key));
    if n < |ys| then CardMethod(ys[n].tarjeta, ys[n].metodoPago) else CardMethod("", "")
  }

  /**
   * The group's card and method are those of the first expense in `ys`
   * that carries its key (the one that created the group).
   */
  predicate FirstOfKey(ys: seq<Expense>, d: DetailGroup) {
    forall i :: 0 <= i < |ys| && DetailKey(ys[i]) == d.key && (forall j :: 0 <= j < i ==> DetailKey(ys[j]) != d.key) ==>
      d.tarjeta == ys[i].tarjeta && d.metodo == ys[i].metodoPago
  }

  function GroupTotal(d: DetailGroup): real { d.total }

  /**
   * The card-and-method breakdown: one group per distinct key among the
   * detailed expenses, each with its total and its per-category totals.
   * Every group's total is the sum of its category totals, and the groups
   * together account for exactly the detailed expenses.
   */
  function DetailedMethods(gastos: seq<Expense>): (r: seq<DetailGroup>)
    ensures forall i, j :: 0 <= i < j < |r| ==> r[i].key != r[j].key
    ensures forall i :: 0 <= i < |r| ==> r[i].key in Image(Filter(gastos, DetailedFor()), DetailKey)
    ensures forall k :: k in Image(Filter(gastos, DetailedFor()), DetailKey) ==> exists i :: 0 <= i < |r| && r[i].key == k
    ensures forall i :: 0 <= i < |r| ==> r[i].total == SumTotals(r[i].porCategoria)
    ensures forall i :: 0 <= i < |r| ==>
      r[i].total == TotalSpent(Filter(Filter(gastos, DetailedFor()), KeyIs(DetailKey, r[i].key)))
    ensures forall i, c :: 0 <= i < |r| ==> (Lookup(r[i].porCategoria, c) ==
      TotalSpent(Filter(Filter(Filter(gastos, DetailedFor()), KeyIs(DetailKey, r[i].key)), KeyIs(Categoria, c))))
    ensures forall i, c :: 0 <= i < |r| ==> (c in KeysOf(r[i].porCategoria) <==>
      c in Image(Filter(Filter(gastos, DetailedFor()), KeyIs(DetailKey, r[i].key)), Categoria))
    ensures forall i :: 0 <= i < |r| ==>
      FirstOfKey(Filter(gastos, DetailedFor()), r[i]) && r[i].tarjeta + "-" + r[i].metodo == r[i].key
    ensures SumBy(r, GroupTotal) == TotalSpent(Filter(gastos, DetailedFor()))
  {
    GroupDetails(Filter(gastos, DetailedFor()))
  }

  /** The breakdown of expenses already known to be detailed. */
  function GroupDetails(ys: seq<Expense>): (r: seq<DetailGroup>)
    ensures forall i, j :: 0 <= i < j < |r| ==> r[i].key != r[j].key
    ensures forall i :: 0 <= i < |r| ==> r[i].key in Image(ys, DetailKey)
    ensures forall k :: k in Image(ys, DetailKey) ==> exists i :: 0 <= i < |r| && r[i].key == k
    ensures forall i :: 0 <= i < |r| ==> r[i].total == SumTotals(r[i].porCategoria)
    ensures forall i :: 0 <= i < |r| ==> r[i].total == TotalSpent(Filter(ys, KeyIs(DetailKey, r[i].key)))
    ensures forall i, c :: 0 <= i < |r| ==> (Lookup(r[i].porCategoria, c) ==
      TotalSpent(Filter(Filter(ys, KeyIs(DetailKey, r[i].key)), KeyIs(Categoria, c))))
    ensures forall i, c :: 0 <= i < |r| ==> (c in KeysOf(r[i].porCategoria) <==>
      c in Image(Filter(ys, KeyIs(DetailKey, r[i].key)), Categoria))
    ensures forall i :: 0 <= i < |r| ==> FirstOfKey(ys, r[i]) && r[i].tarjeta + "-" + r[i].metodo == r[i].key
    ensures SumBy(r, GroupTotal) == TotalSpent(ys)
  {
    var groups := GroupSum(ys, DetailKey, Monto);
    PermutedEntries(groups, groups);
    var r := DetailsOf(ys, groups);
    SameKeys(r, groups, Image(ys, DetailKey));
    SumByPointwise(r, GroupTotal, groups, TotalOf);
    r
  }

  /** Groups keyed like `groups`, whose keys are exactly `ks`, have exactly the keys `ks`. */
  lemma SameKeys(r: seq<DetailGroup>, groups: seq<Entry<string>>, ks: seq<string>)
    requires |r| == |groups| && forall i :: 0 <= i < |r| ==> r[i].key == groups[i].key
    requires forall k :: k in KeysOf(groups) <==> k in ks
    ensures forall i :: 0 <= i < |r| ==> r[i].key in ks
    ensures forall k :: k in ks ==> exists i :: 0 <= i < |r| && r[i].key == k
  {
    forall i | 0 <= i < |r|
      ensures r[i].key in ks
    {
      assert r[i].key == KeysOf(groups)[i];
    }
    forall k | k in ks
      ensures exists i :: 0 <= i < |r| && r[i].key == k
    {
      var i :| 0 <= i < |groups| && KeysOf(groups)[i] == k;
      assert r[i].key == k;
    }
  }

  /** The detail group of every entry, in order. */
  function DetailsOf(ys: seq<Expense>, groups: seq<Entry<string>>): (r: seq<DetailGroup>)
    requires forall i :: 0 <= i < |groups| ==> groups[i].total == TotalSpent(Filter(ys, KeyIs(DetailKey, groups[i].key)))
    ensures |r| == |groups|
    ensures forall i :: 0 <= i < |r| ==> r[i].key == groups[i].key && r[i].total == groups[i].total
    ensures forall i :: 0 <= i < |r| ==> r[i].total == SumTotals(r[i].porCategoria)
    ensures forall i, c :: 0 <= i < |r| ==> (Lookup(r[i].porCategoria, c) ==
      TotalSpent(Filter(Filter(ys, KeyIs(DetailKey, r[i].key)), KeyIs(Categoria, c))))
    ensures forall i, c :: 0 <= i < |r| ==> (c in KeysOf(r[i].porCategoria) <==>
      c in Image(Filter(ys, KeyIs(DetailKey, r[i].key)), Categoria))
    ensures forall i :: 0 <= i < |r| ==> FirstOfKey(ys, r[i])
    ensures forall i :: 0 <= i < |r| && r[i].key in Image(ys, DetailKey) ==> r[i].tarjeta + "-" + r[i].metodo == r[i].key
  {
    seq(|groups|, i requires 0 <= i < |groups| => DetailOf(ys, groups[i]))
  }

  /**
   * The group of one card-and-method key: its total, and the detailed
   * expenses of that key summed per category, which add up to the total.
   */
  function DetailOf(ys: seq<Expense>, e: Entry<string>): (d: DetailGroup)
    requires e.total == TotalSpent(Filter(ys, KeyIs(DetailKey, e.key)))
    ensures d.key == e.key && d.total == e.total
    ensures d.total == SumTotals(d.porCategoria)
    ensures DistinctKeys(d.porCategoria)
    ensures forall c :: c in KeysOf(d.porCategoria) <==> c in Image(Filter(ys, KeyIs(DetailKey, e.key)), Categoria)
    ensures forall c :: Lookup(d.porCategoria, c) == TotalSpent(Filter(Filter(ys, KeyIs(DetailKey, e.key)), KeyIs(Categoria, c)))
    ensures FirstOfKey(ys, d)
    ensures e.key in Image(ys, DetailKey) ==> d.tarjeta + "-" + d.metodo == e.key
  {
    var o := Origin(ys, e.key);
    DetailGroup(e.key, o.tarjeta, o.metodo, e.total,
      GroupSum(Filter(ys, KeyIs(DetailKey, e.key)), Categoria, Monto))
  }

  /** The trailing window of at most three totals ending at `i`: `slice(max(0, i - 2), i + 1)`. */
  function Window(totales: seq<real>, i: int): (w: seq<real>)
    requires 0 <= i < |totales|
    ensures 1 <= |w| <= 3 && w[|w| - 1] == totales[i]
  {
    totales[(if i >= 2 then i - 2 else 0)..i + 1]
  }

  /** The three-month trailing moving average, one value per month. */
  method MovingAverage(totales: seq<real>) returns (promedios: seq<real>)
    ensures |promedios| == |totales|
    ensures forall i :: 0 <= i < |totales| ==> promedios[i] == Mean(Window(totales, i))
  {
    promedios := [];
    var i := 0;
    while i < |totales|
      invariant 0 <= i <= |totales| && |promedios| == i
      invariant forall j :: 0 <= j < i ==> promedios[j] == Mean(Window(totales, j))
    {
      var slice := Window(totales, i);
      var suma := 0.0;
      var k := 0;
      while k < |slice|
        invariant 0 <= k <= |slice|
        invariant suma == Sum(slice[..k])
      {
        assert slice[..k + 1][..k] == slice[..k];
        suma := suma + slice[k];
        k := k + 1;
      }
      assert slice[..k] == slice;
      promedios := promedios + [suma / |slice| as real];
      i := i + 1;
    }
  }

  /**
   * Each moving average lies within the range of the monthly totals, and
   * the first one is the first month's total.
   */
  lemma MovingAverageWithinRange(totales: seq<real>, lo: real, hi: real)
    requires forall i :: 0 <= i < |totales| ==> lo <= totales[i] <= hi
    ensures forall i :: 0 <= i < |totales| ==> lo <= Mean(Window(totales, i)) <= hi
    ensures |totales| > 0 ==> Mean(Window(totales, 0)) == totales[0]
  {
    forall i | 0 <= i < |totales|
      ensures lo <= Mean(Window(totales, i)) <= hi
    {
      var w := Window(totales, i);
      assert forall k :: 0 <= k < |w| ==> w[k] in totales;
      MeanBetween(w, lo, hi);
    }
    if |totales| > 0 {
      var w := Window(totales, 0);
      assert w == [totales[0]];
      assert w[..0] == [];
      assert Sum(w) == SumBy(w[..0], AsIs) + AsIs(w[0]);
    }
  }
}

=== FILE: backup.dfy ===
/**
 * Backup bookkeeping: the bounded list of backup references kept per user
 * (`saveBackupReference`), the backup `downloadLatestBackup` picks and the
 * one the restore list labels most recent, and the two timers (the daily
 * automatic backup and the week-old warning).  Timestamps are milliseconds
 * since the epoch; the backup payloads themselves are not modelled.
 */
module Backups {
  import opened Wrappers
  import opened Seqs
  import opened Dates

  /** At most this many backup references are retained. */
  const MaxBackups: nat := 10

  /** A reference to a stored backup: its storage key and when it was taken. */
  datatype BackupRef = BackupRef(key: string, timestamp: int)

  /** The retained list, and the storage key removed with the evicted reference, if any. */
  datatype Retained = Retained(list: seq<BackupRef>, evicted: Option<string>)

  /**
   * Appends a reference; when that makes the list longer than the bound,
   * the first (oldest) reference is dropped and its backup deleted.
   */
  function SaveBackupReference(list: seq<BackupRef>, key: string, timestamp: int): (r: Retained)
    ensures |r.list| > 0 && r.list[|r.list| - 1] == BackupRef(key, timestamp)
    ensures |list| < MaxBackups ==> r.list == list + [BackupRef(key, timestamp)] && r.evicted.None?
    ensures |list| >= MaxBackups ==> r.list[..|r.list| - 1] == list[1..] && r.evicted == Some(list[0].key)
    ensures |list| <= MaxBackups ==> |r.list| <= MaxBackups
  {
    var pushed := list + [BackupRef(key, timestamp)];
    if |pushed| > MaxBackups then Retained(pushed[1..], Some(pushed[0].key))
    else Retained(pushed, None)
  }

  /** The list after saving `refs` one after another, starting from none. */
  function SaveAll(refs: seq<BackupRef>): seq<BackupRef>
    decreases |refs|
  {
    if |refs| == 0 then []
    else
      var last := refs[|refs| - 1];
      SaveBackupReference(SaveAll(refs[..|refs| - 1]), last.key, last.timestamp).list
  }

  /** However many backups are taken, exactly the latest ten are retained, oldest first. */
  lemma {:induction false} RetainsLatest(refs: seq<BackupRef>)
    ensures SaveAll(refs) == TakeLast(refs, MaxBackups)
    ensures |SaveAll(refs)| <= MaxBackups
    decreases |refs|
  {
    if |refs| > 0 {
      var front, last := refs[..|refs| - 1], refs[|refs| - 1];
      RetainsLatest(front);
      var kept := SaveAll(front);
      assert refs == front + [last];
      assert SaveAll(refs) == SaveBackupReference(kept, last.key, last.timestamp).list;
      if |front| >= MaxBackups {
        assert kept == front[|front| - MaxBackups..];
        assert SaveBackupReference(kept, last.key, last.timestamp).list == (kept + [last])[1..];
        PushThenDrop(front, last);
        assert TakeLast(refs, MaxBackups) == refs[|refs| - MaxBackups..];
      } else {
        assert kept == front;
        assert SaveBackupReference(kept, last.key, last.timestamp).list == refs;
      }
    }
  }

  /** Appending to the latest ten of `front` and dropping the first gives the latest ten of `front + [last]`. */
  lemma PushThenDrop(front: seq<BackupRef>, last: BackupRef)
    requires |front| >= MaxBackups
    ensures (front[|front| - MaxBackups..] + [last])[1..] == (front + [last])[|front| + 1 - MaxBackups..]
  {
    var a := (front[|front| - MaxBackups..] + [last])[1..];
    var b := (front + [last])[|front| + 1 - MaxBackups..];
    assert |a| == |b|;
    forall i | 0 <= i < |a|
      ensures a[i] == b[i]
    {
    }
  }

  /** `backupList[0]`: the reference `downloadLatestBackup` downloads and the restore list labels most recent. */
  function LatestAsWritten(list: seq<BackupRef>): (r: Option<BackupRef>)
    ensures r.None? <==> |list| == 0
    ensures r.Some? ==> r.value == list[0]
  {
    if |list| == 0 then None else Some(list[0])
  }

  /** The most recent reference: the last one appended, the newest of a chronological list. */
  function Latest(list: seq<BackupRef>): (r: Option<BackupRef>)
    ensures r.None? <==> |list| == 0
    ensures r.Some? ==> r.value in list
    ensures Chronological(list) && r.Some? ==> forall i :: 0 <= i < |list| ==> list[i].timestamp <= r.value.timestamp
  {
    if |list| == 0 then None else Some(list[|list| - 1])
  }

  /** References in the order they were taken. */
  ghost predicate Chronological(list: seq<BackupRef>) {
    forall i, j :: 0 <= i < j < |list| ==> list[i].timestamp <= list[j].timestamp
  }

  /** Saving a reference no older than the retained ones keeps the list chronological. */
  lemma SaveKeepsChronological(list: seq<BackupRef>, key: string, timestamp: int)
    requires Chronological(list)
    requires forall i :: 0 <= i < |list| ==> list[i].timestamp <= timestamp
    ensures Chronological(SaveBackupReference(list, key, timestamp).list)
  {
    var r := SaveBackupReference(list, key, timestamp).list;
    if |list| >= MaxBackups {
      forall i | 0 <= i < |r| - 1
        ensures r[i] == list[i + 1]
      {
        assert r[i] == r[..|r| - 1][i];
      }
    }
  }

  /** The backup just saved is the latest one, and in a chronological list the latest is the newest. */
  lemma SaveThenLatest(list: seq<BackupRef>, key: string, timestamp: int)
    ensures Latest(SaveBackupReference(list, key, timestamp).list) == Some(BackupRef(key, timestamp))
    ensures Chronological(list) && |list| > 0 ==>
      forall i :: 0 <= i < |list| ==> list[i].timestamp <= Latest(list).value.timestamp
  {
  }

  /**
   * As written, after two backups taken at different times the one
   * downloaded as the latest is the earlier of the two.
   */
  lemma DownloadPicksOldest(a: BackupRef, b: BackupRef)
    requires a.timestamp < b.timestamp
    ensures SaveAll([a, b]) == [a, b]
    ensures LatestAsWritten(SaveAll([a, b])) == Some(a)
    ensures Latest(SaveAll([a, b])) == Some(b)
  {
    assert [a, b][..1] == [a] && [a][..0] == [];
    assert SaveAll([a]) == SaveBackupReference([], a.key, a.timestamp).list == [a];
    assert SaveAll([a, b]) == SaveBackupReference([a], b.key, b.timestamp).list;
  }

  /** The automatic backup runs when none has run yet or the last one is more than a day old. */
  predicate AutoBackupDue(last: Option<int>, now: int) {
    last.None? || now - last.value > 24 * MsPerHour
  }

  /** One hourly check: whether a backup is taken, and the last-backup stamp afterwards. */
  datatype Tick = Tick(backup: bool, last: Option<int>)

  function AutoBackupTick(last: Option<int>, now: int): (t: Tick)
    ensures t.backup <==> last.None? || now - last.value > 24 * MsPerHour
    ensures t.backup ==> t.last == Some(now)
    ensures !t.backup ==> t.last == last
  {
    if AutoBackupDue(last, now) then Tick(true, Some(now)) else Tick(false, last)
  }

  /**
   * Whatever the first check decided, a check more than a day later takes a
   * backup: with the hourly timer, backups are never more than a day and
   * one check apart.
   */
  lemma BackupAtLeastDaily(last: Option<int>, now: int, later: int)
    requires last.Some? ==> last.value <= now
    requires later - now > 24 * MsPerHour
    ensures AutoBackupTick(AutoBackupTick(last, now).last, later).backup
  {
  }

  /** Two checks less than a day apart never both take a backup. */
  lemma AtMostOneBackupPerDay(last: Option<int>, now: int, later: int)
    requires now <= later <= now + 24 * MsPerHour
    ensures !(AutoBackupTick(last, now).backup && AutoBackupTick(AutoBackupTick(last, now).last, later).backup)
  {
  }

  /** `Math.floor(elapsed / day)`: whole days elapsed, rounded down also for a negative span. */
  function WholeDays(elapsedMs: int): (d: int)
    ensures d * MsPerDay <= elapsedMs < (d + 1) * MsPerDay
  {
    elapsedMs / MsPerDay
  }

  /** The week-old warning: the number of whole days since the last automatic backup, when more than seven. */
  function StaleWarning(last: Option<int>, now: int): (w: Option<int>)
    ensures w.Some? ==> last.Some? && w.value == WholeDays(now - last.value) && w.value > 7
    ensures last.Some? && WholeDays(now - last.value) > 7 ==> w.Some?
  {
    if last.Some? && WholeDays(now - last.value) > 7 then Some(WholeDays(now - last.value)) else None
  }

  /** The warning appears exactly once eight full days have passed. */
  lemma StaleAfterEightDays(last: Option<int>, now: int)
    ensures StaleWarning(last, now).Some? <==> last.Some? && now - last.value >= 8 * MsPerDay
  {
    if last.Some? {
      var d := WholeDays(now - last.value);
      if d > 7 {
        assert d * MsPerDay >= 8 * MsPerDay;
      } else {
        assert (d + 1) * MsPerDay <= 8 * MsPerDay;
      }
    }
  }
}

=== FILE: budget.dfy ===
/**
 * The monthly budget evaluator: one budget per (month, year), saved by
 * upsert, and the status card comparing a month's spending with it.
 */
module Budgets {
  import opened Wrappers
  import opened Seqs
  import opened Groups
  import opened Dates
  import opened Expenses
  import opened ExpenseFilters

  datatype Alerts = Alerts(al80: bool, al100: bool, al110: bool)

  /** `mes` is 1-based. */
  datatype Budget = Budget(id: string, mes: int, anio: int, monto: real, alertas: Alerts, createdAt: int)

  predicate InMonth(mes: int, anio: int, g: Expense) {
    g.fecha.month == mes && g.fecha.year == anio
  }

  function InMonthFor(mes: int, anio: int): Expense -> bool {
    g => InMonth(mes, anio, g)
  }

  /** `obtenerGastosDelMes`: the expenses dated in the given month of the given year, in order. */
  function ExpensesOfMonth(gastos: seq<Expense>, mes: int, anio: int): (r: seq<Expense>)
    ensures forall i :: 0 <= i < |r| ==> r[i] in gastos && r[i].fecha.month == mes && r[i].fecha.year == anio
    ensures forall i :: 0 <= i < |gastos| && InMonth(mes, anio, gastos[i]) ==> gastos[i] in r
  {
    Filter(gastos, InMonthFor(mes, anio))
  }

  /** The budget page's month selection is the list filter with only month and year set. */
  lemma ExpensesOfMonthIsMonthFilter(gastos: seq<Expense>, mes: int, anio: int)
    ensures ExpensesOfMonth(gastos, mes, anio) == ApplyFilters(gastos, FilterSpec(Some(mes), Some(anio), None, None, None, None))
  {
    FilterCongruent(gastos, InMonthFor(mes, anio), MatchesFor(FilterSpec(Some(mes), Some(anio), None, None, None, None)));
  }

  /** The amount spent in a month. */
  function SpentInMonth(gastos: seq<Expense>, mes: int, anio: int): real {
    TotalSpent(ExpensesOfMonth(gastos, mes, anio))
  }

  /** The months partition the spending: a month's total plus the rest is the grand total. */
  lemma SpentInMonthSplitsTotal(gastos: seq<Expense>, mes: int, anio: int)
    ensures TotalSpent(gastos) == SpentInMonth(gastos, mes, anio) + TotalSpent(Filter(gastos, Not(InMonthFor(mes, anio))))
  {
    SumBySplit(gastos, InMonthFor(mes, anio), Monto);
  }

  /** The budget form: month and year from their selects (`parseInt`), the amount from `parseFloat`. */
  datatype BudgetForm = BudgetForm(mes: Option<int>, anio: Option<int>, monto: Option<real>, alertas: Alerts)

  datatype BudgetError = MonthAndYearRequired | AmountNotPositive

  /** `!mes || !anio`: a missing (`NaN`) or zero month or year. */
  predicate MissingMonthOrYear(f: BudgetForm) {
    f.mes.None? || f.mes.value == 0 || f.anio.None? || f.anio.value == 0
  }

  /** Validates the form (month and year first, then the amount) and builds the budget. */
  function BuildBudget(f: BudgetForm, id: string, now: int): (r: Result<Budget, BudgetError>)
    ensures MissingMonthOrYear(f) ==> r == Failure(MonthAndYearRequired)
    ensures !MissingMonthOrYear(f) && !(f.monto.Some? && f.monto.value > 0.0) ==> r == Failure(AmountNotPositive)
    ensures r.Success? ==> !MissingMonthOrYear(f) && f.monto.Some? && r.value.monto == f.monto.value > 0.0
    ensures r.Success? ==>
      && r.value.mes == f.mes.value && r.value.anio == f.anio.value
      && r.value.id == id && r.value.alertas == f.alertas && r.value.createdAt == now
  {
    if MissingMonthOrYear(f) then Failure(MonthAndYearRequired)
    else if f.monto.None? || f.monto.value <= 0.0 then Failure(AmountNotPositive)
    else Success(Budget(id, f.mes.value, f.anio.value, f.monto.value, f.alertas, now))
  }

  predicate SameMonth(b: Budget, mes: int, anio: int) {
    b.mes == mes && b.anio == anio
  }

  /** `findIndex(p => p.mes === mes && p.anio === anio)`: the first budget of that month. */
  function FindMonth(items: seq<Budget>, mes: int, anio: int): (r: Option<nat>)
    ensures r.None? <==> forall i :: 0 <= i < |items| ==> !SameMonth(items[i], mes, anio)
    ensures r.Some? ==>
      && r.value < |items| && SameMonth(items[r.value], mes, anio)
      && forall i :: 0 <= i < r.value ==> !SameMonth(items[i], mes, anio)
  {
    if |items| == 0 then None
    else if SameMonth(items[0], mes, anio) then Some(0)
    else
      var rest := FindMonth(items[1..], mes, anio);
      if rest.Some? then Some(rest.value + 1) else None
  }

  /** `find(p => p.mes === mes && p.anio === anio) || null` */
  function FindBudget(items: seq<Budget>, mes: int, anio: int): (r: Option<Budget>)
    ensures r.Some? ==> r.value in items && SameMonth(r.value, mes, anio)
    ensures r.None? <==> forall i :: 0 <= i < |items| ==> !SameMonth(items[i], mes, anio)
  {
    var k := FindMonth(items, mes, anio);
    if k.Some? then Some(items[k.value]) else None
  }

  /**
   * Stores a budget: it overwrites the first budget of the same month
   * (every field comes from the new budget, the id included), otherwise it
   * is appended.
   */
  function UpsertBudget(items: seq<Budget>, b: Budget): (r: seq<Budget>)
    ensures FindMonth(items, b.mes, b.anio).None? ==> r == items + [b]
    ensures FindMonth(items, b.mes, b.anio).Some? ==>
      var k := FindMonth(items, b.mes, b.anio).value;
      |r| == |items| && r[k] == b && forall i :: 0 <= i < |items| && i != k ==> r[i] == items[i]
  {
    var k := FindMonth(items, b.mes, b.anio);
    if k.Some? then items[k.value := b] else items + [b]
  }

  /** At most one budget per (month, year). */
  ghost predicate UniqueMonths(items: seq<Budget>) {
    forall i, j :: 0 <= i < j < |items| ==> !SameMonth(items[j], items[i].mes, items[i].anio)
  }

  /** The upsert keeps budgets unique per month. */
  lemma UpsertKeepsMonthsUnique(items: seq<Budget>, b: Budget)
    ensures UniqueMonths(items) ==> UniqueMonths(UpsertBudget(items, b))
  {
    if !UniqueMonths(items) {
      return;
    }
    var r := UpsertBudget(items, b);
    var k := FindMonth(items, b.mes, b.anio);
    forall i, j | 0 <= i < j < |r|
      ensures !SameMonth(r[j], r[i].mes, r[i].anio)
    {
      if k.Some? {
        if i == k.value {
          assert SameMonth(items[i], b.mes, b.anio);
        } else if j == k.value {
          assert SameMonth(items[j], b.mes, b.anio);
        }
      }
    }
  }

  /** The first matching index is the one `FindMonth` reports. */
  lemma FindMonthIsFirstMatch(items: seq<Budget>, mes: int, anio: int, k: nat)
    requires k < |items| && SameMonth(items[k], mes, anio)
    requires forall i :: 0 <= i < k ==> !SameMonth(items[i], mes, anio)
    ensures FindMonth(items, mes, anio) == Some(k)
  {
  }

  /**
   * After saving, the current-budget lookup for that month finds exactly the
   * saved budget, and the lookup of every other month is unchanged.
   */
  lemma UpsertThenFind(items: seq<Budget>, b: Budget, mes: int, anio: int)
    ensures FindBudget(UpsertBudget(items, b), b.mes, b.anio) == Some(b)
    ensures !(mes == b.mes && anio == b.anio) ==>
      FindBudget(UpsertBudget(items, b), mes, anio) == FindBudget(items, mes, anio)
  {
    UpsertFindsSaved(items, b);
    if !(mes == b.mes && anio == b.anio) {
      UpsertKeepsOtherMonth(items, b, mes, anio);
    }
  }

  /** The month's first budget after the upsert sits where the old one was, or at the end. */
  lemma UpsertFindsSaved(items: seq<Budget>, b: Budget)
    ensures FindMonth(UpsertBudget(items, b), b.mes, b.anio) == Some(if FindMonth(items, b.mes, b.anio).Some? then FindMonth(items, b.mes, b.anio).value else |items|)
  {
    var r := UpsertBudget(items, b);
    var k := FindMonth(items, b.mes, b.anio);
    if k.Some? {
      assert forall i :: 0 <= i < k.value ==> r[i] == items[i];
      FindMonthIsFirstMatch(r, b.mes, b.anio, k.value);
    } else {
      assert forall i :: 0 <= i < |items| ==> r[i] == items[i];
      FindMonthIsFirstMatch(r, b.mes, b.anio, |items|);
    }
  }

  /** The upsert does not change which budget another month's lookup finds. */
  lemma UpsertKeepsOtherMonth(items: seq<Budget>, b: Budget, mes: int, anio: int)
    requires !(mes == b.mes && anio == b.anio)
    ensures FindBudget(UpsertBudget(items, b), mes, anio) == FindBudget(items, mes, anio)
  {
    var r := UpsertBudget(items, b);
    assert !SameMonth(b, mes, anio);
    assert forall i :: 0 <= i < |items| && r[i] != items[i] ==> r[i] == b;
    var m := FindMonth(items, mes, anio);
    if m.Some? {
      FindMonthIsFirstMatch(r, mes, anio, m.value);
    } else {
      assert forall i :: 0 <= i < |r| ==> !SameMonth(r[i], mes, anio);
    }
  }

  /** `guardarPresupuesto`: validation, then upsert into the stored list. */
  function SaveBudget(items: seq<Budget>, f: BudgetForm, id: string, now: int): (r: Result<seq<Budget>, BudgetError>)
    ensures r.Failure? <==> BuildBudget(f, id, now).Failure?
    ensures r.Success? ==> FindBudget(r.value, f.mes.value, f.anio.value) == Some(BuildBudget(f, id, now).value)
    ensures r.Success? && UniqueMonths(items) ==> UniqueMonths(r.value)
  {
    var b := BuildBudget(f, id, now);
    if b.Failure? then Failure(b.error)
    else
      UpsertThenFind(items, b.value, b.value.mes, b.value.anio);
      UpsertKeepsMonthsUnique(items, b.value);
      Success(UpsertBudget(items, b.value))
  }

  function BudgetIdIs(id: string): Budget -> bool {
    (b: Budget) => b.id == id
  }

  /**
   * `presupuestos.filter(p => p.id !== id)`: every budget with another id is
   * kept as often as it occurs, and no budget with the id is.
   */
  function DeleteBudget(items: seq<Budget>, id: string): (r: seq<Budget>)
    ensures forall i :: 0 <= i < |r| ==> r[i].id != id && r[i] in items
    ensures forall i :: 0 <= i < |items| && items[i].id != id ==> items[i] in r
    ensures forall b :: multiset(r)[b] == if b.id != id then multiset(items)[b] else 0
  {
    FilterCount(items, Not(BudgetIdIs(id)));
    Filter(items, Not(BudgetIdIs(id)))
  }

  /** Deleting distributes over concatenation, so the kept budgets stay in their stored order. */
  lemma DeleteBudgetKeepsOrder(a: seq<Budget>, b: seq<Budget>, id: string)
    ensures DeleteBudget(a + b, id) == DeleteBudget(a, id) + DeleteBudget(b, id)
  {
    FilterConcat(a, b, Not(BudgetIdIs(id)));
  }

  /** The enabled flag read from the saved config: `true` when nothing was saved. */
  function LoadEnabled(saved: Option<bool>): (enabled: bool)
    ensures saved.None? ==> enabled
    ensures saved.Some? ==> enabled == saved.value
  {
    if saved.Some? then saved.value else true
  }

  /** Descending (year, month) order, as `new Date(b.anio, b.mes) - new Date(a.anio, a.mes)` sorts. */
  function Recency(b: Budget): int {
    -MonthIndex(b.anio, b.mes)
  }

  /** The budgets as listed: the same budgets, newest month first. */
  function ListedBudgets(items: seq<Budget>): (r: seq<Budget>)
    ensures multiset(r) == multiset(items)
    ensures forall i, j :: 0 <= i < j < |r| ==> MonthIndex(r[i].anio, r[i].mes) >= MonthIndex(r[j].anio, r[j].mes)
  {
    var r := SortBy(items, Recency);
    assert forall i, j :: 0 <= i < j < |r| ==> Recency(r[i]) <= Recency(r[j]);
    r
  }

  datatype CardStatus = Disabled | Exceeded | NearLimit | WithinLimit

  /** `porcentajeUso`: 0 unless the budget is enabled and positive. */
  function UsagePercent(enabled: bool, monto: real, spent: real): real {
    if enabled && monto > 0.0 then (spent / monto) * 100.0 else 0.0
  }

  /**
   * The card's status, stated in money: disabled when the toggle is off or
   * the amount is not positive; otherwise exceeded from 100% of the budget,
   * near the limit from 80%, within it below.
   */
  function StatusOf(enabled: bool, monto: real, spent: real): (s: CardStatus)
    ensures s == Disabled <==> !enabled || monto <= 0.0
    ensures s == Exceeded <==> enabled && monto > 0.0 && spent >= monto
    ensures s == NearLimit <==> enabled && monto > 0.0 && 0.8 * monto <= spent < monto
    ensures s == WithinLimit <==> enabled && monto > 0.0 && spent < 0.8 * monto
  {
    if enabled && monto > 0.0 then
      var usage := UsagePercent(enabled, monto, spent);
      UsageThresholds(monto, spent);
      if usage >= 100.0 then Exceeded
      else if usage >= 80.0 then NearLimit
      else WithinLimit
    else Disabled
  }

  /** `(spent / monto) * 100 >= p` is `spent >= monto * p / 100` for a positive budget. */
  lemma UsageScales(monto: real, spent: real, p: real)
    requires monto > 0.0
    ensures (spent / monto) * 100.0 >= p <==> spent >= monto * p / 100.0
  {
    var q := spent / monto;
    assert spent == q * monto;
  }

  /** The two thresholds of a positive budget, in money. */
  lemma UsageThresholds(monto: real, spent: real)
    ensures monto > 0.0 ==> ((spent / monto) * 100.0 >= 100.0 <==> spent >= monto)
    ensures monto > 0.0 ==> ((spent / monto) * 100.0 >= 80.0 <==> spent >= 0.8 * monto)
  {
    if monto > 0.0 {
      UsageScales(monto, spent, 100.0);
      UsageScales(monto, spent, 80.0);
    }
  }

  datatype Card = Card(status: CardStatus, spent: real, disponible: real, progress: Option<real>)

  /**
   * The budget card: the month's spending, the amount still available
   * (negative once exceeded) and, when budgets are enabled, the progress
   * bar width capped at 100%.
   */
  function BudgetCard(enabled: bool, b: Budget, gastos: seq<Expense>): (c: Card)
    ensures c.spent == SpentInMonth(gastos, b.mes, b.anio)
    ensures c.status == StatusOf(enabled, b.monto, c.spent)
    ensures c.disponible + c.spent == b.monto
    ensures c.progress.Some? <==> enabled
    ensures enabled && b.monto > 0.0 && c.spent < b.monto ==> c.progress == Some((c.spent / b.monto) * 100.0)
    ensures enabled && b.monto > 0.0 && c.spent >= b.monto ==> c.progress == Some(100.0)
    ensures enabled && b.monto <= 0.0 ==> c.progress == Some(0.0)
  {
    var spent := SpentInMonth(gastos, b.mes, b.anio);
    var usage := UsagePercent(enabled, b.monto, spent);
    UsageThresholds(b.monto, spent);
    Card(StatusOf(enabled, b.monto, spent), spent, b.monto - spent,
      if enabled then Some(if usage < 100.0 then usage else 100.0) else None)
  }

  /**
   * The progress bar is `Math.min(porcentajeUso, 100)` wide: the share of the
   * budget spent, capped at 100%, and 0 for a budget that is not positive.
   * It is full exactly when the budget is exceeded; a negative available
   * amount only ever shows on an exceeded or disabled card.
   */
  lemma CardProgressAgreesWithStatus(enabled: bool, b: Budget, gastos: seq<Expense>)
    requires forall i :: 0 <= i < |gastos| ==> gastos[i].monto >= 0.0
    ensures var c := BudgetCard(enabled, b, gastos);
      && (c.progress.Some? ==> 0.0 <= c.progress.value <= 100.0)
      && (c.progress.Some? ==> (c.progress.value == 100.0 <==> c.status == Exceeded))
      && (enabled && b.monto > 0.0 && c.spent < b.monto ==> c.progress == Some((c.spent / b.monto) * 100.0))
      && (enabled && b.monto > 0.0 && c.spent >= b.monto ==> c.progress == Some(100.0))
      && (enabled && b.monto <= 0.0 ==> c.progress == Some(0.0))
      && (c.disponible < 0.0 ==> c.status in {Exceeded, Disabled})
  {
    var m := ExpensesOfMonth(gastos, b.mes, b.anio);
    SumByNonNegative(m, Monto);
    var c := BudgetCard(enabled, b, gastos);
    if enabled && b.monto > 0.0 {
      UsageScales(b.monto, c.spent, 100.0);
      UsageScales(b.monto, c.spent, 0.0);
    }
  }
}

=== FILE: charts.dfy ===
/**
 * The chart manager's own per-key totals and the colouring of the monthly
 * comparison bars.
 */
module Charts {
  import opened Seqs
  import opened Groups
  import opened Expenses
  import opened Aggregates

  predicate CashOrUnset(g: Expense) {
    g.metodoPago == "" || g.metodoPago == "efectivo"
  }

  function CashOrUnsetFor(): Expense -> bool {
    g => CashOrUnset(g)
  }

  /**
   * Totals per payment method, an unset method counting as cash: one entry
   * per method that occurs, each holding what that method's expenses add up
   * to, no key is empty, and the cash total is what the cash and the unset
   * expenses add up to.
   */
  function MethodTotals(gastos: seq<Expense>): (r: seq<Entry<string>>)
    ensures DistinctKeys(r)
    ensures forall k :: k in KeysOf(r) <==> k in Image(gastos, MethodOrCash)
    ensures forall i :: 0 <= i < |r| ==> r[i].total == TotalSpent(Filter(gastos, KeyIs(MethodOrCash, r[i].key)))
    ensures forall i :: 0 <= i < |r| ==> r[i].key != ""
    ensures SumTotals(r) == TotalSpent(gastos)
    ensures Lookup(r, "efectivo") == TotalSpent(Filter(gastos, CashOrUnsetFor()))
  {
    var r := GroupSum(gastos, MethodOrCash, Monto);
    GroupSumEntries(gastos, MethodOrCash, Monto);
    CashTotal(gastos);
    forall i | 0 <= i < |r|
      ensures r[i].key != ""
    {
      assert KeysOf(r)[i] in Image(gastos, MethodOrCash);
    }
    r
  }

  /** The group of the cash key gathers the cash and the unset expenses. */
  lemma CashTotal(gastos: seq<Expense>)
    ensures Lookup(GroupSum(gastos, MethodOrCash, Monto), "efectivo") == TotalSpent(Filter(gastos, CashOrUnsetFor()))
  {
    forall i | 0 <= i < |gastos|
      ensures KeyIs(MethodOrCash, "efectivo")(gastos[i]) == CashOrUnsetFor()(gastos[i])
    {
      assert KeyIs(MethodOrCash, "efectivo")(gastos[i]) == (MethodOrCash(gastos[i]) == "efectivo");
    }
    FilterCongruent(gastos, KeyIs(MethodOrCash, "efectivo"), CashOrUnsetFor());
  }

  const Uncategorised := "Sin categoría"

  /** `gasto.categoria || 'Sin categoría'` */
  function CategoryOrDefault(g: Expense): string {
    if g.categoria != "" then g.categoria else Uncategorised
  }

  predicate UncategorisedOrDefault(g: Expense) {
    g.categoria == "" || g.categoria == Uncategorised
  }

  function UncategorisedOrDefaultFor(): Expense -> bool {
    g => UncategorisedOrDefault(g)
  }

  /**
   * Totals per category, an unset category counting as "Sin categoría":
   * one entry per category that occurs, each holding what that category's
   * expenses add up to; the totals cover every expense and no key is empty.
   */
  function CategoryTotals(gastos: seq<Expense>): (r: seq<Entry<string>>)
    ensures DistinctKeys(r)
    ensures forall k :: k in KeysOf(r) <==> k in Image(gastos, CategoryOrDefault)
    ensures forall i :: 0 <= i < |r| ==> r[i].total == TotalSpent(Filter(gastos, KeyIs(CategoryOrDefault, r[i].key)))
    ensures forall i :: 0 <= i < |r| ==> r[i].key != ""
    ensures SumTotals(r) == TotalSpent(gastos)
    ensures Lookup(r, Uncategorised) == TotalSpent(Filter(gastos, UncategorisedOrDefaultFor()))
  {
    var r := GroupSum(gastos, CategoryOrDefault, Monto);
    GroupSumEntries(gastos, CategoryOrDefault, Monto);
    assert |Uncategorised| == 13;
    forall i | 0 <= i < |gastos|
      ensures KeyIs(CategoryOrDefault, Uncategorised)(gastos[i]) == UncategorisedOrDefault(gastos[i])
    {
    }
    FilterCongruent(gastos, KeyIs(CategoryOrDefault, Uncategorised), UncategorisedOrDefaultFor());
    forall i | 0 <= i < |r|
      ensures r[i].key != ""
    {
      assert KeysOf(r)[i] in Image(gastos, CategoryOrDefault);
    }
    r
  }

  function Day(g: Expense): int { g.fecha.day }

  /** Totals per day of the month: one entry per day that has expenses, holding that day's sum. */
  function DayTotals(gastos: seq<Expense>): (r: seq<Entry<int>>)
    ensures DistinctKeys(r)
    ensures forall d :: d in KeysOf(r) <==> exists i :: 0 <= i < |gastos| && gastos[i].fecha.day == d
    ensures forall d :: Lookup(r, d) == TotalSpent(Filter(gastos, KeyIs(Day, d)))
    ensures SumTotals(r) == TotalSpent(gastos)
  {
    var r := GroupSum(gastos, Day, Monto);
    forall d
      ensures d in KeysOf(r) <==> exists i :: 0 <= i < |gastos| && gastos[i].fecha.day == d
    {
      if d in Image(gastos, Day) {
        var i :| 0 <= i < |gastos| && Image(gastos, Day)[i] == d;
        assert gastos[i].fecha.day == d;
      }
      if exists i :: 0 <= i < |gastos| && gastos[i].fecha.day == d {
        var i :| 0 <= i < |gastos| && gastos[i].fecha.day == d;
        assert Image(gastos, Day)[i] == d;
      }
    }
    r
  }

  datatype Colour = Red | Orange | Green

  /** Above 120% of the mean is red, above the mean orange, otherwise green. */
  function BarColour(total: real, mean: real): Colour {
    if total > mean * 1.2 then Red
    else if total > mean then Orange
    else Green
  }

  /** The colours of the monthly bars, each judged against the mean of all bars shown. */
  function BarColours(totales: seq<real>): (r: seq<Colour>)
    ensures |r| == |totales|
    ensures forall i :: 0 <= i < |r| ==> (r[i] == Red <==> totales[i] > Mean(totales) * 1.2)
    ensures forall i :: 0 <= i < |r| && Mean(totales) >= 0.0 ==> (r[i] == Green <==> totales[i] <= Mean(totales))
  {
    if |totales| == 0 then []
    else
      var mean := Mean(totales);
      seq(|totales|, i requires 0 <= i < |totales| => BarColour(totales[i], mean))
  }

  /**
   * When the mean is not negative some bar is always green: not every month
   * can be above the mean of all the months shown at once.
   */
  lemma SomeBarIsGreen(totales: seq<real>)
    requires |totales| > 0 && Mean(totales) >= 0.0
    ensures exists i :: 0 <= i < |totales| && BarColours(totales)[i] == Green
  {
    var mean := Mean(totales);
    if forall i :: 0 <= i < |totales| ==> totales[i] > mean {
      SumByAbove(totales, AsIs, mean);
      assert false;
    }
    var i :| 0 <= i < |totales| && totales[i] <= mean;
    assert BarColours(totales)[i] == Green;
  }
}

=== FILE: config.dfy ===
/**
 * The configuration page: the ten slots that hold user and persona
 * documents (`guardarUsuario`, `cargarUsuarios`), the category and card
 * catalogues (`guardarCategoria`, `guardarTarjeta` and their deletions),
 * and the counters shown beside them (`actualizarEstadisticas`).
 */
module Config {
  import opened Wrappers
  import opened Seqs
  import opened Text

  datatype ConfigError = NameRequired | LoginRequired | PasswordRequired | LoginTaken | NoFreeSlot

  /** The collections a user or persona document can occupy, in the order they are scanned. */
  const Slots: seq<string> :=
    ["user1", "user2", "user3", "user4", "user5", "user6", "user7", "user8", "user9", "user10"]

  /**
   * A stored `usuario` document.  Personas carry no login and no password;
   * `activo` and `fechaCreacion` are absent only from documents written by
   * other means.
   */
  datatype UserDoc = UserDoc(
    nombre: string,
    tipo: string,
    activo: Option<bool>,
    usuario: Option<string>,
    password: Option<string>,
    fechaCreacion: Option<int>)

  /** The `usuario` documents, by the name of the collection that holds them. */
  type UserStore = map<string, UserDoc>

  /** The user form as read: `usuarioId` is the slot being edited, `""` when creating. */
  datatype UserForm = UserForm(usuarioId: string, nombre: string, usuario: string, password: string, activo: bool, tipo: string)

  /** Slot `j` is occupied by a document whose login is the one a new "usuario" asks for. */
  predicate Clash(store: UserStore, tipo: string, login: string, j: int)
    requires 0 <= j < |Slots|
  {
    Slots[j] in store && tipo == "usuario" && store[Slots[j]].usuario == Some(login)
  }

  /** The index of the first unoccupied slot from slot `i` on. */
  function FirstFree(store: UserStore, i: nat): (r: Option<nat>)
    requires i <= |Slots|
    ensures r.Some? ==> i <= r.value < |Slots| && Slots[r.value] !in store
    ensures r.Some? ==> forall j :: i <= j < r.value ==> Slots[j] in store
    ensures r.None? <==> forall j :: i <= j < |Slots| ==> Slots[j] in store
    decreases |Slots| - i
  {
    if i == |Slots| then None
    else if Slots[i] !in store then Some(i)
    else FirstFree(store, i + 1)
  }

  /** Where a scan from slot `i` stops at the latest: the first unoccupied slot, or past the last slot. */
  function ScanEnd(store: UserStore, i: nat): (e: nat)
    requires i <= |Slots|
    ensures i <= e <= |Slots|
    ensures e < |Slots| <==> FirstFree(store, i).Some?
  {
    match FirstFree(store, i)
    case Some(k) => k
    case None => |Slots|
  }

  /**
   * The slot search as written, from slot `i` on: an occupied slot with the
   * same login stops it with an error, the first unoccupied slot is taken,
   * and no unoccupied slot is an error.  Slots after the first unoccupied
   * one are never looked at, so a clash there goes unnoticed.
   */
  function SlotScanAsWritten(store: UserStore, tipo: string, login: string, i: nat): (r: Result<string, ConfigError>)
    requires i <= |Slots|
    ensures r.Failure? ==> r.error == LoginTaken || r.error == NoFreeSlot
    ensures r == Failure(LoginTaken) <==> exists j :: i <= j < ScanEnd(store, i) && Clash(store, tipo, login, j)
    ensures r == Failure(NoFreeSlot) <==>
      FirstFree(store, i).None? && forall j :: i <= j < |Slots| ==> !Clash(store, tipo, login, j)
    ensures r.Success? ==> FirstFree(store, i).Some? && r.value == Slots[FirstFree(store, i).value]
    decreases |Slots| - i
  {
    if i == |Slots| then Failure(NoFreeSlot)
    else if Slots[i] !in store then Success(Slots[i])
    else if Clash(store, tipo, login, i) then Failure(LoginTaken)
    else SlotScanAsWritten(store, tipo, login, i + 1)
  }

  /** Some occupied slot already holds the login. */
  predicate LoginInUse(store: UserStore, login: string) {
    exists j :: 0 <= j < |Slots| && Slots[j] in store && store[Slots[j]].usuario == Some(login)
  }

  /**
   * The intended slot search: a new "usuario" whose login any occupied slot
   * already holds is rejected, wherever that slot lies; otherwise the first
   * unoccupied slot is taken.
   */
  function SlotFor(store: UserStore, tipo: string, login: string): (r: Result<string, ConfigError>)
    ensures r == Failure(LoginTaken) <==> tipo == "usuario" && LoginInUse(store, login)
    ensures r == Failure(NoFreeSlot) <==>
      !(tipo == "usuario" && LoginInUse(store, login)) && forall j :: 0 <= j < |Slots| ==> Slots[j] in store
    ensures r.Success? ==> FirstFree(store, 0).Some? && r.value == Slots[FirstFree(store, 0).value]
    ensures r.Failure? ==> r.error == LoginTaken || r.error == NoFreeSlot
  {
    if tipo == "usuario" && LoginInUse(store, login) then Failure(LoginTaken)
    else
      match FirstFree(store, 0)
      case None => Failure(NoFreeSlot)
      case Some(k) => Success(Slots[k])
  }

  /**
   * The written scan and the intended one agree whenever the login is not
   * in use, in particular for every persona.
   */
  lemma AsWrittenAgreesWhenLoginUnused(store: UserStore, tipo: string, login: string)
    requires !(tipo == "usuario" && LoginInUse(store, login))
    ensures SlotScanAsWritten(store, tipo, login, 0) == SlotFor(store, tipo, login)
  {
    forall j | 0 <= j < |Slots|
      ensures !Clash(store, tipo, login, j)
    {
    }
  }

  /**
   * With "user1" freed (its user deleted) and "user2" holding the login
   * "ana", the written scan gives "user1" to a second "ana".
   */
  lemma HoleAdmitsDuplicateLogin(ana: UserDoc)
    requires ana.usuario == Some("ana")
    ensures var store := map["user2" := ana];
      && SlotScanAsWritten(store, "usuario", "ana", 0) == Success("user1")
      && SlotFor(store, "usuario", "ana") == Failure(LoginTaken)
  {
    var store := map["user2" := ana];
    assert Slots[1] in store && store[Slots[1]].usuario == Some("ana");
  }

  /**
   * What a `set(..., { merge: true })` of the user form leaves in a slot
   * that held `prior`: name, tipo and flag from the form; the login only
   * for tipo "usuario" and the password only when one was typed, the
   * slot's previous values surviving otherwise.
   */
  ghost predicate WrittenAs(prior: Option<UserDoc>, f: UserForm, d: UserDoc) {
    && d.nombre == Trim(f.nombre) && d.tipo == f.tipo && d.activo == Some(f.activo)
    && (f.tipo == "usuario" ==> d.usuario == Some(Trim(f.usuario)))
    && (f.tipo == "usuario" && f.password != "" ==> d.password == Some(f.password))
    && (f.tipo != "usuario" && prior.Some? ==> d.usuario == prior.value.usuario)
    && (f.tipo != "usuario" && prior.None? ==> d.usuario.None?)
    && ((f.tipo != "usuario" || f.password == "") && prior.Some? ==> d.password == prior.value.password)
    && ((f.tipo != "usuario" || f.password == "") && prior.None? ==> d.password.None?)
  }

  /** The document `guardarUsuario` writes into a slot that held `prior`. */
  function Written(prior: Option<UserDoc>, f: UserForm, now: int): (d: UserDoc)
    ensures WrittenAs(prior, f, d)
    ensures d.fechaCreacion == Some(now)
  {
    var login :=
      if f.tipo == "usuario" then Some(Trim(f.usuario))
      else if prior.Some? then prior.value.usuario else None;
    var password :=
      if f.tipo == "usuario" && f.password != "" then Some(f.password)
      else if prior.Some? then prior.value.password else None;
    UserDoc(Trim(f.nombre), f.tipo, Some(f.activo), login, password, Some(now))
  }

  /** The first failed check of the user form, in the order they are made. */
  function UserFormError(f: UserForm): Option<ConfigError> {
    if Trim(f.nombre) == "" then Some(NameRequired)
    else if f.tipo == "usuario" && Trim(f.usuario) == "" then Some(LoginRequired)
    else if f.usuarioId == "" && f.tipo == "usuario" && f.password == "" then Some(PasswordRequired)
    else None
  }

  /** The slot the form is saved into: the edited one, or a free one for a new user or persona. */
  function TargetSlot(store: UserStore, f: UserForm): Result<string, ConfigError> {
    if f.usuarioId != "" then Success(f.usuarioId) else SlotFor(store, f.tipo, Trim(f.usuario))
  }

  /**
   * Saves the user form.  Rejects a blank name, then a blank login for a
   * "usuario", then a missing password for a new "usuario", then a taken
   * login or a full pool.  Only the target slot changes; an edit keeps its
   * slot, a new entry lands in an unoccupied one.
   */
  function SaveUser(store: UserStore, f: UserForm, now: int): (r: Result<UserStore, ConfigError>)
    ensures Trim(f.nombre) == "" ==> r == Failure(NameRequired)
    ensures Trim(f.nombre) != "" && f.tipo == "usuario" && Trim(f.usuario) == "" ==> r == Failure(LoginRequired)
    ensures Trim(f.nombre) != "" && f.tipo == "usuario" && Trim(f.usuario) != "" && f.usuarioId == "" && f.password == "" ==>
      r == Failure(PasswordRequired)
    ensures UserFormError(f).None? && TargetSlot(store, f).Failure? ==> r == Failure(TargetSlot(store, f).error)
    ensures r.Success? <==> UserFormError(f).None? && TargetSlot(store, f).Success?
    ensures r.Success? && f.usuarioId == "" && f.tipo == "usuario" ==> !LoginInUse(store, Trim(f.usuario))
  {
    match UserFormError(f)
    case Some(e) => Failure(e)
    case None =>
      match TargetSlot(store, f)
      case Failure(e) => Failure(e)
      case Success(id) =>
        var prior := if id in store then Some(store[id]) else None;
        Success(store[id := Written(prior, f, now)])
  }

  /**
   * A successful save writes only its target slot: an edit keeps its slot,
   * a new entry lands in the first unoccupied one, and the slot then holds
   * the form merged over what it held before.
   */
  lemma SaveUserWritesOnlyTarget(store: UserStore, f: UserForm, now: int)
    requires SaveUser(store, f, now).Success?
    ensures var id := TargetSlot(store, f).value;
      var saved := SaveUser(store, f, now).value;
      && saved.Keys == store.Keys + {id}
      && (forall k :: k in store && k != id ==> saved[k] == store[k])
      && (f.usuarioId != "" ==> id == f.usuarioId)
      && (f.usuarioId == "" ==> FirstFree(store, 0).Some? && id == Slots[FirstFree(store, 0).value] && id !in store)
      && saved[id].nombre != ""
      && WrittenAs(if id in store then Some(store[id]) else None, f, saved[id])
  {
    var id := TargetSlot(store, f).value;
    var prior := if id in store then Some(store[id]) else None;
    assert SaveUser(store, f, now).value == store[id := Written(prior, f, now)];
  }

  /** A loaded user or persona, every missing field given its default. */
  datatype UserInfo = UserInfo(id: string, usuario: string, nombre: string, tipo: string, password: string, activo: bool)

  function InfoOf(id: string, d: UserDoc): UserInfo {
    UserInfo(
      id,
      if d.usuario.Some? && d.usuario.value != "" then d.usuario.value else id,
      if d.nombre != "" then d.nombre else "Usuario " + id,
      if d.tipo != "" then d.tipo else "usuario",
      if d.password.Some? then d.password.value else "",
      d.activo != Some(false))
  }

  /** `u` is the loaded form of the document in one of the first `k` slots. */
  ghost predicate FromSlot(store: UserStore, u: UserInfo, k: nat) {
    exists j :: 0 <= j < k && j < |Slots| && Slots[j] in store && u == InfoOf(Slots[j], store[Slots[j]])
  }

  /** The position among the slots of the one a loaded document came from. */
  function SlotRank(u: UserInfo): int {
    IndexIn(Slots, u.id)
  }

  /** The slot names are distinct, so each one's rank is its position. */
  lemma SlotRankOf(j: nat)
    requires j < |Slots|
    ensures IndexIn(Slots, Slots[j]) == j
  {
    forall a, b | 0 <= a < b < |Slots|
      ensures Slots[a] != Slots[b]
    {
      SlotsDiffer(a, b);
    }
    IndexOfDistinct(Slots, j);
  }

  lemma SlotsDiffer(a: nat, b: nat)
    requires a < b < |Slots|
    ensures Slots[a] != Slots[b]
  {
    SlotSuffixes();
    if b < 9 {
      assert Slots[a][4] != Slots[b][4];
    } else {
      assert |Slots[a]| != |Slots[b]|;
    }
  }

  /** Each slot name is told apart by its length and its fifth character. */
  lemma SlotSuffixes()
    ensures forall i :: 0 <= i < 9 ==> |Slots[i]| == 5 && Slots[i][4] as int == '1' as int + i
    ensures |Slots[9]| == 6
  {
  }

  /**
   * The documents of the first `k` slots, in slot order: each comes from an
   * occupied slot, every occupied slot is there, and the slots they come
   * from strictly increase, so none is loaded twice.
   */
  function LoadedSlots(store: UserStore, k: nat): (r: seq<UserInfo>)
    requires k <= |Slots|
    ensures |r| <= k
    ensures forall i :: 0 <= i < |r| ==> FromSlot(store, r[i], k)
    ensures forall j :: 0 <= j < k && Slots[j] in store ==> InfoOf(Slots[j], store[Slots[j]]) in r
    ensures forall i :: 0 <= i < |r| ==> SlotRank(r[i]) < k
    ensures forall i, j :: 0 <= i < j < |r| ==> SlotRank(r[i]) < SlotRank(r[j])
  {
    if k == 0 then []
    else
      var front := LoadedSlots(store, k - 1);
      var last := if Slots[k - 1] in store then [InfoOf(Slots[k - 1], store[Slots[k - 1]])] else [];
      LoadedSlotsStep(store, k, front, last);
      LoadedSlotsRank(store, k, front, last);
      front + last
  }

  lemma LoadedSlotsStep(store: UserStore, k: nat, front: seq<UserInfo>, last: seq<UserInfo>)
    requires 0 < k <= |Slots|
    requires forall i :: 0 <= i < |front| ==> FromSlot(store, front[i], k - 1)
    requires forall j :: 0 <= j < k - 1 && Slots[j] in store ==> InfoOf(Slots[j], store[Slots[j]]) in front
    requires last == if Slots[k - 1] in store then [InfoOf(Slots[k - 1], store[Slots[k - 1]])] else []
    ensures forall i :: 0 <= i < |front + last| ==> FromSlot(store, (front + last)[i], k)
    ensures forall j :: 0 <= j < k && Slots[j] in store ==> InfoOf(Slots[j], store[Slots[j]]) in front + last
  {
    forall i | 0 <= i < |front + last|
      ensures FromSlot(store, (front + last)[i], k)
    {
      if i < |front| {
        assert FromSlot(store, front[i], k - 1);
        var j :| 0 <= j < k - 1 && j < |Slots| && Slots[j] in store && front[i] == InfoOf(Slots[j], store[Slots[j]]);
        assert (front + last)[i] == front[i];
      } else {
        assert (front + last)[i] == InfoOf(Slots[k - 1], store[Slots[k - 1]]);
      }
    }
    forall j | 0 <= j < k && Slots[j] in store
      ensures InfoOf(Slots[j], store[Slots[j]]) in front + last
    {
      if j < k - 1 {
        assert InfoOf(Slots[j], store[Slots[j]]) in front;
      } else {
        assert (front + last)[|front|] == InfoOf(Slots[j], store[Slots[j]]);
      }
    }
  }

  /** Appending the document of slot `k - 1` to those of earlier slots keeps the slots increasing. */
  lemma LoadedSlotsRank(store: UserStore, k: nat, front: seq<UserInfo>, last: seq<UserInfo>)
    requires 0 < k <= |Slots|
    requires last == if Slots[k - 1] in store then [InfoOf(Slots[k - 1], store[Slots[k - 1]])] else []
    requires forall i :: 0 <= i < |front| ==> SlotRank(front[i]) < k - 1
    requires forall i, j :: 0 <= i < j < |front| ==> SlotRank(front[i]) < SlotRank(front[j])
    ensures forall i :: 0 <= i < |front + last| ==> SlotRank((front + last)[i]) < k
    ensures forall i, j :: 0 <= i < j < |front + last| ==> SlotRank((front + last)[i]) < SlotRank((front + last)[j])
  {
    if |last| > 0 {
      SlotRankOf(k - 1);
      assert SlotRank(last[0]) == k - 1;
    }
    AppendIncreasing(front, last, SlotRank, k - 1);
  }

  function IsPersona(u: UserInfo): bool {
    u.tipo == "persona"
  }

  datatype Loaded = Loaded(usuarios: seq<UserInfo>, personas: seq<UserInfo>)

  /**
   * `cargarUsuarios`: every slot document is loaded, tipo "persona" into
   * the personas and everything else (a missing tipo reads "usuario") into
   * the usuarios, each list in slot order.  Documents outside the ten
   * slots are never loaded.
   */
  function LoadUsers(store: UserStore): (l: Loaded)
    ensures forall i :: 0 <= i < |l.personas| ==> l.personas[i].tipo == "persona"
    ensures forall i :: 0 <= i < |l.usuarios| ==> l.usuarios[i].tipo != "persona"
    ensures |l.usuarios| + |l.personas| <= |Slots|
    ensures forall i :: 0 <= i < |l.usuarios| ==> FromSlot(store, l.usuarios[i], |Slots|)
    ensures forall i :: 0 <= i < |l.personas| ==> FromSlot(store, l.personas[i], |Slots|)
    ensures forall j :: 0 <= j < |Slots| && Slots[j] in store ==>
      var u := InfoOf(Slots[j], store[Slots[j]]);
      (u.tipo == "persona" ==> u in l.personas) && (u.tipo != "persona" ==> u in l.usuarios)
  {
    var all := LoadedSlots(store, |Slots|);
    var l := SplitByTipo(all);
    SidesFromSlots(store, all, l.usuarios);
    SidesFromSlots(store, all, l.personas);
    l
  }

  lemma SidesFromSlots(store: UserStore, all: seq<UserInfo>, side: seq<UserInfo>)
    requires forall i :: 0 <= i < |all| ==> FromSlot(store, all[i], |Slots|)
    requires forall i :: 0 <= i < |side| ==> side[i] in all
    ensures forall i :: 0 <= i < |side| ==> FromSlot(store, side[i], |Slots|)
  {
    forall i | 0 <= i < |side|
      ensures FromSlot(store, side[i], |Slots|)
    {
      var k :| 0 <= k < |all| && all[k] == side[i];
      assert FromSlot(store, all[k], |Slots|);
    }
  }

  /**
   * Every loaded slot document is listed exactly once, on one side, and both
   * sides keep slot order.
   */
  lemma LoadUsersKeepsSlotOrder(store: UserStore)
    ensures var l := LoadUsers(store);
      multiset(l.usuarios) + multiset(l.personas) == multiset(LoadedSlots(store, |Slots|))
      && (forall i, j :: 0 <= i < j < |l.usuarios| ==> SlotRank(l.usuarios[i]) < SlotRank(l.usuarios[j]))
      && (forall i, j :: 0 <= i < j < |l.personas| ==> SlotRank(l.personas[i]) < SlotRank(l.personas[j]))
  {
    var all := LoadedSlots(store, |Slots|);
    var l := SplitByTipo(all);
    assert LoadUsers(store) == l;
  }

  /**
   * Loaded documents split by tipo: each lands on exactly one side, and the
   * slot order of the input is kept on both.
   */
  function SplitByTipo(all: seq<UserInfo>): (l: Loaded)
    requires forall i, j :: 0 <= i < j < |all| ==> SlotRank(all[i]) < SlotRank(all[j])
    ensures forall i :: 0 <= i < |l.personas| ==> l.personas[i].tipo == "persona" && l.personas[i] in all
    ensures forall i :: 0 <= i < |l.usuarios| ==> l.usuarios[i].tipo != "persona" && l.usuarios[i] in all
    ensures |l.usuarios| + |l.personas| == |all|
    ensures forall u :: u in all ==> (u.tipo == "persona" ==> u in l.personas) && (u.tipo != "persona" ==> u in l.usuarios)
    ensures multiset(l.usuarios) + multiset(l.personas) == multiset(all)
    ensures forall i, j :: 0 <= i < j < |l.usuarios| ==> SlotRank(l.usuarios[i]) < SlotRank(l.usuarios[j])
    ensures forall i, j :: 0 <= i < j < |l.personas| ==> SlotRank(l.personas[i]) < SlotRank(l.personas[j])
  {
    FilterSplitLength(all, IsPersona);
    SplitIncreasing(all, IsPersona, SlotRank);
    Loaded(Filter(all, Not(IsPersona)), Filter(all, IsPersona))
  }

  /**
   * Creating a user or persona and loading the slots back lists it, on the
   * side its tipo selects, with the values typed into the form.
   */
  lemma NewUserIsListed(store: UserStore, f: UserForm, now: int)
    requires f.usuarioId == ""
    requires SaveUser(store, f, now).Success?
    ensures var id := TargetSlot(store, f).value;
      var l := LoadUsers(SaveUser(store, f, now).value);
      var expected := UserInfo(
        id,
        if f.tipo == "usuario" then Trim(f.usuario) else id,
        Trim(f.nombre),
        if f.tipo != "" then f.tipo else "usuario",
        if f.tipo == "usuario" then f.password else "",
        f.activo);
      (f.tipo == "persona" ==> expected in l.personas) && (f.tipo != "persona" ==> expected in l.usuarios)
  {
    SaveUserWritesOnlyTarget(store, f, now);
    var id := TargetSlot(store, f).value;
    var saved := SaveUser(store, f, now).value;
    var k := FirstFree(store, 0).value;
    var d := saved[id];
    assert id !in store && WrittenAs(None, f, d);
    var u := InfoOf(id, d);
    assert u.nombre == Trim(f.nombre) && u.activo == f.activo;
    assert u.usuario == if f.tipo == "usuario" then Trim(f.usuario) else id;
    assert u.password == if f.tipo == "usuario" then f.password else "";
    assert Slots[k] in saved && u == InfoOf(Slots[k], saved[Slots[k]]);
    ListedOnItsSide(saved, k);
  }

  /** The document of an occupied slot is loaded on the side its tipo selects. */
  lemma ListedOnItsSide(store: UserStore, j: nat)
    requires j < |Slots| && Slots[j] in store
    ensures var u, l := InfoOf(Slots[j], store[Slots[j]]), LoadUsers(store);
      (u.tipo == "persona" ==> u in l.personas) && (u.tipo != "persona" ==> u in l.usuarios)
  {
  }

  /** No two slots hold the same login. */
  ghost predicate UniqueLogins(store: UserStore) {
    forall i, j :: 0 <= i < j < |Slots| && Slots[i] in store && Slots[j] in store && store[Slots[i]].usuario.Some? ==>
      store[Slots[i]].usuario != store[Slots[j]].usuario
  }

  /** With the intended slot search, creating a user or persona never duplicates a login. */
  lemma CreatingKeepsLoginsUnique(store: UserStore, f: UserForm, now: int)
    requires UniqueLogins(store)
    requires f.usuarioId == ""
    requires SaveUser(store, f, now).Success?
    ensures UniqueLogins(SaveUser(store, f, now).value)
  {
    SaveUserWritesOnlyTarget(store, f, now);
    var saved := SaveUser(store, f, now).value;
    var id := TargetSlot(store, f).value;
    assert id !in store && WrittenAs(None, f, saved[id]);
    assert saved == store[id := saved[id]];
    if f.tipo == "usuario" {
      assert !LoginInUse(store, Trim(f.usuario));
    }
    FreshLoginKeepsUnique(store, id, saved[id]);
  }

  /** Filling an empty slot with no login, or a login no slot holds, keeps logins unique. */
  lemma FreshLoginKeepsUnique(store: UserStore, id: string, d: UserDoc)
    requires UniqueLogins(store)
    requires id !in store
    requires d.usuario.None? || !LoginInUse(store, d.usuario.value)
    ensures UniqueLogins(store[id := d])
  {
    var saved := store[id := d];
    forall i, j | 0 <= i < j < |Slots| && Slots[i] in saved && Slots[j] in saved && saved[Slots[i]].usuario.Some?
      ensures saved[Slots[i]].usuario != saved[Slots[j]].usuario
    {
      if Slots[i] == id {
        assert Slots[j] in store;
      } else if Slots[j] == id {
        assert Slots[i] in store;
      }
    }
  }

  /** A category as stored; `activa` is absent from categories saved before the flag existed. */
  datatype Category = Category(
    id: string,
    nombre: string,
    color: string,
    icono: string,
    activa: Option<bool>,
    incluirResumen: bool,
    mostrarGraficos: bool,
    fechaCreacion: int)

  datatype CategoryForm = CategoryForm(nombre: string, color: string, icono: string, activa: bool, incluirResumen: bool, mostrarGraficos: bool)

  /** The icon of a category saved without one. */
  const DefaultIcon: string := "\U{1F4C1}"

  /** A card as stored; `activa` as for categories. */
  datatype PaymentCard = PaymentCard(id: string, nombre: string, tipo: string, activa: Option<bool>, fechaCreacion: int)

  datatype CardForm = CardForm(nombre: string, tipo: string, activa: bool)

  function CategoryIdIs(id: string): Category -> bool {
    (c: Category) => c.id == id
  }

  function CardIdIs(id: string): PaymentCard -> bool {
    (c: PaymentCard) => c.id == id
  }

  /** `{ ...old, ...nuevo }` where `nuevo` sets every field: the record becomes `nuevo`. */
  function Replacing<T>(nuevo: T): T -> T {
    _ => nuevo
  }

  /**
   * Stores a record: when editing, every record the edit matches becomes
   * the new one in place; otherwise the new one is appended.
   */
  function Upsert<T>(items: seq<T>, editing: bool, edited: T -> bool, nuevo: T): (r: seq<T>)
    ensures !editing ==> r == items + [nuevo]
    ensures editing ==> |r| == |items|
    ensures editing ==> forall i :: 0 <= i < |items| && !edited(items[i]) ==> r[i] == items[i]
    ensures editing ==> forall i :: 0 <= i < |items| && edited(items[i]) ==> r[i] == nuevo
  {
    if editing then MapWhere(items, edited, Replacing(nuevo)) else items + [nuevo]
  }

  /**
   * `guardarCategoria`: a blank trimmed name is rejected; otherwise the
   * category (fresh id, trimmed name, the default icon when none is given)
   * is stored by `Upsert`, replacing every category with the edited id.
   */
  function SaveCategory(items: seq<Category>, editingId: string, f: CategoryForm, id: string, now: int): (r: Result<seq<Category>, ConfigError>)
    ensures r.Failure? <==> Trim(f.nombre) == ""
    ensures r.Failure? ==> r.error == NameRequired
    ensures r.Success? ==>
      var c := Category(id, Trim(f.nombre), f.color, if f.icono == "" then DefaultIcon else f.icono,
        Some(f.activa), f.incluirResumen, f.mostrarGraficos, now);
      && c.nombre != "" && c.icono != ""
      && r.value == Upsert(items, editingId != "", CategoryIdIs(editingId), c)
  {
    var nombre := Trim(f.nombre);
    if nombre == "" then Failure(NameRequired)
    else
      var icono := if f.icono == "" then DefaultIcon else f.icono;
      Success(Upsert(items, editingId != "", CategoryIdIs(editingId),
        Category(id, nombre, f.color, icono, Some(f.activa), f.incluirResumen, f.mostrarGraficos, now)))
  }

  /** `guardarTarjeta`: as for categories, with the card's own fields. */
  function SaveCard(items: seq<PaymentCard>, editingId: string, f: CardForm, id: string, now: int): (r: Result<seq<PaymentCard>, ConfigError>)
    ensures r.Failure? <==> Trim(f.nombre) == ""
    ensures r.Failure? ==> r.error == NameRequired
    ensures r.Success? ==>
      var c := PaymentCard(id, Trim(f.nombre), f.tipo, Some(f.activa), now);
      && c.nombre != ""
      && r.value == Upsert(items, editingId != "", CardIdIs(editingId), c)
  {
    var nombre := Trim(f.nombre);
    if nombre == "" then Failure(NameRequired)
    else Success(Upsert(items, editingId != "", CardIdIs(editingId), PaymentCard(id, nombre, f.tipo, Some(f.activa), now)))
  }

  /**
   * Deletes every category with the id: every category with another id is
   * kept as often as it occurs, and an id that is not there changes nothing.
   */
  function DeleteCategory(items: seq<Category>, id: string): (r: seq<Category>)
    ensures forall i :: 0 <= i < |r| ==> r[i].id != id && r[i] in items
    ensures forall i :: 0 <= i < |items| && items[i].id != id ==> items[i] in r
    ensures forall c :: multiset(r)[c] == if c.id != id then multiset(items)[c] else 0
    ensures (forall i :: 0 <= i < |items| ==> items[i].id != id) ==> r == items
  {
    FilterCount(items, Not(CategoryIdIs(id)));
    if forall i :: 0 <= i < |items| ==> items[i].id != id then
      FilterAll(items, Not(CategoryIdIs(id)));
      Filter(items, Not(CategoryIdIs(id)))
    else Filter(items, Not(CategoryIdIs(id)))
  }

  /**
   * Deletes every card with the id: every card with another id is kept as
   * often as it occurs, and an id that is not there changes nothing.
   */
  function DeleteCard(items: seq<PaymentCard>, id: string): (r: seq<PaymentCard>)
    ensures forall i :: 0 <= i < |r| ==> r[i].id != id && r[i] in items
    ensures forall i :: 0 <= i < |items| && items[i].id != id ==> items[i] in r
    ensures forall c :: multiset(r)[c] == if c.id != id then multiset(items)[c] else 0
    ensures (forall i :: 0 <= i < |items| ==> items[i].id != id) ==> r == items
  {
    FilterCount(items, Not(CardIdIs(id)));
    if forall i :: 0 <= i < |items| ==> items[i].id != id then
      FilterAll(items, Not(CardIdIs(id)));
      Filter(items, Not(CardIdIs(id)))
    else Filter(items, Not(CardIdIs(id)))
  }

  /** Deleting a category distributes over concatenation, so the kept ones stay in order. */
  lemma DeleteCategoryKeepsOrder(a: seq<Category>, b: seq<Category>, id: string)
    ensures DeleteCategory(a + b, id) == DeleteCategory(a, id) + DeleteCategory(b, id)
  {
    FilterConcat(a, b, Not(CategoryIdIs(id)));
  }

  /** Deleting a card distributes over concatenation, so the kept ones stay in order. */
  lemma DeleteCardKeepsOrder(a: seq<PaymentCard>, b: seq<PaymentCard>, id: string)
    ensures DeleteCard(a + b, id) == DeleteCard(a, id) + DeleteCard(b, id)
  {
    FilterConcat(a, b, Not(CardIdIs(id)));
  }

  /** Deleting a category just created, under an id no other category has, restores the catalogue. */
  lemma CreateThenDeleteCategory(items: seq<Category>, f: CategoryForm, id: string, now: int)
    requires forall i :: 0 <= i < |items| ==> items[i].id != id
    requires SaveCategory(items, "", f, id, now).Success?
    ensures DeleteCategory(SaveCategory(items, "", f, id, now).value, id) == items
  {
    var saved := SaveCategory(items, "", f, id, now).value;
    var c := saved[|items|];
    assert saved == items + [c];
    FilterConcat(items, [c], Not(CategoryIdIs(id)));
    FilterAll(items, Not(CategoryIdIs(id)));
  }

  /** Deleting a card just created, under an id no other card has, restores the catalogue. */
  lemma CreateThenDeleteCard(items: seq<PaymentCard>, f: CardForm, id: string, now: int)
    requires forall i :: 0 <= i < |items| ==> items[i].id != id
    requires SaveCard(items, "", f, id, now).Success?
    ensures DeleteCard(SaveCard(items, "", f, id, now).value, id) == items
  {
    var saved := SaveCard(items, "", f, id, now).value;
    var c := saved[|items|];
    assert saved == items + [c];
    FilterConcat(items, [c], Not(CardIdIs(id)));
    FilterAll(items, Not(CardIdIs(id)));
  }

  /** `activa !== false`: only an explicit `false` deactivates. */
  function CategoryActive(c: Category): bool {
    c.activa != Some(false)
  }

  function CardActive(c: PaymentCard): bool {
    c.activa != Some(false)
  }

  datatype ConfigStats = ConfigStats(categorias: nat, tarjetas: nat, usuarios: nat)

  /**
   * The counters: the number of categories and of cards not deactivated
   * (`activa !== false`) and of loaded usuarios (personas are not counted).
   * A counter equals its catalogue's size exactly when nothing in it is
   * deactivated.
   */
  function Statistics(categorias: seq<Category>, tarjetas: seq<PaymentCard>, l: Loaded): (s: ConfigStats)
    ensures s.categorias <= |categorias| && s.tarjetas <= |tarjetas| && s.usuarios == |l.usuarios|
    ensures s.categorias == |categorias| <==> forall i :: 0 <= i < |categorias| ==> categorias[i].activa != Some(false)
    ensures s.tarjetas == |tarjetas| <==> forall i :: 0 <= i < |tarjetas| ==> tarjetas[i].activa != Some(false)
    ensures s.categorias == |set i | 0 <= i < |categorias| && categorias[i].activa != Some(false)|
    ensures s.tarjetas == |set i | 0 <= i < |tarjetas| && tarjetas[i].activa != Some(false)|
  {
    CategoriesCounted(categorias);
    CardsCounted(tarjetas);
    ConfigStats(|Filter(categorias, CategoryActive)|, |Filter(tarjetas, CardActive)|, |l.usuarios|)
  }

  /** The active categories, counted by position and compared with the catalogue size. */
  lemma CategoriesCounted(categorias: seq<Category>)
    ensures |Filter(categorias, CategoryActive)| == |set i | 0 <= i < |categorias| && categorias[i].activa != Some(false)|
    ensures |Filter(categorias, CategoryActive)| == |categorias| <==>
      forall i :: 0 <= i < |categorias| ==> categorias[i].activa != Some(false)
  {
    FilterKeepsAllIff(categorias, CategoryActive);
    FilterLength(categorias, CategoryActive);
    assert IndicesWhere(categorias, CategoryActive) == set i | 0 <= i < |categorias| && categorias[i].activa != Some(false);
  }

  /** The active cards, counted by position and compared with the catalogue size. */
  lemma CardsCounted(tarjetas: seq<PaymentCard>)
    ensures |Filter(tarjetas, CardActive)| == |set i | 0 <= i < |tarjetas| && tarjetas[i].activa != Some(false)|
    ensures |Filter(tarjetas, CardActive)| == |tarjetas| <==>
      forall i :: 0 <= i < |tarjetas| ==> tarjetas[i].activa != Some(false)
  {
    FilterKeepsAllIff(tarjetas, CardActive);
    FilterLength(tarjetas, CardActive);
    assert IndicesWhere(tarjetas, CardActive) == set i | 0 <= i < |tarjetas| && tarjetas[i].activa != Some(false);
  }

  /** Creating a category raises the active counter by one exactly when it is created active. */
  lemma NewCategoryCounted(items: seq<Category>, f: CategoryForm, id: string, now: int, tarjetas: seq<PaymentCard>, l: Loaded)
    requires SaveCategory(items, "", f, id, now).Success?
    ensures Statistics(SaveCategory(items, "", f, id, now).value, tarjetas, l).categorias ==
      Statistics(items, tarjetas, l).categorias + (if f.activa then 1 else 0)
  {
    var saved := SaveCategory(items, "", f, id, now).value;
    var c := saved[|items|];
    assert saved == items + [c];
    FilterConcat(items, [c], CategoryActive);
  }
}

=== FILE: dashboard.dfy ===
/**
 * The dashboard's monthly figures: totals, daily average and groupings,
 * the spending trend, the advisory alerts, and the month-by-month
 * comparison.  The current month's expenses and budget are those the
 * budget page selects for the same month.
 */
module Dashboard {
  import opened Wrappers
  import opened Seqs
  import opened Groups
  import opened Dates
  import opened Expenses
  import opened Aggregates
  import opened Charts
  import opened Budgets

  /**
   * `max(1, floor(elapsed / day) + 1)`: the day of the month counted from
   * the first, today included, given the milliseconds since its start.
   */
  function DaysElapsed(elapsedMs: int): (d: int)
    ensures d >= 1
    ensures elapsedMs >= 0 ==> (d - 1) * MsPerDay <= elapsedMs < d * MsPerDay
    ensures elapsedMs < 0 ==> d == 1
  {
    var days := elapsedMs / MsPerDay + 1;
    if days > 1 then days else 1
  }

  /** Card payments are grouped per card: `metodo-tarjeta` for credit or debit with a card, the method otherwise. */
  function MethodKey(g: Expense): (r: string)
    ensures r == "" <==> g.metodoPago == ""
    ensures |g.metodoPago| <= |r| && r[..|g.metodoPago|] == g.metodoPago
    ensures r != g.metodoPago <==> (g.metodoPago == "credito" || g.metodoPago == "debito") && g.tarjeta != ""
    ensures r != g.metodoPago ==> r[|g.metodoPago|..] == "-" + g.tarjeta
  {
    if (g.metodoPago == "credito" || g.metodoPago == "debito") && g.tarjeta != "" then g.metodoPago + "-" + g.tarjeta
    else g.metodoPago
  }

  datatype Trend = Up | Down | Stable

  datatype Stats = Stats(
    totalGastado: real,
    numGastos: nat,
    diasTranscurridos: int,
    promedioDiario: real,
    porCategoria: seq<Entry<string>>,
    porMetodoPago: seq<Entry<string>>,
    tendencia: Trend)

  /**
   * The month's figures: the total is the sum of `monto` (never of
   * `montoTotal`), the average spreads it over the elapsed days, and both
   * groupings partition the total.
   */
  function CalculateStats(gastos: seq<Expense>, elapsedMs: int): (s: Stats)
    ensures s.totalGastado == TotalSpent(gastos) && s.numGastos == |gastos|
    ensures s.diasTranscurridos == DaysElapsed(elapsedMs)
    ensures s.promedioDiario == DailyAverage(s.totalGastado, s.diasTranscurridos)
    ensures DistinctKeys(s.porCategoria) && SumTotals(s.porCategoria) == s.totalGastado
    ensures forall c :: c in KeysOf(s.porCategoria) <==> c in Image(gastos, Categoria)
    ensures forall c :: Lookup(s.porCategoria, c) == TotalSpent(Filter(gastos, KeyIs(Categoria, c)))
    ensures DistinctKeys(s.porMetodoPago) && SumTotals(s.porMetodoPago) == s.totalGastado
    ensures forall k :: k in KeysOf(s.porMetodoPago) <==> k in Image(gastos, MethodKey)
    ensures forall k :: Lookup(s.porMetodoPago, k) == TotalSpent(Filter(gastos, KeyIs(MethodKey, k)))
    ensures s.tendencia == CalculateTrend(gastos)
  {
    var total := TotalSpent(gastos);
    var dias := DaysElapsed(elapsedMs);
    var porCategoria := GroupSum(gastos, Categoria, Monto);
    var porMetodoPago := GroupSum(gastos, MethodKey, Monto);
    Stats(total, |gastos|, dias, DailyAverage(total, dias), porCategoria, porMetodoPago, CalculateTrend(gastos))
  }

  /** `total / dias`: the amount that, spent every day, gives the total. */
  function DailyAverage(total: real, dias: int): (a: real)
    requires dias >= 1
    ensures a * dias as real == total
  {
    total / dias as real
  }

  /** The per-day sums, ascending by day (`Object.keys(...).map(Number).sort`). */
  function DaySums(gastos: seq<Expense>): (d: seq<Entry<int>>)
    ensures StrictlySortedBy(d, EntryKey)
    ensures forall i :: 0 <= i < |d| ==> d[i].total == TotalSpent(Filter(gastos, KeyIs(Day, d[i].key)))
    ensures forall k :: k in KeysOf(d) <==> exists i :: 0 <= i < |gastos| && gastos[i].fecha.day == k
  {
    var g := DayTotals(gastos);
    var r := SortBy(g, EntryKey);
    SortByStrict(g, EntryKey);
    PermutedEntries(g, r);
    r
  }

  /** Average over a week of day sums. */
  function WeekAverage(days: seq<Entry<int>>): real {
    SumTotals(days) / 7.0
  }

  /** Up above 120% of the first week, down below 80%, stable otherwise. */
  function Classify(first: real, last: real): Trend {
    if last > first * 1.2 then Up
    else if last < first * 0.8 then Down
    else Stable
  }

  /** Compares the first seven days with expenses against the last seven. */
  function CalculateTrend(gastos: seq<Expense>): (r: Trend)
    ensures |DaySums(gastos)| < 7 ==> r == Stable
    ensures var d := DaySums(gastos);
      r == Up <==> |d| >= 7 && SumTotals(d[|d| - 7..]) > SumTotals(d[..7]) * 1.2
    ensures var d := DaySums(gastos);
      r == Down <==> (|d| >= 7 && SumTotals(d[|d| - 7..]) < SumTotals(d[..7]) * 0.8
        && !(SumTotals(d[|d| - 7..]) > SumTotals(d[..7]) * 1.2))
  {
    if |gastos| == 0 then Stable
    else
      var d := DaySums(gastos);
      if |d| < 7 then Stable
      else Classify(WeekAverage(d[..7]), WeekAverage(d[|d| - 7..]))
  }

  /** Fewer than seven distinct days with expenses always read as stable. */
  lemma TrendNeedsSevenDays(gastos: seq<Expense>, days: set<int>)
    requires forall i :: 0 <= i < |gastos| ==> gastos[i].fecha.day in days
    requires |days| < 7
    ensures CalculateTrend(gastos) == Stable
  {
    DaySumsBound(gastos, days);
  }

  /** There is one day sum per distinct day. */
  lemma DaySumsBound(gastos: seq<Expense>, days: set<int>)
    requires forall i :: 0 <= i < |gastos| ==> gastos[i].fecha.day in days
    ensures |DaySums(gastos)| <= |days|
  {
    var d := DaySums(gastos);
    forall i | 0 <= i < |d|
      ensures d[i].key in days
    {
      assert KeysOf(d)[i] == d[i].key;
      assert d[i].key in KeysOf(d);
      var j :| 0 <= j < |gastos| && gastos[j].fecha.day == d[i].key;
    }
    DistinctKeysBound(d, days);
  }

  /**
   * With exactly seven days the first and last weeks coincide, so with
   * non-negative amounts the trend is stable.
   */
  lemma SevenDaysAreStable(gastos: seq<Expense>)
    requires forall i :: 0 <= i < |gastos| ==> gastos[i].monto >= 0.0
    requires |DaySums(gastos)| == 7
    ensures CalculateTrend(gastos) == Stable
  {
    var d := DaySums(gastos);
    forall i | 0 <= i < |d|
      ensures TotalOf(d[i]) >= 0.0
    {
      var part := Filter(gastos, KeyIs(Day, d[i].key));
      assert forall j :: 0 <= j < |part| ==> part[j] in gastos;
      SumByNonNegative(part, Monto);
    }
    SumByNonNegative(d, TotalOf);
    assert d[..7] == d && d[|d| - 7..] == d;
  }

  datatype Alert =
    | BudgetExceeded
    | BudgetNear
    | NoBudget
    | HighDailyAverage
    | CategoryConcentration(categoria: string)
    | NoExpenses
    | LowActivity(count: nat)

  /** `reduce((max, cat) => cat[1] > max[1] ? cat : max)`: the first entry with the largest total. */
  function FirstMax(g: seq<Entry<string>>): (m: Entry<string>)
    requires |g| > 0
    ensures forall i :: 0 <= i < |g| ==> g[i].total <= m.total
    ensures exists k :: 0 <= k < |g| && g[k] == m && forall j :: 0 <= j < k ==> g[j].total < m.total
    decreases |g|
  {
    if |g| == 1 then g[0]
    else
      var m := FirstMax(g[..|g|-1]);
      if g[|g|-1].total > m.total then g[|g|-1] else m
  }

  /**
   * The largest category's share exceeds half: `(top / total) * 100 > 50`,
   * where a zero total gives an infinite share for a positive top category
   * and no share otherwise.
   */
  predicate Concentrated(top: real, total: real) {
    if total == 0.0 then top > 0.0 else (top / total) * 100.0 > 50.0
  }

  /** The budget part: exceeded or near when a budget exists, a notice when none does. */
  function BudgetAlert(enabled: bool, presupuesto: Option<Budget>, total: real): (r: seq<Alert>)
    ensures |r| <= 1
    ensures r == [BudgetExceeded] <==>
      enabled && presupuesto.Some? && presupuesto.value.monto > 0.0 && total >= presupuesto.value.monto
    ensures r == [BudgetNear] <==>
      && enabled && presupuesto.Some? && presupuesto.value.monto > 0.0
      && 0.8 * presupuesto.value.monto <= total < presupuesto.value.monto
    ensures r == [NoBudget] <==> enabled && presupuesto.None?
  {
    if enabled && presupuesto.Some? then
      var monto := presupuesto.value.monto;
      var usage := if monto > 0.0 then (total / monto) * 100.0 else 0.0;
      UsageThresholds(monto, total);
      if usage >= 100.0 then [BudgetExceeded]
      else if usage >= 80.0 then [BudgetNear]
      else []
    else if enabled then [NoBudget]
    else []
  }

  /**
   * The advisories that do not depend on the budget: daily average above
   * 1000, one category above half of the spending, and no expenses or
   * fewer than five.
   */
  function Advisories(s: Stats): (r: seq<Alert>)
    ensures forall a :: a in r ==> !IsBudgetAlert(a)
    ensures HighDailyAverage in r <==> s.promedioDiario > 1000.0
    ensures NoExpenses in r <==> s.numGastos == 0
    ensures LowActivity(s.numGastos) in r <==> 0 < s.numGastos < 5
    ensures forall a :: a in r && a.LowActivity? ==> a.count == s.numGastos
    ensures forall a :: a in r && a.CategoryConcentration? <==> a in ConcentrationAlert(s)
  {
    var average := if s.promedioDiario > 1000.0 then [HighDailyAverage] else [];
    var category := ConcentrationAlert(s);
    var activity := ActivityAlert(s.numGastos);
    var r := average + category + activity;
    assert forall a :: a in r <==> a in average || a in category || a in activity;
    r
  }

  /**
   * The concentration notice appears exactly when the largest category
   * exceeds half of the spending, and it names that category.
   */
  lemma ConcentrationAdvisory(s: Stats)
    ensures (exists a :: a in Advisories(s) && a.CategoryConcentration?) <==>
      |s.porCategoria| > 0 && Concentrated(FirstMax(s.porCategoria).total, s.totalGastado)
    ensures forall a :: a in Advisories(s) && a.CategoryConcentration? ==>
      |s.porCategoria| > 0 && a.categoria == FirstMax(s.porCategoria).key
  {
    var category := ConcentrationAlert(s);
    if |category| == 1 {
      assert category[0] in Advisories(s);
    }
  }

  /** The concentration notice, naming the largest category, when it exceeds half of the spending. */
  function ConcentrationAlert(s: Stats): (r: seq<Alert>)
    ensures |r| <= 1
    ensures |r| == 1 <==> |s.porCategoria| > 0 && Concentrated(FirstMax(s.porCategoria).total, s.totalGastado)
    ensures forall a :: a in r ==> |s.porCategoria| > 0 && a == CategoryConcentration(FirstMax(s.porCategoria).key)
  {
    if |s.porCategoria| > 0 && Concentrated(FirstMax(s.porCategoria).total, s.totalGastado)
    then [CategoryConcentration(FirstMax(s.porCategoria).key)] else []
  }

  /** The activity notice: none for no expenses, low activity (with the count) for one to four. */
  function ActivityAlert(n: nat): (r: seq<Alert>)
    ensures NoExpenses in r <==> n == 0
    ensures LowActivity(n) in r <==> 0 < n < 5
    ensures forall a :: a in r ==> a == NoExpenses || a == LowActivity(n)
  {
    if n == 0 then [NoExpenses]
    else if n < 5 then [LowActivity(n)]
    else []
  }

  /** The alerts about the month's budget, as opposed to the advisories. */
  predicate IsBudgetAlert(a: Alert) {
    a.BudgetExceeded? || a.BudgetNear? || a.NoBudget?
  }

  /**
   * The alert list: the budget alert, stated in money, followed by the
   * advisories; every alert that is not about the budget is an advisory
   * and every advisory is shown.
   */
  function GenerateAlerts(enabled: bool, presupuesto: Option<Budget>, s: Stats): (r: seq<Alert>)
    ensures BudgetExceeded in r <==>
      enabled && presupuesto.Some? && presupuesto.value.monto > 0.0 && s.totalGastado >= presupuesto.value.monto
    ensures BudgetNear in r <==>
      && enabled && presupuesto.Some? && presupuesto.value.monto > 0.0
      && 0.8 * presupuesto.value.monto <= s.totalGastado < presupuesto.value.monto
    ensures NoBudget in r <==> enabled && presupuesto.None?
    ensures forall a :: a in r && !IsBudgetAlert(a) <==> a in Advisories(s)
  {
    var budget := BudgetAlert(enabled, presupuesto, s.totalGastado);
    var advisories := Advisories(s);
    assert forall a :: a in budget ==> IsBudgetAlert(a);
    assert forall a :: a in advisories ==> !IsBudgetAlert(a);
    budget + advisories
  }

  /**
   * For the current month the dashboard's budget alert and the budget
   * page's card agree: the dashboard is alerted of an exceeded (near)
   * budget exactly when the card of that month's budget shows it exceeded
   * (near the limit).
   */
  lemma AlertAgreesWithCard(enabled: bool, gastos: seq<Expense>, budgets: seq<Budget>, mes: int, anio: int, elapsedMs: int)
    ensures var s := CalculateStats(ExpensesOfMonth(gastos, mes, anio), elapsedMs);
      var p := FindBudget(budgets, mes, anio);
      var alerts := GenerateAlerts(enabled, p, s);
      && (p.Some? ==> (BudgetExceeded in alerts <==> BudgetCard(enabled, p.value, gastos).status == Exceeded))
      && (p.Some? ==> (BudgetNear in alerts <==> BudgetCard(enabled, p.value, gastos).status == NearLimit))
      && (p.None? ==> (NoBudget in alerts <==> enabled))
  {
  }

  /**
   * The month-by-month comparison: the monthly totals of the latest `n`
   * months with expenses (all of them when `n` is 0, as `slice(-0)` keeps
   * everything).  The dashboard starts with `n` = 6.
   */
  function Comparativa(gastos: seq<Expense>, n: nat): (r: seq<Entry<int>>)
    ensures |r| == if n == 0 || n >= |MonthlyTotals(gastos)| then |MonthlyTotals(gastos)| else n
    ensures r == MonthlyTotals(gastos)[|MonthlyTotals(gastos)| - |r|..]
  {
    TakeLast(MonthlyTotals(gastos), n)
  }

  /**
   * The comparison lists months in ascending order, each with its month's
   * total, and every month with expenses it leaves out is earlier than all
   * of those it shows.
   */
  lemma ComparativaIsLatestMonths(gastos: seq<Expense>, n: nat)
    ensures StrictlySortedBy(Comparativa(gastos, n), EntryKey)
    ensures forall i :: 0 <= i < |Comparativa(gastos, n)| ==> Comparativa(gastos, n)[i].key in Image(gastos, MonthKey)
    ensures forall i :: 0 <= i < |Comparativa(gastos, n)| ==>
      Comparativa(gastos, n)[i].total == TotalSpent(Filter(gastos, KeyIs(MonthKey, Comparativa(gastos, n)[i].key)))
    ensures forall k, i :: k in Image(gastos, MonthKey) && k !in KeysOf(Comparativa(gastos, n)) && 0 <= i < |Comparativa(gastos, n)| ==>
      k < Comparativa(gastos, n)[i].key
  {
    LatestKeepsEntries(MonthlyTotals(gastos), n, Image(gastos, MonthKey), MonthTotalIs(gastos));
  }

  /** The entry holds its month's total. */
  function MonthTotalIs(gastos: seq<Expense>): Entry<int> -> bool {
    (e: Entry<int>) => e.total == TotalSpent(Filter(gastos, KeyIs(MonthKey, e.key)))
  }

  /**
   * The last `n` entries of a strictly ascending list are ascending, keep
   * whatever every entry satisfies, and hold its largest keys.
   */
  lemma LatestKeepsEntries(m: seq<Entry<int>>, n: nat, keys: seq<int>, ok: Entry<int> -> bool)
    requires StrictlySortedBy(m, EntryKey)
    requires forall k :: k in KeysOf(m) <==> k in keys
    requires forall i :: 0 <= i < |m| ==> ok(m[i])
    ensures StrictlySortedBy(TakeLast(m, n), EntryKey)
    ensures forall i :: 0 <= i < |TakeLast(m, n)| ==> TakeLast(m, n)[i].key in keys && ok(TakeLast(m, n)[i])
    ensures forall k, i :: k in keys && k !in KeysOf(TakeLast(m, n)) && 0 <= i < |TakeLast(m, n)| ==> k < TakeLast(m, n)[i].key
  {
    var r := TakeLast(m, n);
    SuffixKeepsEntries(m, |m| - |r|, keys, ok);
    assert r == m[|m| - |r|..];
  }

  /** The same for any suffix of the list. */
  lemma SuffixKeepsEntries(m: seq<Entry<int>>, start: nat, keys: seq<int>, ok: Entry<int> -> bool)
    requires start <= |m|
    requires StrictlySortedBy(m, EntryKey)
    requires forall k :: k in KeysOf(m) <==> k in keys
    requires forall i :: 0 <= i < |m| ==> ok(m[i])
    ensures StrictlySortedBy(m[start..], EntryKey)
    ensures forall i :: 0 <= i < |m| - start ==> m[start..][i].key in keys && ok(m[start..][i])
    ensures forall k, i :: k in keys && k !in KeysOf(m[start..]) && 0 <= i < |m| - start ==> k < m[start..][i].key
  {
    var r := m[start..];
    forall i | 0 <= i < |r|
      ensures r[i].key in keys && ok(r[i])
    {
      assert r[i] == m[start + i];
      assert KeysOf(m)[start + i] == r[i].key;
    }
    forall k, i | k in keys && k !in KeysOf(r) && 0 <= i < |r|
      ensures k < r[i].key
    {
      var j :| 0 <= j < |m| && KeysOf(m)[j] == k;
      assert EntryKey(m[j]) < EntryKey(m[start + i]);
    }
  }

  /** Without truncation the comparison accounts for every expense. */
  lemma ComparativaCoversAllSpending(gastos: seq<Expense>, n: nat)
    requires n == 0 || n >= |MonthlyTotals(gastos)|
    ensures SumTotals(Comparativa(gastos, n)) == TotalSpent(gastos)
  {
  }
}

=== FILE: dates.dfy ===
/**
 * Calendar dates as the application uses them: an expense date is built at
 * local midnight from its `YYYY-MM-DD` components, so only the
 * (year, month, day) triple matters.  Instants (creation times, backup
 * stamps, task deadlines) are milliseconds since the epoch.
 */
module Dates {

  /** `month` is 1-based, as `getMonth() + 1` reports it; `day` is `getDate()`. */
  datatype Date = Date(year: int, month: int, day: int)

  predicate ValidDate(d: Date) {
    1 <= d.month <= 12 && 1 <= d.day <= 31
  }

  /** Months since year 0: increasing in (year, month), as `new Date(year, month - 1, 1)` is. */
  function MonthIndex(year: int, month: int): int {
    year * 12 + (month - 1)
  }

  const MsPerHour: int := 3_600_000
  const MsPerDay: int := 86_400_000
}

=== FILE: expense_filters.dfy ===
/**
 * The expense list filter (`aplicarFiltros`): six independent criteria,
 * each either "all" or one value, combined conjunctively.
 */
module ExpenseFilters {
  import opened Wrappers
  import opened Seqs
  import opened Dates
  import opened Expenses

  /**
   * The six filter selects.  `None` is the select's `'all'` option (also
   * what an empty select value falls back to); month, year and day are the
   * parsed numbers.
   */
  datatype FilterSpec = FilterSpec(
    mes: Option<int>,
    anio: Option<int>,
    dia: Option<int>,
    categoria: Option<string>,
    metodoPago: Option<string>,
    usuario: Option<string>)

  /** Every select on `'all'`: the state `limpiarFiltros` restores. */
  const ShowAll := FilterSpec(None, None, None, None, None, None)

  /** A criterion that is either "all" or requires equality with one value. */
  predicate Accepts<V(==)>(criterion: Option<V>, v: V) {
    criterion.None? || criterion.value == v
  }

  predicate Matches(f: FilterSpec, g: Expense) {
    && Accepts(f.mes, g.fecha.month)
    && Accepts(f.anio, g.fecha.year)
    && Accepts(f.dia, g.fecha.day)
    && Accepts(f.categoria, g.categoria)
    && Accepts(f.metodoPago, g.metodoPago)
    && Accepts(f.usuario, g.usuario)
  }

  function MatchesFor(f: FilterSpec): Expense -> bool {
    g => Matches(f, g)
  }

  /**
   * The filtered list: a record is kept exactly when every criterion that
   * is not "all" equals the corresponding field of the record.
   */
  function ApplyFilters(gastos: seq<Expense>, f: FilterSpec): (r: seq<Expense>)
    ensures |r| <= |gastos|
    ensures forall i :: 0 <= i < |r| ==> r[i] in gastos
    ensures forall i :: 0 <= i < |r| ==>
      && (f.mes.Some? ==> r[i].fecha.month == f.mes.value)
      && (f.anio.Some? ==> r[i].fecha.year == f.anio.value)
      && (f.dia.Some? ==> r[i].fecha.day == f.dia.value)
      && (f.categoria.Some? ==> r[i].categoria == f.categoria.value)
      && (f.metodoPago.Some? ==> r[i].metodoPago == f.metodoPago.value)
      && (f.usuario.Some? ==> r[i].usuario == f.usuario.value)
    ensures forall i :: 0 <= i < |gastos| && Matches(f, gastos[i]) ==> gastos[i] in r
  {
    Filter(gastos, MatchesFor(f))
  }

  /** With every select on "all" the filter returns the input unchanged and in order. */
  lemma ShowAllIsIdentity(gastos: seq<Expense>)
    ensures ApplyFilters(gastos, ShowAll) == gastos
  {
    FilterAll(gastos, MatchesFor(ShowAll));
  }

  /**
   * Filtering preserves order: the filter of a concatenation is the
   * concatenation of the filters, so kept records stay in input order.
   */
  lemma ApplyFiltersPreservesOrder(a: seq<Expense>, b: seq<Expense>, f: FilterSpec)
    ensures ApplyFilters(a + b, f) == ApplyFilters(a, f) + ApplyFilters(b, f)
  {
    FilterConcat(a, b, MatchesFor(f));
  }
}

=== FILE: expense_forms.dfy ===
/**
 * The expense save pipeline (`guardarGasto`) and the whole-array edits of
 * the expense collection: edit-or-append, mark as paid (`marcarComoPagado`)
 * and delete (`eliminarGasto`).  The form is the set of raw field values
 * the pipeline reads; numeric inputs are the result of `parseFloat`, where
 * `None` is `NaN`.
 */
module ExpenseForms {
  import opened Wrappers
  import opened Seqs
  import opened Text
  import opened Dates
  import opened Expenses

  datatype ExpenseForm = ExpenseForm(
    descripcion: string,
    monto: Option<real>,
    montoMensual: Option<real>,
    montoTotal: Option<real>,
    fecha: Option<Date>,
    categoria: string,
    metodoPago: string,
    tarjeta: string,
    tipoGasto: string,
    usuario: string,
    pagoMeses: string,
    totalMeses: Option<nat>,
    mesActual: Option<nat>)

  datatype SaveError =
    | DescriptionRequired
    | AmountNotPositive
    | MonthlyAmountNotPositive
    | DateRequired
    | CategoryRequired
    | CardRequired
    | PayerRequired

  /** `!isNaN(x) && x > 0` */
  predicate PositiveNumber(x: Option<real>) {
    x.Some? && x.value > 0.0
  }

  /**
   * The shape of every record the pipeline writes: a trimmed non-empty
   * description, a positive amount, the required references present, no
   * payment state, and the single-payment fields normalised.
   */
  predicate SavedShape(e: Expense) {
    && e.descripcion != "" && Trim(e.descripcion) == e.descripcion
    && e.monto > 0.0
    && e.categoria != ""
    && (e.metodoPago != "efectivo" ==> e.tarjeta != "")
    && e.usuario != ""
    && (if e.pagoMeses == "si" then e.montoMensual == Some(e.monto)
        else e.montoMensual.None? && e.montoTotal == Some(e.monto) && e.totalMeses.None? && e.mesActual.None?)
  }

  /** The error of the first validation the form fails, checked in the order `guardarGasto` applies them. */
  function FormError(f: ExpenseForm): Option<SaveError> {
    if Trim(f.descripcion) == "" then Some(DescriptionRequired)
    else if f.pagoMeses == "si" && !PositiveNumber(f.montoMensual) then Some(MonthlyAmountNotPositive)
    else if f.pagoMeses != "si" && !PositiveNumber(f.monto) then Some(AmountNotPositive)
    else if f.fecha.None? then Some(DateRequired)
    else if f.categoria == "" then Some(CategoryRequired)
    else if f.metodoPago != "efectivo" && f.tarjeta == "" then Some(CardRequired)
    else if f.usuario == "" then Some(PayerRequired)
    else None
  }

  /**
   * Validates the form in the order `guardarGasto` uses, stopping at the first failure,
   * and builds the normalised record: a single payment gets
   * `montoTotal = monto` and no instalment fields, an instalment expense
   * gets `monto = montoMensual` and keeps the form's total and counters.
   */
  function BuildExpense(f: ExpenseForm, id: string, now: int): (r: Result<Expense, SaveError>)
    ensures r.Success? ==> SavedShape(r.value) && r.value.estado == "" && r.value.fechaPago.None?
    ensures r.Success? ==> f.fecha.Some? && r.value.fecha == f.fecha.value
    ensures r.Success? ==> r.value.id == id && r.value.createdAt == now && r.value.descripcion == Trim(f.descripcion)
    ensures r.Success? ==>
      && r.value.pagoMeses == f.pagoMeses && r.value.usuario == f.usuario
      && r.value.categoria == f.categoria && r.value.metodoPago == f.metodoPago
      && r.value.tarjeta == f.tarjeta && r.value.tipoGasto == f.tipoGasto
    ensures r.Success? && f.pagoMeses == "si" ==>
      f.montoMensual.Some? && r.value.monto == f.montoMensual.value && r.value.montoTotal == f.montoTotal
      && r.value.totalMeses == f.totalMeses && r.value.mesActual == f.mesActual
    ensures r.Success? && f.pagoMeses != "si" ==> f.monto.Some? && r.value.monto == f.monto.value
  {
    var descripcion := Trim(f.descripcion);
    if FormError(f).Some? then Failure(FormError(f).value)
    else
      TrimIdempotent(f.descripcion);
      var instalments := f.pagoMeses == "si";
      var monto := if instalments then f.montoMensual.value else f.monto.value;
      Success(Expense(
        id := id,
        descripcion := descripcion,
        monto := monto,
        montoMensual := if instalments then f.montoMensual else None,
        montoTotal := if instalments then f.montoTotal else Some(monto),
        fecha := f.fecha.value,
        categoria := f.categoria,
        metodoPago := f.metodoPago,
        tarjeta := f.tarjeta,
        tipoGasto := f.tipoGasto,
        usuario := f.usuario,
        pagoMeses := f.pagoMeses,
        totalMeses := if instalments then f.totalMeses else None,
        mesActual := if instalments then f.mesActual else None,
        estado := "",
        fechaPago := None,
        createdAt := now))
  }

  /** One validation rule: whether the form passes it, and the error it reports otherwise. */
  datatype Check = Check(passes: bool, error: SaveError)

  /** The validation rules of the save pipeline, in the order `guardarGasto` applies them. */
  function Checks(f: ExpenseForm): seq<Check> {
    var instalments := f.pagoMeses == "si";
    [ Check(Trim(f.descripcion) != "", DescriptionRequired),
      if instalments then Check(PositiveNumber(f.montoMensual), MonthlyAmountNotPositive)
      else Check(PositiveNumber(f.monto), AmountNotPositive),
      Check(f.fecha.Some?, DateRequired),
      Check(f.categoria != "", CategoryRequired),
      Check(f.metodoPago == "efectivo" || f.tarjeta != "", CardRequired),
      Check(f.usuario != "", PayerRequired) ]
  }

  /** The error of the first rule that fails, if any. */
  function FirstFailure(checks: seq<Check>): (r: Option<SaveError>)
    ensures r.None? <==> forall i :: 0 <= i < |checks| ==> checks[i].passes
    ensures r.Some? ==> exists i ::
      && 0 <= i < |checks| && !checks[i].passes && checks[i].error == r.value
      && forall j :: 0 <= j < i ==> checks[j].passes
  {
    if |checks| == 0 then None
    else if !checks[0].passes then Some(checks[0].error)
    else
      var rest := FirstFailure(checks[1..]);
      if rest.Some? then
        var i :| 0 <= i < |checks| - 1 && !checks[1..][i].passes && checks[1..][i].error == rest.value
          && forall j :: 0 <= j < i ==> checks[1..][j].passes;
        assert !checks[i + 1].passes && forall j :: 0 <= j < i + 1 ==> checks[j].passes;
        rest
      else
        rest
  }

  /**
   * The save pipeline fails exactly when some rule fails, and it reports the
   * error of the first failing rule in the fixed order: description, amount
   * (monthly amount in instalment mode), date, category, card, payer.
   */
  lemma ValidationOrder(f: ExpenseForm, id: string, now: int)
    ensures BuildExpense(f, id, now).Failure? <==> FirstFailure(Checks(f)).Some?
    ensures BuildExpense(f, id, now).Failure? ==> BuildExpense(f, id, now).error == FirstFailure(Checks(f)).value
  {
    FormErrorIsFirstFailure(f);
  }

  /** The nested checks of the pipeline are the first failure of the rule list. */
  lemma FormErrorIsFirstFailure(f: ExpenseForm)
    ensures FormError(f) == FirstFailure(Checks(f))
  {
    var cs := Checks(f);
    var c0, c1, c2, c3, c4, c5 := cs[0], cs[1], cs[2], cs[3], cs[4], cs[5];
    assert cs == [c0, c1, c2, c3, c4, c5];
    var r5 := FirstFailure([c5]);
    assert r5 == if c5.passes then None else Some(c5.error) by { assert [c5][1..] == []; }
    var r4 := FirstFailure([c4, c5]);
    assert r4 == if c4.passes then r5 else Some(c4.error) by { assert [c4, c5][1..] == [c5]; }
    var r3 := FirstFailure([c3, c4, c5]);
    assert r3 == if c3.passes then r4 else Some(c3.error) by { assert [c3, c4, c5][1..] == [c4, c5]; }
    var r2 := FirstFailure([c2, c3, c4, c5]);
    assert r2 == if c2.passes then r3 else Some(c2.error) by { assert [c2, c3, c4, c5][1..] == [c3, c4, c5]; }
    var r1 := FirstFailure([c1, c2, c3, c4, c5]);
    assert r1 == if c1.passes then r2 else Some(c1.error) by { assert [c1, c2, c3, c4, c5][1..] == [c2, c3, c4, c5]; }
    assert FirstFailure(cs) == if c0.passes then r1 else Some(c0.error) by { assert cs[1..] == [c1, c2, c3, c4, c5]; }
  }

  function IdIs(id: string): Expense -> bool {
    (g: Expense) => g.id == id
  }

  /**
   * `{ ...old, ...nuevo }`: the new record overwrites every field it has,
   * including the id; only the payment state of the old record survives.
   */
  function MergeEdit(nuevo: Expense): Expense -> Expense {
    (prior: Expense) => nuevo.(estado := prior.estado, fechaPago := prior.fechaPago)
  }

  /**
   * Stores a built record: when editing, every record with the edited id is
   * replaced in place by the merge; otherwise the record is appended.
   */
  function SaveExpense(items: seq<Expense>, editingId: string, nuevo: Expense): (r: seq<Expense>)
    ensures editingId == "" ==> r == items + [nuevo]
    ensures editingId != "" ==> |r| == |items|
    ensures editingId != "" ==> forall i :: 0 <= i < |items| && items[i].id != editingId ==> r[i] == items[i]
    ensures editingId != "" ==> forall i :: 0 <= i < |items| && items[i].id == editingId ==>
      r[i] == nuevo.(estado := items[i].estado, fechaPago := items[i].fechaPago)
  {
    if editingId != "" then MapWhere(items, IdIs(editingId), MergeEdit(nuevo)) else items + [nuevo]
  }

  /** Editing an id that is no longer in the collection drops the edit and changes nothing. */
  lemma EditOfMissingIdIsNoOp(items: seq<Expense>, editingId: string, nuevo: Expense)
    requires editingId != ""
    requires forall i :: 0 <= i < |items| ==> items[i].id != editingId
    ensures SaveExpense(items, editingId, nuevo) == items
  {
  }

  /**
   * The instalment select rebuilt by `poblarSelectMesActual(totalMeses)`:
   * its options are 1..totalMeses when `totalMeses > 1`, none otherwise,
   * and a rebuilt select shows its first option.
   */
  function RebuiltSelectValue(totalMeses: Option<nat>): (r: Option<nat>)
    ensures r.Some? <==> totalMeses.Some? && totalMeses.value > 1
    ensures SelectAssign(totalMeses, r) == r
    ensures r.Some? ==> forall v :: SelectAssign(totalMeses, Some(v)).Some? ==> r.value <= v
  {
    if totalMeses.Some? && totalMeses.value > 1 then Some(1) else None
  }

  /** Assigning `value` to the instalment select keeps it only when an option 1..totalMeses matches. */
  function SelectAssign(totalMeses: Option<nat>, value: Option<nat>): (r: Option<nat>)
    ensures r.Some? ==> r == value && totalMeses.Some? && 1 <= r.value <= totalMeses.value
  {
    if totalMeses.Some? && totalMeses.value > 1 && value.Some? && 1 <= value.value <= totalMeses.value
    then value else None
  }

  /**
   * The form as `llenarFormularioGasto` fills it for editing, after the
   * delayed refresh recomputes the instalment total; `prev` supplies the
   * fields it leaves untouched.
   */
  function EditForm(prev: ExpenseForm, g: Expense): (r: ExpenseForm)
    ensures r.descripcion == g.descripcion && r.fecha == Some(g.fecha)
    ensures r.categoria == g.categoria && r.tarjeta == g.tarjeta && r.usuario == g.usuario
    ensures r.metodoPago != "" && (g.metodoPago != "" ==> r.metodoPago == g.metodoPago)
    ensures r.tipoGasto != "" && (g.tipoGasto != "" ==> r.tipoGasto == g.tipoGasto)
    ensures r.pagoMeses != "" && (g.pagoMeses != "" ==> r.pagoMeses == g.pagoMeses)
    ensures r.totalMeses.Some? && (g.totalMeses.Some? ==> r.totalMeses == g.totalMeses)
    ensures r.pagoMeses == "si" ==> r.montoTotal.Some?
    ensures r.mesActual == EditedSelect(prev, g)
  {
    var pagoMeses := if g.pagoMeses != "" then g.pagoMeses else "no";
    var totalMeses := if g.totalMeses.Some? then g.totalMeses else Some(3);
    var montoMensual := if Truthy(g.montoMensual) then g.montoMensual else prev.montoMensual;
    var mesActual := EditedSelect(prev, g);
    var montoTotal :=
      if pagoMeses == "si" then Some(Instalments(if Truthy(montoMensual) then montoMensual.value else 0.0, totalMeses.value))
      else prev.montoTotal;
    ExpenseForm(
      descripcion := g.descripcion,
      monto := if g.monto != 0.0 then Some(g.monto) else None,
      montoMensual := montoMensual,
      montoTotal := montoTotal,
      fecha := Some(g.fecha),
      categoria := g.categoria,
      metodoPago := if g.metodoPago != "" then g.metodoPago else "efectivo",
      tarjeta := g.tarjeta,
      tipoGasto := if g.tipoGasto != "" then g.tipoGasto else "interno",
      usuario := g.usuario,
      pagoMeses := pagoMeses,
      totalMeses := totalMeses,
      mesActual := mesActual)
  }

  /**
   * The instalment select of the edit form: for an instalment record, the
   * stored instalment when the select offers it, otherwise a value of the
   * select or none; any other record leaves the select as it was.
   */
  function EditedSelect(prev: ExpenseForm, g: Expense): (r: Option<nat>)
    ensures g.pagoMeses == "si" && g.totalMeses.Some? && r.Some? ==> 1 <= r.value <= g.totalMeses.value
    ensures (g.pagoMeses == "si" && g.totalMeses.Some? && g.mesActual.Some? && 1 <= g.mesActual.value <= g.totalMeses.value
      && g.totalMeses.value > 1) ==> r == g.mesActual
    ensures !(g.pagoMeses == "si" && g.totalMeses.Some?) ==> r == prev.mesActual
  {
    if g.pagoMeses == "si" && g.totalMeses.Some? then
      (if g.mesActual.Some? then SelectAssign(g.totalMeses, g.mesActual) else RebuiltSelectValue(g.totalMeses))
    else prev.mesActual
  }

  /** Records that the edit form shows faithfully: every select can hold the stored value. */
  predicate Editable(g: Expense) {
    && SavedShape(g)
    && g.metodoPago != "" && g.tipoGasto != "" && g.pagoMeses != ""
    && (g.pagoMeses == "si" ==>
          ConsistentInstalment(g) && g.totalMeses.value > 1 && 1 <= g.mesActual.value <= g.totalMeses.value)
  }

  /**
   * Opening a saved record for editing and saving it unchanged rebuilds the
   * same record, apart from the fresh id and creation time; the payment
   * state is carried over by the merge.  Re-saving is therefore idempotent:
   * no drift in `monto`, `montoTotal` or `mesActual`.
   */
  lemma EditRoundTrip(items: seq<Expense>, k: int, prev: ExpenseForm, id: string, now: int)
    requires 0 <= k < |items| && items[k].id != ""
    requires Editable(items[k])
    requires forall j :: 0 <= j < |items| && j != k ==> items[j].id != items[k].id
    ensures BuildExpense(EditForm(prev, items[k]), id, now).Success?
    ensures SaveExpense(items, items[k].id, BuildExpense(EditForm(prev, items[k]), id, now).value)
      == items[k := items[k].(id := id, createdAt := now)]
  {
    var g := items[k];
    var f := EditForm(prev, g);
    var e := BuildExpense(f, id, now).value;
    assert e == g.(id := id, createdAt := now, estado := "", fechaPago := None);
    var r := SaveExpense(items, g.id, e);
    assert r[k] == g.(id := id, createdAt := now);
  }

  /** The state of a record once marked paid at time `now`. */
  function MarkedPaid(now: int): Expense -> Expense {
    (g: Expense) => g.(estado := "pagado", fechaPago := Some(now))
  }

  /** Sets `estado = 'pagado'` and the payment time on the records with the id; nothing else changes. */
  function MarkPaid(items: seq<Expense>, id: string, now: int): (r: seq<Expense>)
    ensures |r| == |items|
    ensures forall i :: 0 <= i < |items| && items[i].id != id ==> r[i] == items[i]
    ensures forall i :: 0 <= i < |items| && items[i].id == id ==>
      r[i] == items[i].(estado := "pagado", fechaPago := Some(now))
  {
    MapWhere(items, IdIs(id), MarkedPaid(now))
  }

  /**
   * Marking an expense paid settles its balance whatever its instalment
   * state, and leaves the total spent unchanged (`monto` is untouched).
   */
  lemma MarkPaidSettles(items: seq<Expense>, id: string, now: int)
    ensures forall i :: 0 <= i < |items| && items[i].id == id ==> Saldo(MarkPaid(items, id, now)[i]) == Balance(Paid, 0.0)
    ensures TotalSpent(MarkPaid(items, id, now)) == TotalSpent(items)
  {
    SumByMapWhere(items, IdIs(id), MarkedPaid(now), Monto);
  }

  /**
   * `gastos.filter(g => g.id !== id)`: every record with another id is kept
   * as often as it occurs, and no record with the id is.
   */
  function DeleteExpense(items: seq<Expense>, id: string): (r: seq<Expense>)
    ensures forall i :: 0 <= i < |r| ==> r[i].id != id && r[i] in items
    ensures forall i :: 0 <= i < |items| && items[i].id != id ==> items[i] in r
    ensures forall g :: multiset(r)[g] == if g.id != id then multiset(items)[g] else 0
  {
    FilterCount(items, Not(IdIs(id)));
    Filter(items, Not(IdIs(id)))
  }

  /** Deleting distributes over concatenation, so the kept records stay in their stored order. */
  lemma DeleteExpenseKeepsOrder(a: seq<Expense>, b: seq<Expense>, id: string)
    ensures DeleteExpense(a + b, id) == DeleteExpense(a, id) + DeleteExpense(b, id)
  {
    FilterConcat(a, b, Not(IdIs(id)));
  }

  /** Deleting lowers the total spent by exactly the amounts of the deleted records. */
  lemma DeleteLowersTotal(items: seq<Expense>, id: string)
    ensures TotalSpent(DeleteExpense(items, id)) == TotalSpent(items) - TotalSpent(Filter(items, IdIs(id)))
  {
    SumBySplit(items, IdIs(id), Monto);
  }
}

=== FILE: expenses.dfy ===
/**
 * The expense record and the balance calculator (`calcularSaldoPendiente`).
 *
 * An expense is a flat record whose optional parts vary with `pagoMeses`:
 * single payments carry only `monto`, instalment expenses also carry the
 * monthly amount, the committed total and the instalment counters.  String
 * fields that the application may leave `null`, `undefined` or empty are the
 * empty string here, which is how every truthiness test in the application reads
 * them.  `totalMeses` and `mesActual` are persisted as the form's `<select>`
 * values, i.e. decimal strings: `Some(n)` stands for the string `String(n)`
 * (truthy, even for "0") and `None` for the empty string or `null`.
 */
module Expenses {
  import opened Wrappers
  import opened Dates

  datatype Expense = Expense(
    id: string,
    descripcion: string,
    monto: real,
    montoMensual: Option<real>,
    montoTotal: Option<real>,
    fecha: Date,
    categoria: string,
    metodoPago: string,
    tarjeta: string,
    tipoGasto: string,
    usuario: string,
    pagoMeses: string,
    totalMeses: Option<nat>,
    mesActual: Option<nat>,
    estado: string,
    fechaPago: Option<int>,
    createdAt: int)

  /** JavaScript truthiness of an optional number: `null`, `NaN` and `0` are falsy. */
  predicate Truthy(x: Option<real>) {
    x.Some? && x.value != 0.0
  }

  function Monto(g: Expense): real { g.monto }

  /** `montoMensual || monto`: the amount of one instalment. */
  function MonthlyAmount(g: Expense): real {
    if Truthy(g.montoMensual) then g.montoMensual.value else g.monto
  }

  /**
   * `montoTotal || montoMensual * totalMeses || monto`: the committed total,
   * where a missing monthly amount multiplies as 0 (`null * n`).
   */
  function TotalOwed(g: Expense, totalMeses: nat): real {
    var product := Instalments(if g.montoMensual.Some? then g.montoMensual.value else 0.0, totalMeses);
    if Truthy(g.montoTotal) then g.montoTotal.value
    else if product != 0.0 then product
    else g.monto
  }

  /** Instalment mode with both counters present (the guard at app.js:914). */
  predicate HasInstalmentCounters(g: Expense) {
    g.pagoMeses == "si" && g.totalMeses.Some? && g.mesActual.Some?
  }

  datatype Status = Paid | Pending
  datatype Balance = Balance(status: Status, amount: real)

  /**
   * The outstanding balance of an expense.  `calcularSaldoPendiente` repeats the
   * `estado === 'pagado'` test inside its single-payment branch; that test
   * can never succeed there, so it has no counterpart here.
   */
  function Saldo(g: Expense): (b: Balance)
    ensures g.estado == "pagado" ==> b == Balance(Paid, 0.0)
    ensures b.status == Paid <==>
      g.estado == "pagado" || (HasInstalmentCounters(g) && g.mesActual.value >= g.totalMeses.value)
    ensures b.status == Paid ==> b.amount == 0.0
    ensures b.status == Pending && HasInstalmentCounters(g) ==>
      b.amount == TotalOwed(g, g.totalMeses.value) - Instalments(MonthlyAmount(g), g.mesActual.value)
    ensures b.status == Pending && !HasInstalmentCounters(g) ==> b.amount == g.monto
  {
    if g.estado == "pagado" then Balance(Paid, 0.0)
    else if HasInstalmentCounters(g) then
      var total, current := g.totalMeses.value, g.mesActual.value;
      if current >= total then Balance(Paid, 0.0)
      else Balance(Pending, TotalOwed(g, total) - Instalments(MonthlyAmount(g), current))
    else Balance(Pending, g.monto)
  }

  /**
   * The normal form of a saved instalment expense whose total was computed
   * from the form (`montoTotal == montoMensual * totalMeses`).
   */
  predicate ConsistentInstalment(g: Expense) {
    && HasInstalmentCounters(g)
    && g.montoMensual.Some? && g.montoMensual.value > 0.0
    && g.monto == g.montoMensual.value
    && g.totalMeses.value > 0
    && g.montoTotal == Some(Instalments(g.montoMensual.value, g.totalMeses.value))
  }

  /**
   * For a consistent instalment expense the "total minus accrued" formula is
   * the same as "remaining instalments times the monthly amount", and it is
   * positive exactly while the expense is pending.
   */
  lemma BalanceIsRemainingInstalments(g: Expense)
    requires ConsistentInstalment(g) && g.estado != "pagado"
    ensures Saldo(g).status == Pending <==> g.mesActual.value < g.totalMeses.value
    ensures Saldo(g).status == Pending ==>
      Saldo(g).amount == Instalments(g.montoMensual.value, g.totalMeses.value - g.mesActual.value)
      && Saldo(g).amount > 0.0
  {
    var m, t, c := g.montoMensual.value, g.totalMeses.value, g.mesActual.value;
    assert Instalments(m, t) != 0.0;
    if c < t {
      assert Instalments(m, t) - Instalments(m, c) == Instalments(m, t - c);
    }
  }

  /** The next instalment record: same expense, one more instalment accounted for. */
  function NextInstalment(g: Expense): Expense
    requires g.mesActual.Some?
  {
    g.(mesActual := Some(g.mesActual.value + 1))
  }

  /**
   * Accounting one more instalment lowers the balance by exactly one monthly
   * amount while instalments remain, and the last one settles it.
   */
  lemma {:induction false} NextInstalmentLowersBalance(g: Expense)
    requires ConsistentInstalment(g) && g.estado != "pagado"
    requires g.mesActual.value < g.totalMeses.value
    ensures ConsistentInstalment(NextInstalment(g))
    ensures g.mesActual.value + 1 < g.totalMeses.value ==>
      Saldo(NextInstalment(g)) == Balance(Pending, Saldo(g).amount - g.montoMensual.value)
    ensures g.mesActual.value + 1 == g.totalMeses.value ==> Saldo(NextInstalment(g)) == Balance(Paid, 0.0)
  {
    var n := NextInstalment(g);
    BalanceIsRemainingInstalments(g);
    BalanceIsRemainingInstalments(n);
    var m, t, c := g.montoMensual.value, g.totalMeses.value, g.mesActual.value;
    assert Instalments(m, t - c) - m == Instalments(m, t - (c + 1));
  }

  /**
   * The amount of `count` instalments of `monthly` each (`calcularMontoTotal`):
   * spread back over the instalments it gives the monthly amount, and it is
   * never negative for a non-negative monthly amount.
   */
  function Instalments(monthly: real, count: nat): (r: real)
    ensures count > 0 ==> r / count as real == monthly
    ensures count == 0 ==> r == 0.0
    ensures monthly >= 0.0 ==> r >= 0.0
  {
    monthly * count as real
  }

  /** Total spent over a list of expenses: the sum of `monto`, never of `montoTotal`. */
  function TotalSpent(gastos: seq<Expense>): real {
    Seqs.SumBy(gastos, Monto)
  }

  /**
   * `gastos.reduce((sum, g) => sum + g.monto, 0)`: the total starts at zero
   * and each further expense adds its own amount.
   */
  lemma TotalSpentIsReduce(gastos: seq<Expense>, g: Expense)
    ensures TotalSpent([]) == 0.0
    ensures TotalSpent(gastos + [g]) == TotalSpent(gastos) + g.monto
  {
  }

  /** The total of two lists together is the sum of their totals. */
  lemma TotalSpentConcat(a: seq<Expense>, b: seq<Expense>)
    ensures TotalSpent(a + b) == TotalSpent(a) + TotalSpent(b)
  {
    Seqs.SumByConcat(a, b, Monto);
  }

  import Seqs
}

=== FILE: groups.dfy ===
/**
 * Grouped totals (`obj[key] = (obj[key] || 0) + amount` over a `forEach`)
 * and stable sorting by an integer key (`[...xs].sort((a, b) => key(a) - key(b))`).
 * A JavaScript object used as an accumulator is modelled as an association
 * list whose entries appear in first-insertion order.
 */
module Groups {
  import opened Seqs

  datatype Entry<K> = Entry(key: K, total: real)

  /** The keys of an association list, in order. */
  function KeysOf<K>(g: seq<Entry<K>>): (r: seq<K>)
    ensures |r| == |g|
    ensures forall i :: 0 <= i < |g| ==> r[i] == g[i].key
  {
    seq(|g|, i requires 0 <= i < |g| => g[i].key)
  }

  /** The keys a key function assigns to the elements of `xs`, in order. */
  function Image<T, K>(xs: seq<T>, key: T -> K): (r: seq<K>)
    ensures |r| == |xs|
    ensures forall i :: 0 <= i < |xs| ==> r[i] == key(xs[i])
  {
    seq(|xs|, i requires 0 <= i < |xs| => key(xs[i]))
  }

  ghost predicate DistinctKeys<K>(g: seq<Entry<K>>) {
    forall i, j :: 0 <= i < j < |g| ==> g[i].key != g[j].key
  }

  /** The total stored under `k`, or 0 when `k` has no entry (`obj[k] || 0`). */
  function Lookup<K(==)>(g: seq<Entry<K>>, k: K): real
    decreases |g|
  {
    if |g| == 0 then 0.0
    else if g[|g|-1].key == k then g[|g|-1].total
    else Lookup(g[..|g|-1], k)
  }

  function TotalOf<K>(e: Entry<K>): real { e.total }

  /** Sum of the totals of all entries. */
  function SumTotals<K>(g: seq<Entry<K>>): real {
    SumBy(g, TotalOf)
  }

  /** Adds `v` to the entry of `k`, creating it at the end when it is absent. */
  function AddTo<K(==,!new)>(g: seq<Entry<K>>, k: K, v: real): (r: seq<Entry<K>>)
    requires DistinctKeys(g)
    ensures DistinctKeys(r)
    ensures forall x :: x in KeysOf(r) <==> x in KeysOf(g) || x == k
    ensures forall x :: Lookup(r, x) == Lookup(g, x) + (if x == k then v else 0.0)
    ensures SumTotals(r) == SumTotals(g) + v
    decreases |g|
  {
    if |g| == 0 then
      assert KeysOf([Entry(k, v)]) == [k];
      [Entry(k, v)]
    else
      var init, last := g[..|g|-1], g[|g|-1];
      if last.key == k then
        assert forall x :: x != k ==> Lookup(init, x) == Lookup(g, x);
        LookupAbsent(init, k);
        var r := init + [Entry(k, last.total + v)];
        assert KeysOf(r) == KeysOf(init) + [k];
        assert KeysOf(g) == KeysOf(init) + [k];
        r
      else
        var a := AddTo(init, k, v);
        assert last.key !in KeysOf(init);
        assert last.key !in KeysOf(a);
        var r := a + [last];
        assert forall i :: 0 <= i < |a| ==> r[i].key == KeysOf(a)[i];
        assert r[..|r|-1] == a;
        assert KeysOf(r) == KeysOf(AddTo(init, k, v)) + [last.key];
        assert KeysOf(g) == KeysOf(init) + [last.key];
        r
  }

  /** In an association list with distinct keys every entry is what its key looks up. */
  lemma {:induction false} EntryIsLookup<K>(g: seq<Entry<K>>, i: int)
    requires DistinctKeys(g) && 0 <= i < |g|
    ensures g[i].total == Lookup(g, g[i].key)
    decreases |g|
  {
    if i < |g| - 1 {
      EntryIsLookup(g[..|g|-1], i);
    }
  }

  lemma LookupAbsent<K>(g: seq<Entry<K>>, k: K)
    requires forall i :: 0 <= i < |g| ==> g[i].key != k
    ensures Lookup(g, k) == 0.0
    decreases |g|
  {
  }

  /**
   * Grouped totals of `val` by `key`, scanning `xs` from the first element:
   * one entry per distinct key, each holding the sum over the elements with
   * that key, and all entries together summing to the sum over `xs`.
   */
  function GroupSum<T, K(==,!new)>(xs: seq<T>, key: T -> K, val: T -> real): (r: seq<Entry<K>>)
    ensures DistinctKeys(r)
    ensures forall k :: k in KeysOf(r) <==> k in Image(xs, key)
    ensures forall k :: Lookup(r, k) == SumBy(Filter(xs, KeyIs(key, k)), val)
    ensures SumTotals(r) == SumBy(xs, val)
    decreases |xs|
  {
    if |xs| == 0 then []
    else
      var init, last := xs[..|xs|-1], xs[|xs|-1];
      var g := GroupSum(init, key, val);
      assert Image(xs, key) == Image(init, key) + [key(last)];
      forall k ensures Lookup(AddTo(g, key(last), val(last)), k) == SumBy(Filter(xs, KeyIs(key, k)), val) {
        var part := if KeyIs(key, k)(last) then [last] else [];
        SumByConcat(Filter(init, KeyIs(key, k)), part, val);
        assert SumBy([last], val) == val(last) by { assert [last][..0] == []; }
      }
      AddTo(g, key(last), val(last))
  }

  /** The predicate "has key `k`", as a named value. */
  function KeyIs<T, K(==)>(key: T -> K, k: K): T -> bool {
    x => key(x) == k
  }

  ghost predicate SortedBy<T>(s: seq<T>, key: T -> int) {
    forall i, j :: 0 <= i < j < |s| ==> key(s[i]) <= key(s[j])
  }

  /** Inserts `x` before the first element whose key is not smaller. */
  function InsertBy<T(==)>(x: T, s: seq<T>, key: T -> int): (r: seq<T>)
    requires SortedBy(s, key)
    ensures SortedBy(r, key)
    ensures multiset(r) == multiset(s) + multiset{x}
    ensures |r| == |s| + 1
    decreases |s|
  {
    if |s| == 0 || key(x) <= key(s[0]) then
      ConsSorted(x, s, key);
      assert multiset([x] + s) == multiset{x} + multiset(s);
      [x] + s
    else
      var rest := InsertBy(x, s[1..], key);
      assert s == [s[0]] + s[1..];
      assert multiset(s) == multiset{s[0]} + multiset(s[1..]);
      assert multiset([s[0]] + rest) == multiset{s[0]} + multiset(rest);
      ConsSorted(s[0], rest, key);
      [s[0]] + rest
  }

  /** A sorted sequence stays sorted under a new head whose key is no greater than the first. */
  lemma ConsSorted<T>(h: T, t: seq<T>, key: T -> int)
    requires SortedBy(t, key)
    requires |t| > 0 ==> key(h) <= key(t[0])
    requires forall i :: 0 <= i < |t| ==> key(h) <= key(t[i]) || key(t[0]) <= key(t[i])
    ensures SortedBy([h] + t, key)
  {
    var r := [h] + t;
    forall i, j | 0 <= i < j < |r|
      ensures key(r[i]) <= key(r[j])
    {
      assert r[j] == t[j - 1];
      if i > 0 {
        assert r[i] == t[i - 1];
      }
    }
  }

  /** Stable insertion sort, ascending by `key`. */
  function SortBy<T(==)>(xs: seq<T>, key: T -> int): (r: seq<T>)
    ensures SortedBy(r, key)
    ensures multiset(r) == multiset(xs)
    ensures |r| == |xs|
    decreases |xs|
  {
    if |xs| == 0 then []
    else
      assert xs == [xs[0]] + xs[1..];
      InsertBy(xs[0], SortBy(xs[1..], key), key)
  }

  ghost predicate StrictlySortedBy<T>(s: seq<T>, key: T -> int) {
    forall i, j :: 0 <= i < j < |s| ==> key(s[i]) < key(s[j])
  }

  /** Sorting keeps the sum of any per-element value. */
  lemma {:induction false} SumBySortBy<T>(xs: seq<T>, key: T -> int, f: T -> real)
    ensures SumBy(SortBy(xs, key), f) == SumBy(xs, f)
    decreases |xs|
  {
    if |xs| > 0 {
      SumBySortBy(xs[1..], key, f);
      SumByInsertBy(xs[0], SortBy(xs[1..], key), key, f);
      SumByConcat([xs[0]], xs[1..], f);
      assert xs == [xs[0]] + xs[1..];
      assert SumBy([xs[0]], f) == f(xs[0]) by { assert [xs[0]][..0] == []; }
    }
  }

  lemma {:induction false} SumByInsertBy<T>(x: T, s: seq<T>, key: T -> int, f: T -> real)
    requires SortedBy(s, key)
    ensures SumBy(InsertBy(x, s, key), f) == SumBy(s, f) + f(x)
    decreases |s|
  {
    assert SumBy([x], f) == f(x) by { assert [x][..0] == []; }
    if |s| == 0 || key(x) <= key(s[0]) {
      SumByConcat([x], s, f);
    } else {
      SumByInsertBy(x, s[1..], key, f);
      SumByConcat([s[0]], InsertBy(x, s[1..], key), f);
      SumByConcat([s[0]], s[1..], f);
      assert [s[0]] + s[1..] == s;
    }
  }

  /** Sorting elements whose keys are pairwise different gives strictly increasing keys. */
  lemma {:induction false} SortByStrict<T>(xs: seq<T>, key: T -> int)
    requires forall i, j :: 0 <= i < j < |xs| ==> key(xs[i]) != key(xs[j])
    ensures StrictlySortedBy(SortBy(xs, key), key)
    decreases |xs|
  {
    if |xs| > 0 {
      var rest := SortBy(xs[1..], key);
      SortByStrict(xs[1..], key);
      forall i | 0 <= i < |rest|
        ensures key(rest[i]) != key(xs[0])
      {
        assert rest[i] in multiset(rest);
        assert rest[i] in xs[1..];
      }
      InsertByStrict(xs[0], rest, key);
    }
  }

  lemma {:induction false} InsertByStrict<T>(x: T, s: seq<T>, key: T -> int)
    requires StrictlySortedBy(s, key)
    requires forall i :: 0 <= i < |s| ==> key(s[i]) != key(x)
    ensures StrictlySortedBy(InsertBy(x, s, key), key)
    decreases |s|
  {
    if |s| > 0 && key(x) > key(s[0]) {
      InsertByStrict(x, s[1..], key);
      var rest := InsertBy(x, s[1..], key);
      forall i | 0 <= i < |rest|
        ensures key(s[0]) < key(rest[i])
      {
        assert rest[i] in multiset(rest);
        if rest[i] != x {
          assert rest[i] in multiset(s[1..]);
        }
      }
    }
  }

  /** Every entry of a grouping holds the sum over the elements of its key. */
  lemma GroupSumEntries<T, K(!new)>(xs: seq<T>, key: T -> K, val: T -> real)
    ensures forall i :: 0 <= i < |GroupSum(xs, key, val)| ==>
      GroupSum(xs, key, val)[i].total == SumBy(Filter(xs, KeyIs(key, GroupSum(xs, key, val)[i].key)), val)
  {
    var g := GroupSum(xs, key, val);
    PermutedEntries(g, g);
  }

  /**
   * A rearrangement of an association list with distinct keys has the same
   * keys, and each of its entries is what its key looks up in the original.
   */
  lemma PermutedEntries<K>(g: seq<Entry<K>>, r: seq<Entry<K>>)
    requires DistinctKeys(g) && multiset(r) == multiset(g)
    ensures forall i :: 0 <= i < |r| ==> r[i].total == Lookup(g, r[i].key)
    ensures forall k :: k in KeysOf(r) <==> k in KeysOf(g)
  {
    forall i | 0 <= i < |r|
      ensures r[i].total == Lookup(g, r[i].key)
    {
      assert r[i] in multiset(g);
      var j :| 0 <= j < |g| && g[j] == r[i];
      EntryIsLookup(g, j);
    }
    forall k
      ensures k in KeysOf(r) <==> k in KeysOf(g)
    {
      if k in KeysOf(r) {
        var i :| 0 <= i < |r| && KeysOf(r)[i] == k;
        assert r[i] in multiset(g);
        var j :| 0 <= j < |g| && g[j] == r[i];
        assert KeysOf(g)[j] == k;
      }
      if k in KeysOf(g) {
        var j :| 0 <= j < |g| && KeysOf(g)[j] == k;
        assert g[j] in multiset(r);
        var i :| 0 <= i < |r| && r[i] == g[j];
        assert KeysOf(r)[i] == k;
      }
    }
  }

  /** An association list with distinct keys drawn from `keys` has at most `|keys|` entries. */
  lemma {:induction false} DistinctKeysBound<K>(g: seq<Entry<K>>, keys: set<K>)
    requires DistinctKeys(g)
    requires forall i :: 0 <= i < |g| ==> g[i].key in keys
    ensures |g| <= |keys|
    decreases |g|
  {
    if |g| > 0 {
      var last := g[|g|-1].key;
      DistinctKeysBound(g[..|g|-1], keys - {last});
    }
  }
}

=== FILE: linker.dfy ===
/**
 * The recurring-instalment linker: which of a payer's expenses can take
 * another instalment (`buscarGastosPendientesUsuario`), and the form draft
 * prefilled from one of them (`completarConGastoRecurrente`).
 */
module Linker {
  import opened Wrappers
  import opened Seqs
  import opened Text
  import opened Expenses
  import opened ExpenseForms

  /** A persisted counter as the string the form stored: `""` when absent. */
  function Rendered(counter: Option<nat>): string {
    match counter
    case None => ""
    case Some(n) => Decimal(n)
  }

  /**
   * The selection test as written: `mesActual < totalMeses` compares the two
   * persisted form strings, i.e. in lexicographic order on characters.
   */
  predicate ContinuableAsWritten(payer: string, g: Expense) {
    && g.usuario == payer
    && g.pagoMeses == "si"
    && g.estado != "pagado"
    && JsLess(Rendered(g.mesActual), Rendered(g.totalMeses))
  }

  /** The intended selection test: the counters compared as numbers, as the balance calculator does. */
  predicate Continuable(payer: string, g: Expense) {
    && g.usuario == payer
    && g.pagoMeses == "si"
    && g.estado != "pagado"
    && g.mesActual.Some? && g.totalMeses.Some?
    && g.mesActual.value < g.totalMeses.value
  }

  function ContinuableAsWrittenFor(payer: string): Expense -> bool {
    g => ContinuableAsWritten(payer, g)
  }

  function ContinuableFor(payer: string): Expense -> bool {
    g => Continuable(payer, g)
  }

  /** The payer's continuable expenses as `buscarGastosPendientesUsuario` selects them. */
  function PendingOfPayerAsWritten(gastos: seq<Expense>, payer: string): (r: seq<Expense>)
    ensures forall i :: 0 <= i < |r| ==> r[i] in gastos && ContinuableAsWritten(payer, r[i])
    ensures forall i :: 0 <= i < |gastos| && ContinuableAsWritten(payer, gastos[i]) ==> gastos[i] in r
    ensures forall g :: multiset(r)[g] == if ContinuableAsWritten(payer, g) then multiset(gastos)[g] else 0
  {
    FilterCount(gastos, ContinuableAsWrittenFor(payer));
    Filter(gastos, ContinuableAsWrittenFor(payer))
  }

  /**
   * The payer's continuable expenses: exactly the payer's instalment
   * records that are not paid and have instalments left, in their original
   * order (an order-preserving subsequence of `gastos`).
   */
  function PendingOfPayer(gastos: seq<Expense>, payer: string): (r: seq<Expense>)
    ensures forall i :: 0 <= i < |r| ==> r[i] in gastos && Continuable(payer, r[i])
    ensures forall i :: 0 <= i < |gastos| && Continuable(payer, gastos[i]) ==> gastos[i] in r
    ensures forall g :: multiset(r)[g] == if Continuable(payer, g) then multiset(gastos)[g] else 0
  {
    FilterCount(gastos, ContinuableFor(payer));
    Filter(gastos, ContinuableFor(payer))
  }

  /** Both selections distribute over concatenation, so they keep the stored order. */
  lemma PendingKeepsOrder(a: seq<Expense>, b: seq<Expense>, payer: string)
    ensures PendingOfPayer(a + b, payer) == PendingOfPayer(a, payer) + PendingOfPayer(b, payer)
    ensures PendingOfPayerAsWritten(a + b, payer) == PendingOfPayerAsWritten(a, payer) + PendingOfPayerAsWritten(b, payer)
  {
    FilterConcat(a, b, ContinuableFor(payer));
    FilterConcat(a, b, ContinuableAsWrittenFor(payer));
  }

  /**
   * The linker and the balance calculator agree: an instalment expense of
   * the payer with both counters set is offered for continuation exactly
   * when its balance is still pending.
   */
  lemma ContinuableIffPending(payer: string, g: Expense)
    requires g.usuario == payer && HasInstalmentCounters(g)
    ensures Continuable(payer, g) <==> Saldo(g).status == Pending
  {
  }

  /**
   * The selection as written hides continuable instalments: month 9 of 12
   * is pending, yet `"9" < "12"` is false.
   */
  lemma StringCompareHidesPendingInstalment(g: Expense)
    requires g.usuario == "Ana" && g.pagoMeses == "si" && g.estado == ""
    requires g.mesActual == Some(9) && g.totalMeses == Some(12)
    ensures Continuable("Ana", g) && Saldo(g).status == Pending
    ensures !ContinuableAsWritten("Ana", g)
    ensures PendingOfPayerAsWritten([g], "Ana") == [] && PendingOfPayer([g], "Ana") == [g]
  {
    assert Decimal(9) == "9";
    assert Decimal(12) == Decimal(1) + "2" == "12";
    assert !JsLess("9", "12");
    assert [g][..0] == [];
  }

  /** Where every counter is a single digit the written comparison is the intended one. */
  lemma AsWrittenAgreesBelowTen(payer: string, g: Expense)
    requires g.mesActual.Some? && g.totalMeses.Some?
    requires g.mesActual.value < 10 && g.totalMeses.value < 10
    ensures ContinuableAsWritten(payer, g) <==> Continuable(payer, g)
  {
    SingleDigitCompare(g.mesActual.value, g.totalMeses.value);
  }

  /**
   * `parseInt(mesActual) + 1`: the next instalment number, or `NaN` (which
   * no option of the select matches) when the counter is absent.
   */
  function NextCounter(mesActual: Option<nat>): Option<nat> {
    match mesActual
    case None => None
    case Some(n) => Some(n + 1)
  }

  /** The fields of the draft that do not depend on the instalment select. */
  function PrefillFields(form: ExpenseForm, g: Expense): ExpenseForm {
    var monthly := MonthlyAmount(g);
    form.(
      descripcion := g.descripcion,
      categoria := g.categoria,
      metodoPago := g.metodoPago,
      tarjeta := g.tarjeta,
      pagoMeses := "si",
      montoMensual := Some(monthly),
      totalMeses := g.totalMeses,
      montoTotal := Some(Instalments(monthly, if g.totalMeses.Some? then g.totalMeses.value else 0)))
  }

  /**
   * The draft as written: the next instalment number is written into the
   * select, and the select is rebuilt afterwards, which discards it.
   */
  function PrefillAsWritten(form: ExpenseForm, g: Expense): (r: ExpenseForm)
    ensures r == Prefill(form, g).(mesActual := r.mesActual)
    ensures r.mesActual.Some? <==> g.totalMeses.Some? && g.totalMeses.value > 1
    ensures r.mesActual.Some? ==> r.mesActual.value == 1
  {
    PrefillFields(form, g).(mesActual := RebuiltSelectValue(g.totalMeses))
  }

  /** The intended draft: the select is rebuilt first and then set to the next instalment. */
  function Prefill(form: ExpenseForm, g: Expense): (r: ExpenseForm)
    ensures r.descripcion == g.descripcion && r.categoria == g.categoria
    ensures r.metodoPago == g.metodoPago && r.tarjeta == g.tarjeta
    ensures r.pagoMeses == "si" && r.totalMeses == g.totalMeses
    ensures r.montoMensual == Some(MonthlyAmount(g))
    ensures r.fecha == form.fecha && r.usuario == form.usuario && r.tipoGasto == form.tipoGasto
    ensures Continuable(g.usuario, g) && g.totalMeses.value > 1 ==> r.mesActual == Some(g.mesActual.value + 1)
  {
    PrefillFields(form, g).(mesActual := SelectAssign(g.totalMeses, NextCounter(g.mesActual)))
  }

  /**
   * As written, continuing instalment 3 of 6 drafts instalment 1 again
   * instead of instalment 4.
   */
  lemma PrefillAsWrittenRestartsAtOne(form: ExpenseForm, g: Expense)
    requires Continuable(g.usuario, g) && g.totalMeses.value > 1
    ensures PrefillAsWritten(form, g).mesActual == Some(1)
    ensures g.mesActual.value >= 1 ==> PrefillAsWritten(form, g).mesActual != Prefill(form, g).mesActual
  {
  }

  /**
   * Continuing a pending instalment expense and saving the intended draft
   * records the next instalment: the same monthly amount and total, the
   * counter one higher, and a balance one monthly amount lower, settled
   * once the last instalment is recorded.
   */
  lemma ContinueRecordsNextInstalment(form: ExpenseForm, g: Expense, id: string, now: int)
    requires SavedShape(g) && ConsistentInstalment(g)
    requires Continuable(g.usuario, g) && g.totalMeses.value > 1
    requires form.fecha.Some? && form.usuario != ""
    ensures BuildExpense(Prefill(form, g), id, now).Success?
    ensures var e := BuildExpense(Prefill(form, g), id, now).value;
      && ConsistentInstalment(e)
      && e.mesActual == Some(g.mesActual.value + 1)
      && e.monto == g.monto && e.montoTotal == g.montoTotal && e.totalMeses == g.totalMeses
      && (g.mesActual.value + 1 < g.totalMeses.value ==> Saldo(e) == Balance(Pending, Saldo(g).amount - g.monto))
      && (g.mesActual.value + 1 == g.totalMeses.value ==> Saldo(e) == Balance(Paid, 0.0))
  {
    var f := Prefill(form, g);
    var m, t, c := g.montoMensual.value, g.totalMeses.value, g.mesActual.value;
    assert MonthlyAmount(g) == m;
    assert f.montoMensual == Some(m) && f.mesActual == Some(c + 1);
    assert f.montoTotal == g.montoTotal;
    assert Trim(f.descripcion) != "";
    var r := BuildExpense(f, id, now);
    assert r.Success?;
    var e := r.value;
    assert e.estado == "" && e.totalMeses == Some(t) && e.montoMensual == Some(m);
    assert ConsistentInstalment(e);
    BalanceIsRemainingInstalments(g);
    BalanceIsRemainingInstalments(e);
    assert Instalments(m, t - c) - m == Instalments(m, t - (c + 1));
  }
}

=== FILE: seqs.dfy ===
/**
 * Whole-array transforms that the application applies to its collections:
 * `Array.prototype.filter`, `Array.prototype.map` restricted to matching
 * records, `reduce` summation, `slice(-n)` and the first-match searches.
 * The filters and folds recurse on the LAST element, mirroring the
 * left-to-right scan of the JavaScript callbacks.
 */
module Seqs {

  /** The elements of `xs` that satisfy `p`, in their original order. */
  function Filter<T>(xs: seq<T>, p: T -> bool): (r: seq<T>)
    ensures |r| <= |xs|
    ensures forall i :: 0 <= i < |r| ==> r[i] in xs && p(r[i])
    ensures forall i :: 0 <= i < |xs| && p(xs[i]) ==> xs[i] in r
    decreases |xs|
  {
    if |xs| == 0 then []
    else Filter(xs[..|xs|-1], p) + (if p(xs[|xs|-1]) then [xs[|xs|-1]] else [])
  }

  /** A filter keeps every element satisfying `p` as often as it occurs, and nothing else. */
  lemma {:induction false} FilterCount<T>(xs: seq<T>, p: T -> bool)
    ensures forall x :: multiset(Filter(xs, p))[x] == if p(x) then multiset(xs)[x] else 0
    decreases |xs|
  {
    if |xs| > 0 {
      var init, last := xs[..|xs|-1], xs[|xs|-1];
      FilterCount(init, p);
      assert xs == init + [last];
    }
  }

  /** The positions of `xs` whose element satisfies `p`. */
  function IndicesWhere<T>(xs: seq<T>, p: T -> bool): set<int> {
    set i | 0 <= i < |xs| && p(xs[i])
  }

  /** A filter is as long as the number of positions whose element satisfies `p`. */
  lemma {:induction false} FilterLength<T>(xs: seq<T>, p: T -> bool)
    ensures |Filter(xs, p)| == |IndicesWhere(xs, p)|
    decreases |xs|
  {
    if |xs| > 0 {
      FilterLength(xs[..|xs|-1], p);
      IndicesWhereSnoc(xs, p);
    }
  }

  /** Appending one element adds its position exactly when it satisfies `p`. */
  lemma IndicesWhereSnoc<T>(xs: seq<T>, p: T -> bool)
    requires |xs| > 0
    ensures |IndicesWhere(xs, p)| == |IndicesWhere(xs[..|xs|-1], p)| + if p(xs[|xs|-1]) then 1 else 0
  {
    var init := xs[..|xs|-1];
    var before, after := IndicesWhere(init, p), IndicesWhere(xs, p);
    var extra: set<int> := if p(xs[|xs|-1]) then {|xs| - 1} else {};
    forall i
      ensures i in after <==> i in before + extra
    {
      if 0 <= i < |xs| - 1 {
        assert xs[i] == init[i];
      }
    }
    assert after == before + extra;
    assert before !! extra;
  }

  /** A filter keeps the elements it retains in their original relative order. */
  lemma {:induction false} FilterIncreasing<T>(xs: seq<T>, p: T -> bool, rank: T -> int)
    requires forall i, j :: 0 <= i < j < |xs| ==> rank(xs[i]) < rank(xs[j])
    ensures forall i, j :: 0 <= i < j < |Filter(xs, p)| ==> rank(Filter(xs, p)[i]) < rank(Filter(xs, p)[j])
    decreases |xs|
  {
    if |xs| > 0 {
      var init, last := xs[..|xs|-1], xs[|xs|-1];
      FilterIncreasing(init, p, rank);
      var f := Filter(init, p);
      forall i | 0 <= i < |f|
        ensures rank(f[i]) < rank(last)
      {
        var k :| 0 <= k < |init| && init[k] == f[i];
        assert xs[k] == init[k];
      }
    }
  }

  /** A predicate and its complement split a collection whose ranks increase into two such collections. */
  lemma SplitIncreasing<T>(xs: seq<T>, p: T -> bool, rank: T -> int)
    requires forall i, j :: 0 <= i < j < |xs| ==> rank(xs[i]) < rank(xs[j])
    ensures multiset(Filter(xs, Not(p))) + multiset(Filter(xs, p)) == multiset(xs)
    ensures forall i, j :: 0 <= i < j < |Filter(xs, p)| ==> rank(Filter(xs, p)[i]) < rank(Filter(xs, p)[j])
    ensures forall i, j :: 0 <= i < j < |Filter(xs, Not(p))| ==> rank(Filter(xs, Not(p))[i]) < rank(Filter(xs, Not(p))[j])
  {
    FilterCount(xs, p);
    FilterCount(xs, Not(p));
    assert multiset(Filter(xs, Not(p))) + multiset(Filter(xs, p)) == multiset(xs);
    FilterIncreasing(xs, p, rank);
    FilterIncreasing(xs, Not(p), rank);
  }

  /** Appending at most one element ranked above everything before it keeps the ranks increasing. */
  lemma AppendIncreasing<T>(front: seq<T>, last: seq<T>, rank: T -> int, top: int)
    requires forall i :: 0 <= i < |front| ==> rank(front[i]) < top
    requires forall i, j :: 0 <= i < j < |front| ==> rank(front[i]) < rank(front[j])
    requires |last| <= 1 && forall i :: 0 <= i < |last| ==> rank(last[i]) == top
    ensures forall i :: 0 <= i < |front + last| ==> rank((front + last)[i]) <= top
    ensures forall i, j :: 0 <= i < j < |front + last| ==> rank((front + last)[i]) < rank((front + last)[j])
  {
    var r := front + last;
    forall i, j | 0 <= i < j < |r|
      ensures rank(r[i]) < rank(r[j])
    {
      assert r[i] == front[i];
      if j < |front| {
        assert r[j] == front[j];
      } else {
        assert r[j] == last[0];
      }
    }
  }

  /** The first position whose element satisfies `p`, `|xs|` when there is none. */
  function FirstWhere<T>(xs: seq<T>, p: T -> bool): (n: nat)
    ensures n <= |xs|
    ensures n < |xs| ==> p(xs[n])
    ensures forall j :: 0 <= j < n ==> !p(xs[j])
  {
    if |xs| == 0 then 0
    else if p(xs[0]) then 0
    else
      var m := FirstWhere(xs[1..], p);
      assert forall j :: 1 <= j < 1 + m ==> xs[j] == xs[1..][j - 1];
      1 + m
  }

  /** The position of the first occurrence of `x` in `xs`, `|xs|` when there is none. */
  function IndexIn<T(==)>(xs: seq<T>, x: T): (n: nat)
    ensures n <= |xs|
    ensures n < |xs| ==> xs[n] == x
  {
    if |xs| == 0 then 0 else if xs[0] == x then 0 else 1 + IndexIn(xs[1..], x)
  }

  /** No earlier position holds the element `IndexIn` finds. */
  lemma {:induction false} IndexInFirst<T>(xs: seq<T>, x: T)
    ensures forall i :: 0 <= i < IndexIn(xs, x) ==> xs[i] != x
    decreases |xs|
  {
    if |xs| > 0 && xs[0] != x {
      IndexInFirst(xs[1..], x);
    }
  }

  /** In a sequence without repetitions every element is found at its own position. */
  lemma IndexOfDistinct<T>(xs: seq<T>, j: nat)
    requires j < |xs|
    requires forall a, b :: 0 <= a < b < |xs| ==> xs[a] != xs[b]
    ensures IndexIn(xs, xs[j]) == j
  {
    IndexInFirst(xs, xs[j]);
  }

  /** The complement of a predicate, as a named value so that filters over it are comparable. */
  function Not<T>(p: T -> bool): T -> bool {
    x => !p(x)
  }

  /** Filtering distributes over concatenation: together with the singleton case this pins down the order of the result. */
  lemma {:induction false} FilterConcat<T>(a: seq<T>, b: seq<T>, p: T -> bool)
    ensures Filter(a + b, p) == Filter(a, p) + Filter(b, p)
    decreases |b|
  {
    if |b| == 0 {
      assert a + b == a;
    } else {
      var b' := b[..|b|-1];
      assert (a + b)[..|a + b| - 1] == a + b';
      assert (a + b)[|a + b| - 1] == b[|b|-1];
      FilterConcat(a, b', p);
    }
  }

  /** A filter whose predicate holds everywhere returns the input unchanged, in order. */
  lemma {:induction false} FilterAll<T>(xs: seq<T>, p: T -> bool)
    requires forall i :: 0 <= i < |xs| ==> p(xs[i])
    ensures Filter(xs, p) == xs
    decreases |xs|
  {
    if |xs| > 0 {
      FilterAll(xs[..|xs|-1], p);
      assert xs[..|xs|-1] + [xs[|xs|-1]] == xs;
    }
  }

  /** A filter keeps as many elements as its input exactly when the predicate holds everywhere. */
  lemma {:induction false} FilterKeepsAllIff<T>(xs: seq<T>, p: T -> bool)
    ensures |Filter(xs, p)| == |xs| <==> forall i :: 0 <= i < |xs| ==> p(xs[i])
    decreases |xs|
  {
    if |xs| > 0 {
      var front := xs[..|xs|-1];
      FilterKeepsAllIff(front, p);
      assert forall i :: 0 <= i < |front| ==> front[i] == xs[i];
    }
  }

  /** A predicate and its complement split a collection: every element lands on exactly one side. */
  lemma {:induction false} FilterSplitLength<T>(xs: seq<T>, p: T -> bool)
    ensures |Filter(xs, p)| + |Filter(xs, Not(p))| == |xs|
    decreases |xs|
  {
    if |xs| > 0 {
      FilterSplitLength(xs[..|xs|-1], p);
    }
  }

  /** Filters by predicates that agree on every element are equal. */
  lemma {:induction false} FilterCongruent<T>(xs: seq<T>, p: T -> bool, q: T -> bool)
    requires forall i :: 0 <= i < |xs| ==> p(xs[i]) == q(xs[i])
    ensures Filter(xs, p) == Filter(xs, q)
    decreases |xs|
  {
    if |xs| > 0 {
      FilterCongruent(xs[..|xs|-1], p, q);
    }
  }

  /** Filtering twice keeps exactly what satisfies both predicates. */
  lemma {:induction false} FilterFilter<T>(xs: seq<T>, p: T -> bool, q: T -> bool, pq: T -> bool)
    requires forall x :: pq(x) == (p(x) && q(x))
    ensures Filter(Filter(xs, p), q) == Filter(xs, pq)
    decreases |xs|
  {
    if |xs| > 0 {
      var init, last := xs[..|xs|-1], xs[|xs|-1];
      FilterFilter(init, p, q, pq);
      FilterConcat(Filter(init, p), if p(last) then [last] else [], q);
      if p(last) {
        assert Filter([last], q) == Filter([], q) + (if q(last) then [last] else []) by {
          assert [last][..0] == [];
        }
      }
    }
  }

  /** Sum of `f` over `xs`: `xs.reduce((s, x) => s + f(x), 0)`. */
  function SumBy<T>(xs: seq<T>, f: T -> real): real
    decreases |xs|
  {
    if |xs| == 0 then 0.0 else SumBy(xs[..|xs|-1], f) + f(xs[|xs|-1])
  }

  lemma {:induction false} SumByConcat<T>(a: seq<T>, b: seq<T>, f: T -> real)
    ensures SumBy(a + b, f) == SumBy(a, f) + SumBy(b, f)
    decreases |b|
  {
    if |b| == 0 {
      assert a + b == a;
    } else {
      var b' := b[..|b|-1];
      assert (a + b)[..|a + b| - 1] == a + b';
      SumByConcat(a, b', f);
    }
  }

  /** Splitting a collection by any predicate splits its sum. */
  lemma {:induction false} SumBySplit<T>(xs: seq<T>, p: T -> bool, f: T -> real)
    ensures SumBy(xs, f) == SumBy(Filter(xs, p), f) + SumBy(Filter(xs, Not(p)), f)
    decreases |xs|
  {
    if |xs| > 0 {
      var init, last := xs[..|xs|-1], xs[|xs|-1];
      SumBySplit(init, p, f);
      SumByConcat(Filter(init, p), if p(last) then [last] else [], f);
      SumByConcat(Filter(init, Not(p)), if Not(p)(last) then [last] else [], f);
      assert SumBy([last], f) == f(last) by { assert [last][..0] == []; }
    }
  }

  lemma {:induction false} SumByNonNegative<T>(xs: seq<T>, f: T -> real)
    requires forall i :: 0 <= i < |xs| ==> f(xs[i]) >= 0.0
    ensures SumBy(xs, f) >= 0.0
    decreases |xs|
  {
    if |xs| > 0 {
      SumByNonNegative(xs[..|xs|-1], f);
    }
  }

  /** Two functions that agree on every element give the same sum. */
  lemma {:induction false} SumByCongruent<T>(xs: seq<T>, f: T -> real, g: T -> real)
    requires forall i :: 0 <= i < |xs| ==> f(xs[i]) == g(xs[i])
    ensures SumBy(xs, f) == SumBy(xs, g)
    decreases |xs|
  {
    if |xs| > 0 {
      SumByCongruent(xs[..|xs|-1], f, g);
    }
  }

  /**
   * `xs.map(x => p(x) ? f(x) : x)`: every element that satisfies `p` is
   * replaced by `f` of it, in place; the others are untouched.
   */
  function MapWhere<T>(xs: seq<T>, p: T -> bool, f: T -> T): (r: seq<T>)
    ensures |r| == |xs|
    ensures forall i :: 0 <= i < |xs| && !p(xs[i]) ==> r[i] == xs[i]
    ensures forall i :: 0 <= i < |xs| && p(xs[i]) ==> r[i] == f(xs[i])
    decreases |xs|
  {
    if |xs| == 0 then []
    else MapWhere(xs[..|xs|-1], p, f) + [if p(xs[|xs|-1]) then f(xs[|xs|-1]) else xs[|xs|-1]]
  }

  /** Replacing elements by values with the same `val` leaves the sum unchanged. */
  lemma {:induction false} SumByMapWhere<T>(xs: seq<T>, p: T -> bool, f: T -> T, val: T -> real)
    requires forall x :: val(f(x)) == val(x)
    ensures SumBy(MapWhere(xs, p, f), val) == SumBy(xs, val)
    decreases |xs|
  {
    if |xs| > 0 {
      var init := xs[..|xs|-1];
      SumByMapWhere(init, p, f, val);
      var r := MapWhere(xs, p, f);
      assert r[..|r|-1] == MapWhere(init, p, f);
    }
  }

  /** Two sequences of the same length with pointwise equal values have equal sums. */
  lemma {:induction false} SumByPointwise<T, U>(xs: seq<T>, f: T -> real, ys: seq<U>, g: U -> real)
    requires |xs| == |ys|
    requires forall i :: 0 <= i < |xs| ==> f(xs[i]) == g(ys[i])
    ensures SumBy(xs, f) == SumBy(ys, g)
    decreases |xs|
  {
    if |xs| > 0 {
      SumByPointwise(xs[..|xs|-1], f, ys[..|ys|-1], g);
    }
  }

  /** Bounds on every value bound the sum: `n * lo <= sum <= n * hi`. */
  lemma {:induction false} SumByBetween<T>(xs: seq<T>, f: T -> real, lo: real, hi: real)
    requires forall i :: 0 <= i < |xs| ==> lo <= f(xs[i]) <= hi
    ensures |xs| as real * lo <= SumBy(xs, f) <= |xs| as real * hi
    decreases |xs|
  {
    if |xs| > 0 {
      SumByBetween(xs[..|xs|-1], f, lo, hi);
    }
  }

  /** If every value exceeds `c`, a non-empty sum exceeds `n * c`. */
  lemma {:induction false} SumByAbove<T>(xs: seq<T>, f: T -> real, c: real)
    requires |xs| > 0
    requires forall i :: 0 <= i < |xs| ==> f(xs[i]) > c
    ensures SumBy(xs, f) > |xs| as real * c
    decreases |xs|
  {
    if |xs| > 1 {
      SumByAbove(xs[..|xs|-1], f, c);
    }
  }

  /** The elements satisfying none of three predicates. */
  function NoneOf<T>(p: T -> bool, q: T -> bool, r: T -> bool): T -> bool {
    x => !p(x) && !q(x) && !r(x)
  }

  /** Three mutually exclusive predicates and the rest split a sum four ways. */
  lemma {:induction false} SumByFourWay<T>(xs: seq<T>, p: T -> bool, q: T -> bool, r: T -> bool, f: T -> real)
    requires forall i :: 0 <= i < |xs| ==>
      !(p(xs[i]) && q(xs[i])) && !(p(xs[i]) && r(xs[i])) && !(q(xs[i]) && r(xs[i]))
    ensures SumBy(Filter(xs, p), f) + SumBy(Filter(xs, q), f) + SumBy(Filter(xs, r), f)
      + SumBy(Filter(xs, NoneOf(p, q, r)), f) == SumBy(xs, f)
    decreases |xs|
  {
    if |xs| > 0 {
      var init, last := xs[..|xs|-1], xs[|xs|-1];
      SumByFourWay(init, p, q, r, f);
      assert SumBy([last], f) == f(last) by { assert [last][..0] == []; }
      SumByConcat(Filter(init, p), if p(last) then [last] else [], f);
      SumByConcat(Filter(init, q), if q(last) then [last] else [], f);
      SumByConcat(Filter(init, r), if r(last) then [last] else [], f);
      SumByConcat(Filter(init, NoneOf(p, q, r)), if NoneOf(p, q, r)(last) then [last] else [], f);
    }
  }

  /**
   * With non-negative values, three mutually exclusive parts never exceed
   * the whole, and they make it up when every element falls in one of them.
   */
  lemma ThreeWayWithin<T>(xs: seq<T>, p: T -> bool, q: T -> bool, r: T -> bool, f: T -> real)
    requires forall i :: 0 <= i < |xs| ==>
      !(p(xs[i]) && q(xs[i])) && !(p(xs[i]) && r(xs[i])) && !(q(xs[i]) && r(xs[i]))
    requires forall i :: 0 <= i < |xs| ==> f(xs[i]) >= 0.0
    ensures SumBy(Filter(xs, p), f) + SumBy(Filter(xs, q), f) + SumBy(Filter(xs, r), f) <= SumBy(xs, f)
    ensures (forall i :: 0 <= i < |xs| ==> p(xs[i]) || q(xs[i]) || r(xs[i])) ==>
      SumBy(Filter(xs, p), f) + SumBy(Filter(xs, q), f) + SumBy(Filter(xs, r), f) == SumBy(xs, f)
  {
    SumByFourWay(xs, p, q, r, f);
    var others := Filter(xs, NoneOf(p, q, r));
    SumByNonNegative(others, f);
  }

  function AsIs(x: real): real { x }

  /** `xs.reduce((a, b) => a + b, 0)` */
  function Sum(xs: seq<real>): real {
    SumBy(xs, AsIs)
  }

  /** The arithmetic mean of a non-empty sequence. */
  function Mean(xs: seq<real>): real
    requires |xs| > 0
  {
    Sum(xs) / |xs| as real
  }

  /** The mean of values within `[lo, hi]` lies within `[lo, hi]`. */
  lemma MeanBetween(xs: seq<real>, lo: real, hi: real)
    requires |xs| > 0
    requires forall i :: 0 <= i < |xs| ==> lo <= xs[i] <= hi
    ensures lo <= Mean(xs) <= hi
  {
    SumByBetween(xs, AsIs, lo, hi);
    var n := |xs| as real;
    var m := Mean(xs);
    assert m * n == Sum(xs);
  }

  /**
   * `xs.slice(-n)` for a non-negative `n`: the last `n` elements, where
   * `slice(-0)` is `slice(0)` and so keeps everything.
   */
  function TakeLast<T>(xs: seq<T>, n: nat): (r: seq<T>)
    ensures |r| == if n == 0 || n > |xs| then |xs| else n
    ensures xs[|xs| - |r|..] == r
  {
    if n == 0 || n >= |xs| then xs else xs[|xs| - n..]
  }
}

=== FILE: tasks.dfy ===
/**
 * The task list: saving a task from its form (`guardarTarea`), the state
 * filter and newest-first order of the listing (`renderTareas`), the
 * overdue mark of a task card, completing and deleting a task, and the
 * pending tasks other pages ask for (`obtenerTareasPendientes`).
 * Instants (start, deadline, creation) are milliseconds since the epoch.
 */
module Tasks {
  import opened Wrappers
  import opened Seqs
  import opened Groups
  import opened Text

  datatype Task = Task(
    id: string,
    descripcion: string,
    estado: string,
    fechaInicio: int,
    fechaFin: Option<int>,
    costo: Option<real>,
    notas: string,
    createdAt: int,
    updatedAt: Option<int>)

  /**
   * The task form as read: `fechaInicio` and `fechaFin` are `None` when
   * left blank, `costo` is the `parseFloat` of the cost field (`None` for
   * `NaN`).
   */
  datatype TaskForm = TaskForm(
    descripcion: string,
    estado: string,
    fechaInicio: Option<int>,
    fechaFin: Option<int>,
    costo: Option<real>,
    notas: string)

  datatype TaskError = InvalidState | DescriptionAndStartRequired | InvalidCost

  /** `parseFloat(...) || null`: a blank, unparsable or zero cost is no cost. */
  function CostOf(parsed: Option<real>): (c: Option<real>)
    ensures c.Some? <==> parsed.Some? && parsed.value != 0.0
    ensures c.Some? ==> c.value == parsed.value
  {
    if parsed.Some? && parsed.value != 0.0 then parsed else None
  }

  /** A task every save produces: a description, and a cost that is absent or positive. */
  predicate WellFormed(t: Task) {
    t.descripcion != "" && (t.costo.Some? ==> t.costo.value > 0.0)
  }

  function TaskIdIs(id: string): Task -> bool {
    (t: Task) => t.id == id
  }

  /** `{ ...t, ...nuevaTarea }`: the new task's fields win, the old `updatedAt` survives. */
  function MergeTask(nuevo: Task): Task -> Task {
    (prior: Task) => nuevo.(updatedAt := prior.updatedAt)
  }

  /**
   * Saves the task form.  The state is checked against the allowed states
   * first, then the description and start date, then the cost.  A valid
   * task (fresh id, creation time `now`) replaces every task with the
   * edited id, the old `updatedAt` kept, or is appended when not editing.
   */
  function SaveTask(items: seq<Task>, editingId: string, f: TaskForm, allowed: set<string>, id: string, now: int): (r: Result<seq<Task>, TaskError>)
    ensures f.estado !in allowed ==> r == Failure(InvalidState)
    ensures f.estado in allowed && (Trim(f.descripcion) == "" || f.fechaInicio.None?) ==> r == Failure(DescriptionAndStartRequired)
    ensures f.estado in allowed && Trim(f.descripcion) != "" && f.fechaInicio.Some? ==>
      (r == Failure(InvalidCost) <==> f.costo.Some? && f.costo.value < 0.0)
    ensures r.Success? ==> f.estado in allowed && Trim(f.descripcion) != "" && f.fechaInicio.Some?
    ensures r.Success? ==>
      var t := Task(id, Trim(f.descripcion), f.estado, f.fechaInicio.value, f.fechaFin, CostOf(f.costo), Trim(f.notas), now, None);
      && WellFormed(t)
      && (editingId == "" ==> r.value == items + [t])
      && (editingId != "" ==> |r.value| == |items|)
      && (editingId != "" ==> forall i :: 0 <= i < |items| && items[i].id != editingId ==> r.value[i] == items[i])
      && (editingId != "" ==> forall i :: 0 <= i < |items| && items[i].id == editingId ==>
            r.value[i] == t.(updatedAt := items[i].updatedAt))
  {
    if f.estado !in allowed then Failure(InvalidState)
    else if Trim(f.descripcion) == "" || f.fechaInicio.None? then Failure(DescriptionAndStartRequired)
    else
      var costo := CostOf(f.costo);
      if costo.Some? && costo.value < 0.0 then Failure(InvalidCost)
      else
        var t := Task(id, Trim(f.descripcion), f.estado, f.fechaInicio.value, f.fechaFin, costo, Trim(f.notas), now, None);
        Success(if editingId != "" then MapWhere(items, TaskIdIs(editingId), MergeTask(t)) else items + [t])
  }

  /** Saving keeps every task of the list well formed. */
  lemma SaveKeepsTasksWellFormed(items: seq<Task>, editingId: string, f: TaskForm, allowed: set<string>, id: string, now: int)
    requires forall i :: 0 <= i < |items| ==> WellFormed(items[i])
    requires SaveTask(items, editingId, f, allowed, id, now).Success?
    ensures var r := SaveTask(items, editingId, f, allowed, id, now).value;
      forall i :: 0 <= i < |r| ==> WellFormed(r[i])
  {
  }

  function EstadoIs(estado: string): Task -> bool {
    (t: Task) => t.estado == estado
  }

  /** The state filter: everything for "todas", otherwise exactly the tasks in that state, in order. */
  function FilterByEstado(tasks: seq<Task>, filtro: string): (r: seq<Task>)
    ensures filtro == "todas" ==> r == tasks
    ensures filtro != "todas" ==> forall i :: 0 <= i < |r| ==> r[i].estado == filtro && r[i] in tasks
    ensures filtro != "todas" ==> forall i :: 0 <= i < |tasks| && tasks[i].estado == filtro ==> tasks[i] in r
    ensures filtro != "todas" ==> forall t :: multiset(r)[t] == if t.estado == filtro then multiset(tasks)[t] else 0
  {
    FilterCount(tasks, EstadoIs(filtro));
    if filtro == "todas" then tasks else Filter(tasks, EstadoIs(filtro))
  }

  /** The state filter distributes over concatenation, so the shown tasks keep their stored order. */
  lemma FilterByEstadoKeepsOrder(a: seq<Task>, b: seq<Task>, filtro: string)
    ensures FilterByEstado(a + b, filtro) == FilterByEstado(a, filtro) + FilterByEstado(b, filtro)
  {
    FilterConcat(a, b, EstadoIs(filtro));
  }

  /** Sort key that puts later creation times first. */
  function NewestFirst(t: Task): int {
    -t.createdAt
  }

  /**
   * The listing: the filtered tasks, newest first.  It holds exactly the
   * filtered tasks (as a multiset) and never shows an older task above a
   * newer one.
   */
  function Listing(tasks: seq<Task>, filtro: string): (r: seq<Task>)
    ensures multiset(r) == multiset(FilterByEstado(tasks, filtro))
    ensures forall i, j :: 0 <= i < j < |r| ==> r[i].createdAt >= r[j].createdAt
    ensures filtro != "todas" ==> forall i :: 0 <= i < |r| ==> r[i].estado == filtro
  {
    var shown := FilterByEstado(tasks, filtro);
    var r := SortBy(shown, NewestFirst);
    ListingFacts(shown, r, filtro);
    r
  }

  lemma ListingFacts(shown: seq<Task>, r: seq<Task>, filtro: string)
    requires SortedBy(r, NewestFirst) && multiset(r) == multiset(shown)
    requires filtro != "todas" ==> forall i :: 0 <= i < |shown| ==> shown[i].estado == filtro
    ensures forall i, j :: 0 <= i < j < |r| ==> r[i].createdAt >= r[j].createdAt
    ensures filtro != "todas" ==> forall i :: 0 <= i < |r| ==> r[i].estado == filtro
  {
    forall i, j | 0 <= i < j < |r|
      ensures r[i].createdAt >= r[j].createdAt
    {
      assert NewestFirst(r[i]) <= NewestFirst(r[j]);
    }
    forall i | 0 <= i < |r|
      ensures r[i] in shown
    {
      assert r[i] in multiset(r);
    }
  }

  /** With the "todas" filter every task is listed, each as often as it is stored. */
  lemma ListingShowsAll(tasks: seq<Task>)
    ensures multiset(Listing(tasks, "todas")) == multiset(tasks)
    ensures |Listing(tasks, "todas")| == |tasks|
  {
    assert |multiset(Listing(tasks, "todas"))| == |multiset(tasks)|;
  }

  /** The overdue mark: a deadline before today on a task neither completed nor cancelled. */
  predicate Overdue(t: Task, hoy: int) {
    t.fechaFin.Some? && t.fechaFin.value < hoy && t.estado != "completada" && t.estado != "cancelada"
  }

  /**
   * Completing a task clears its overdue mark and no other: on any day, a
   * task of the new list is overdue exactly when it was overdue before and
   * does not carry the completed id.
   */
  lemma CompletingClearsOverdue(items: seq<Task>, id: string, now: int, hoy: int)
    ensures forall i :: 0 <= i < |items| ==>
      (Overdue(MarkCompleted(items, id, now)[i], hoy) <==> Overdue(items[i], hoy) && items[i].id != id)
  {
    var r := MarkCompleted(items, id, now);
    forall i | 0 <= i < |items|
      ensures Overdue(r[i], hoy) <==> Overdue(items[i], hoy) && items[i].id != id
    {
      if items[i].id == id {
        assert !Overdue(r[i], hoy);
      }
    }
  }

  /** The completed version of a task, stamped with the time of completion. */
  function Complete(now: int): Task -> Task {
    (t: Task) => t.(estado := "completada", updatedAt := Some(now))
  }

  /**
   * `marcarCompletada`: every task with the id becomes completed, stamped
   * `now`, and is no longer overdue; every other task is untouched.
   */
  function MarkCompleted(items: seq<Task>, id: string, now: int): (r: seq<Task>)
    ensures |r| == |items|
    ensures forall i :: 0 <= i < |items| && items[i].id != id ==> r[i] == items[i]
    ensures forall i :: 0 <= i < |items| && items[i].id == id ==>
      r[i] == items[i].(estado := "completada", updatedAt := Some(now))
    ensures forall i, hoy :: 0 <= i < |r| && r[i].id == id ==> !Overdue(r[i], hoy)
  {
    MapWhere(items, TaskIdIs(id), Complete(now))
  }

  /** Deletes every task with the id: every other task is kept as often as it occurs. */
  function DeleteTask(items: seq<Task>, id: string): (r: seq<Task>)
    ensures forall i :: 0 <= i < |r| ==> r[i].id != id && r[i] in items
    ensures forall i :: 0 <= i < |items| && items[i].id != id ==> items[i] in r
    ensures forall t :: multiset(r)[t] == if t.id != id then multiset(items)[t] else 0
  {
    FilterCount(items, Not(TaskIdIs(id)));
    Filter(items, Not(TaskIdIs(id)))
  }

  /** Deleting distributes over concatenation, so the kept tasks stay in their stored order. */
  lemma DeleteTaskKeepsOrder(a: seq<Task>, b: seq<Task>, id: string)
    ensures DeleteTask(a + b, id) == DeleteTask(a, id) + DeleteTask(b, id)
  {
    FilterConcat(a, b, Not(TaskIdIs(id)));
  }

  /** `obtenerTareasPendientes`: exactly the tasks in state "pendiente", each as often as it is stored. */
  function Pendientes(items: seq<Task>): (r: seq<Task>)
    ensures forall i :: 0 <= i < |r| ==> r[i].estado == "pendiente" && r[i] in items
    ensures forall i :: 0 <= i < |items| && items[i].estado == "pendiente" ==> items[i] in r
    ensures forall t :: multiset(r)[t] == if t.estado == "pendiente" then multiset(items)[t] else 0
  {
    FilterCount(items, EstadoIs("pendiente"));
    Filter(items, EstadoIs("pendiente"))
  }

  /** The pending tasks distribute over concatenation, so they keep their stored order. */
  lemma PendientesKeepsOrder(a: seq<Task>, b: seq<Task>)
    ensures Pendientes(a + b) == Pendientes(a) + Pendientes(b)
  {
    FilterConcat(a, b, EstadoIs("pendiente"));
  }

  /** Completing a task removes it, and only it, from the pending tasks. */
  lemma {:induction false} CompletingLeavesPending(items: seq<Task>, id: string, now: int)
    ensures Pendientes(MarkCompleted(items, id, now)) == Filter(Pendientes(items), Not(TaskIdIs(id)))
    decreases |items|
  {
    if |items| > 0 {
      var front, last := items[..|items| - 1], items[|items| - 1];
      var marked := MarkCompleted(items, id, now);
      CompletingLeavesPending(front, id, now);
      assert marked[..|marked| - 1] == MarkCompleted(front, id, now);
      var tail := if last.estado == "pendiente" then [last] else [];
      assert Pendientes(items) == Pendientes(front) + tail;
      FilterConcat(Pendientes(front), tail, Not(TaskIdIs(id)));
    }
  }

  function PendingAndNot(id: string): Task -> bool {
    (t: Task) => t.estado == "pendiente" && t.id != id
  }

  /** Deleting a task removes it, and only it, from the pending tasks. */
  lemma DeletingLeavesPending(items: seq<Task>, id: string)
    ensures Pendientes(DeleteTask(items, id)) == Filter(Pendientes(items), Not(TaskIdIs(id)))
  {
    FilterFilter(items, Not(TaskIdIs(id)), EstadoIs("pendiente"), PendingAndNot(id));
    FilterFilter(items, EstadoIs("pendiente"), Not(TaskIdIs(id)), PendingAndNot(id));
  }
}

=== FILE: text.dfy ===
/**
 * The string behaviour the application relies on: `String.prototype.trim`,
 * the decimal rendering of a form's numeric `<select>` values, and
 * JavaScript's relational comparison of two strings (lexicographic order on
 * characters).
 */
module Text {

  /**
   * The white space `trim` removes: the ECMAScript WhiteSpace code points
   * (tab, vertical tab, form feed, the byte order mark and every Unicode
   * space separator, category Zs) and the LineTerminator ones.
   */
  const WhiteSpace: set<char> := {
    '\t', '\U{000B}', '\U{000C}', '\U{FEFF}',
    ' ', '\U{00A0}', '\U{1680}',
    '\U{2000}', '\U{2001}', '\U{2002}', '\U{2003}', '\U{2004}', '\U{2005}',
    '\U{2006}', '\U{2007}', '\U{2008}', '\U{2009}', '\U{200A}',
    '\U{202F}', '\U{205F}', '\U{3000}',
    '\n', '\r', '\U{2028}', '\U{2029}'
  }

  predicate IsSpace(c: char) {
    c in WhiteSpace
  }

  /** The first position at or after `i` that does not hold white space (`|s|` when there is none). */
  function SkipLeading(s: string, i: nat): (j: nat)
    requires i <= |s|
    ensures i <= j <= |s|
    ensures forall k :: i <= k < j ==> IsSpace(s[k])
    ensures j < |s| ==> !IsSpace(s[j])
    decreases |s| - i
  {
    if i < |s| && IsSpace(s[i]) then SkipLeading(s, i + 1) else i
  }

  /** The end of `s[lo..j]` once the white space at its end is cut off. */
  function SkipTrailing(s: string, lo: nat, j: nat): (e: nat)
    requires lo <= j <= |s|
    ensures lo <= e <= j
    ensures forall k :: e <= k < j ==> IsSpace(s[k])
    ensures e > lo ==> !IsSpace(s[e - 1])
    decreases j
  {
    if j > lo && IsSpace(s[j - 1]) then SkipTrailing(s, lo, j - 1) else j
  }

  /** Where the first character that is not white space sits (`|s|` when there is none). */
  function LeadingSpace(s: string): (k: nat)
    ensures k <= |s|
    ensures forall i :: 0 <= i < k ==> IsSpace(s[i])
    ensures k < |s| ==> !IsSpace(s[k])
  {
    SkipLeading(s, 0)
  }

  /**
   * `s.trim()`: the piece of `s` that starts at its first character that is
   * not white space and neither starts nor ends with white space, everything
   * after it being white space too.
   */
  function Trim(s: string): (r: string)
    ensures LeadingSpace(s) + |r| <= |s| && r == s[LeadingSpace(s)..LeadingSpace(s) + |r|]
    ensures |r| > 0 ==> !IsSpace(r[0]) && !IsSpace(r[|r| - 1])
    ensures forall i :: LeadingSpace(s) + |r| <= i < |s| ==> IsSpace(s[i])
  {
    var k := LeadingSpace(s);
    s[k..SkipTrailing(s, k, |s|)]
  }

  lemma TrimEmptyIffBlank(s: string)
    ensures Trim(s) == "" <==> forall i :: 0 <= i < |s| ==> IsSpace(s[i])
  {
  }

  /** A trimmed string trims to itself. */
  lemma {:induction false} TrimIdempotent(s: string)
    ensures Trim(Trim(s)) == Trim(s)
  {
    var t := Trim(s);
    if |t| > 0 {
      assert LeadingSpace(t) == 0;
      assert SkipTrailing(t, 0, |t|) == |t|;
    }
  }

  function Digit(d: nat): char
    requires d < 10
  {
    "0123456789"[d]
  }

  /** The canonical decimal rendering of a natural number, as `String(n)` produces it. */
  function Decimal(n: nat): (r: string)
    ensures |r| > 0
    ensures n < 10 ==> |r| == 1
    ensures n >= 10 ==> |r| >= 2
    decreases n
  {
    if n < 10 then [Digit(n)] else Decimal(n / 10) + [Digit(n % 10)]
  }

  /**
   * JavaScript's `a < b` when both operands are strings: lexicographic order
   * on characters.  The application compares only decimal digit strings this
   * way, and on those characters and UTF-16 code units coincide.
   */
  predicate JsLess(a: string, b: string)
    decreases |a|
  {
    if |a| == 0 then |b| > 0
    else if |b| == 0 then false
    else if a[0] != b[0] then a[0] < b[0]
    else JsLess(a[1..], b[1..])
  }

  /** No string is less than itself. */
  lemma {:induction false} JsLessIrreflexive(a: string)
    ensures !JsLess(a, a)
    decreases |a|
  {
    if |a| > 0 {
      JsLessIrreflexive(a[1..]);
    }
  }

  /** Of two strings at most one is less than the other. */
  lemma {:induction false} JsLessAsymmetric(a: string, b: string)
    ensures JsLess(a, b) ==> !JsLess(b, a)
    decreases |a|
  {
    if |a| > 0 && |b| > 0 && a[0] == b[0] {
      JsLessAsymmetric(a[1..], b[1..]);
    }
  }

  /** Of two different strings one is less than the other. */
  lemma {:induction false} JsLessTotal(a: string, b: string)
    ensures a != b ==> JsLess(a, b) || JsLess(b, a)
    decreases |a|
  {
    if |a| > 0 && |b| > 0 && a[0] == b[0] {
      JsLessTotal(a[1..], b[1..]);
      assert a == [a[0]] + a[1..] && b == [b[0]] + b[1..];
    }
  }

  /** The order is transitive, so with the two lemmas above it is a strict total order. */
  lemma {:induction false} JsLessTransitive(a: string, b: string, c: string)
    requires JsLess(a, b) && JsLess(b, c)
    ensures JsLess(a, c)
    decreases |a|
  {
    if |a| > 0 && a[0] == b[0] && b[0] == c[0] {
      JsLessTransitive(a[1..], b[1..], c[1..]);
    }
  }

  /** For single-digit values the string comparison agrees with the numeric one. */
  lemma SingleDigitCompare(a: nat, b: nat)
    requires a < 10 && b < 10
    ensures JsLess(Decimal(a), Decimal(b)) <==> a < b
  {
    assert Decimal(a) == [Digit(a)] && Decimal(b) == [Digit(b)];
    assert Decimal(a)[1..] == [] && Decimal(b)[1..] == [];
  }
}

=== FILE: wrappers.dfy ===
/** Failure-aware result types shared by every module of the model. */
module Wrappers {

  /** A value that may be missing: the model's stand-in for `null`, `undefined` and `NaN`. */
  datatype Option<+T> = None | Some(value: T) {
    function GetOr(default: T): T {
      match this
      case Some(v) => v
      case None => default
    }
  }

  /** The outcome of an operation that may be rejected with an error value. */
  datatype Result<+R, +E> = Success(value: R) | Failure(error: E)
}
